=== FILE: README.md ===
# A Dafny model of the TicketNow XML store and of MozartSpaces' core pieces

The repository has two halves, and both are modelled here.

**The TicketNow XML record store (PHP).** Three classes keep the films
(`lFilme`), the subscribers (`lSubscriber`) and the film/subscriber join
(`lFilmeSubscriber`) in one XML file each. A record is a sequence of
children: `codigo`, then the table's fields, then `reg_date`. All three
classes share one scheme, modelled once over a `Schema` (module
`RecordStore`). The three schemas are defined in module `Entities`.

- **Codes.** A new record's code comes from `buscaEspacoVazio` (module
  `CodeAllocation`). The first gap in the sequence F0000, F0001, … is reused
  in place. Without a gap, the record gets the next number and is appended.
- **Insert** checks that required fields are present, that unique fields
  are not already taken, and that the rating is in range. It fills in
  defaults and stamps the record with a registration time.
- **Select** has two modes. With every parameter null it returns the whole
  table. Otherwise it returns the records matching every non-null
  parameter, plus a rating range for films (module `RecordQuery`).
- **Update** works on the first selected record. It rejects an invalid
  code, checks uniqueness, the rating and references on each changed
  field, and reports "no change" when nothing changed.
- **Delete** removes the first selected record.
- **PHP helpers** the store relies on are modelled in `PhpText` (`intval`,
  `substr`, `sprintf('%04d')`) and `Decimals` (`floatval` and XPath
  `number()` on exact decimals).

**MozartSpaces (Java).**

- `OrderedLongSet`: `StoredOrderedLongSet`, a doubly linked list stored in a
  key-to-links map. It is proved to represent a sequence on which every
  operation acts as named.
- `CoreUtils`: reference parsing and URI port cloning.
- `MzsConstants` and `NativeSelector`: the special count constants and the
  selector's count checks.
- `Authorization`: `AuthorizationTarget` matching and equality.
- `NativeLock`: the per-entry lock of `DefaultIsolationManager`, which
  covers adding, releasing and surrendering locks.
- `AspectManager`: `SimpleAspectManager`'s aspect registry and its
  per-point aspect lists.
- `SubTransaction`: the life cycle and log routing of `DefaultSubTransaction`.
- `QueueCoordinator`: `DefaultQueueCoordinator`'s FIFO/LIFO queue, its
  position map and `getAll` selection.
- `CreateContainer`: `CreateContainerRequest`'s argument checks and its
  builder defaults.

How effects are handled:

- Every operation is a pure function from the old state to the new state,
  or to the error the source reports.
- Saving files, reading the clock and logging are left to the caller.
  `now` is a parameter, and the tables are values.

PHP paths below start with `Trab2bimSD/0.SistemaWeb/` or `0.SistemaWeb/`,
as the repository lays them out. Java paths start with `2.TupleSpace/`.

## Model

| member | source | states |
|---|---|---|
| CodeAllocation.FindGap | Trab2bimSD/0.SistemaWeb/Database/logicas/lFilme.php:123-139 | the scan returns the first position whose code is not the one expected there, with every earlier code as expected; or it reports that every code is as expected |
| CodeAllocation.AllocatedNumber | Trab2bimSD/0.SistemaWeb/Database/logicas/lFilme.php:236-246 | on a well-numbered table the new code is the code of a number lying strictly between the numbers of the records before and after its place |
| CodeAllocation.AllocationKeepsNumbering | Trab2bimSD/0.SistemaWeb/Database/logicas/lFilme.php:236-246 | the allocated code is not already in the table, and placing it keeps the codes increasing |
| CodeAllocation.DenseAllocatesNext | 0.SistemaWeb/Database/logicas/lSubscriber.php:121-137 | on a table without gaps the new record takes the next number and is appended, and the table stays without gaps |
| CodeAllocation.GapIsReused | Trab2bimSD/0.SistemaWeb/TicketNow/Database/logicas/lFilmeSubscriber.php:105-123 | after one record is removed from a gap-free table, the next insert gets back the freed code at the freed place, which restores the table's codes |
| CodeAllocation.StoreCodesInvert | Trab2bimSD/0.SistemaWeb/Database/logicas/lFilme.php:236-242 | reading back the number of a code written as prefix + `sprintf('%04d')` gives the number |
| PhpText.IntvalOfSprintf04d | Trab2bimSD/0.SistemaWeb/Database/logicas/lFilme.php:238-242 | `intval` of the zero-padded text of any integer, negative ones included, is that integer |
| PhpText.CodeInjective | Trab2bimSD/0.SistemaWeb/Database/logicas/lFilme.php:241-245 | two numbers get the same code only if they are equal |
| PhpText.Substr1 | Trab2bimSD/0.SistemaWeb/Database/logicas/lFilme.php:238 | `substr($s, 1)` is what follows the first character, and "" for texts of at most one character |
| Decimals.FloatvalOfFormat | Trab2bimSD/0.SistemaWeb/Database/logicas/lFilme.php:179-184 | `floatval` reads back every decimal from its printed text |
| Decimals.XPathNumberOfFormat | Trab2bimSD/0.SistemaWeb/Database/logicas/lFilme.php:375 | XPath `number()` reads back every decimal from its printed text |
| Decimals.RatingRejectedOfFormat | Trab2bimSD/0.SistemaWeb/Database/logicas/lFilme.php:179-184 | a printed rating is rejected exactly when it lies outside 0.0 to 5.0 |
| Records.DecodeEncode | Trab2bimSD/0.SistemaWeb/Database/logicas/lFilme.php:151-166 | reading back the children written for a record gives the record |
| Records.EncodeDecode | Trab2bimSD/0.SistemaWeb/Database/logicas/lFilme.php:151-166 | writing back a record read from children with distinct names in schema order gives those children |
| Records.FirstText | Trab2bimSD/0.SistemaWeb/Database/logicas/lFilme.php:155-163 | `$obj->name` is the text of the first child of that name, or "" when there is none |
| RecordQuery.Select | Trab2bimSD/0.SistemaWeb/Database/logicas/lFilme.php:329-396 | with every parameter null, select returns the whole table; a query with no condition is an error; otherwise it returns exactly the matching records, each as often and in the same document order as in the table (`Filter`, which an empty table, the one-record case and `FilterConcat` pin down) |
| RecordQuery.FirstMatch | Trab2bimSD/0.SistemaWeb/Database/logicas/lFilme.php:410-414 | the position of the first matching record, with none before it; or none if no record matches |
| RecordQuery.FilterHeadIsFirstMatch | Trab2bimSD/0.SistemaWeb/Database/logicas/lFilme.php:410-414 | `$result[0]` of a select is the first matching record, and the result is empty exactly when no record matches |
| RecordQuery.FilterConcat | Trab2bimSD/0.SistemaWeb/Database/logicas/lFilme.php:393-395 | the selection keeps document order: filtering a concatenation concatenates the filtered parts |
| RecordQuery.FilterConjunction | Trab2bimSD/0.SistemaWeb/Database/logicas/lFilme.php:346-393 | a conjunction of conditions selects what filtering by one condition and then by the other selects |
| RecordQuery.FieldQueryMatches | Trab2bimSD/0.SistemaWeb/Database/logicas/lFilme.php:348-351 | a one-field query with a non-null value matches exactly the records holding that value |
| RecordStore.TakenIff | Trab2bimSD/0.SistemaWeb/Database/logicas/lFilme.php:196-201 | `getFilmeByTitulo(v) != null` holds exactly when some record has title v |
| RecordStore.BuildFieldsFirstError | Trab2bimSD/0.SistemaWeb/Database/logicas/lFilme.php:252-284 | a refused insert reports the error of the first field, in document order, whose check fails |
| RecordStore.InsertFacts | Trab2bimSD/0.SistemaWeb/Database/logicas/lFilme.php:220-306 | an insert succeeds exactly when every field passes its check (otherwise it reports the first failing one); it then places one record at the allocated position, leaves the others in order, and gives the new record the allocated code, the time, and each parameter or its default |
| RecordStore.InsertedValue | 0.SistemaWeb/Database/logicas/lSubscriber.php:274-294 | a null optional parameter is stored as the field's default text, and any other parameter is stored as given |
| RecordStore.LocateIsFirstSelected | Trab2bimSD/0.SistemaWeb/Database/logicas/lFilme.php:445-449 | update and delete work on `$result[0]` of the select on the code; nothing is found exactly when that select is empty |
| RecordStore.UpdateReports | Trab2bimSD/0.SistemaWeb/Database/logicas/lFilme.php:442-498 | an empty code is refused as invalid (as not found on an empty table), and a code nobody holds is not found. Otherwise the first record with the code is the one updated. The update is refused exactly when a changed field fails its check, reports no change exactly when no field changes, and otherwise replaces only that record with changed fields new and the rest old |
| RecordStore.ApplyFieldsFirstError | Trab2bimSD/0.SistemaWeb/TicketNow/Database/logicas/lFilmeSubscriber.php:355-368 | a refused update reports the first changed field whose uniqueness, rating or reference check fails |
| RecordStore.Update | 0.SistemaWeb/Database/logicas/lSubscriber.php:437-493 | a successful update changes only the record holding the code and keeps the table's length |
| RecordStore.Delete | Trab2bimSD/0.SistemaWeb/Database/logicas/lFilme.php:408-422 | corrected delete: succeeds exactly when a non-empty code is held by a record, then removes the first such record and nothing else; otherwise reports "not found" |
| RecordStore.DeleteAsWritten | Trab2bimSD/0.SistemaWeb/TicketNow/Database/logicas/lFilmeSubscriber.php:315-329 | the delete as written removes exactly one record whenever the select finds one |
| RecordStore.CreateTable | Trab2bimSD/0.SistemaWeb/Database/logicas/lFilme.php:81-109 | a new table holds the template record only |
| StoreProperties.InsertKeepsConsistent | Trab2bimSD/0.SistemaWeb/Database/logicas/lFilme.php:236-284 | an insert keeps codes unique and increasing and keeps unique fields unique |
| StoreProperties.DeleteKeepsConsistent | Trab2bimSD/0.SistemaWeb/Database/logicas/lFilme.php:408-422 | a delete keeps codes unique and increasing and keeps unique fields unique |
| StoreProperties.UpdateKeepsConsistent | 0.SistemaWeb/Database/logicas/lSubscriber.php:452-462 | an update never changes a code, and keeps unique fields (title, CPF, email) unique |
| StoreProperties.DeleteUndoesInsert | Trab2bimSD/0.SistemaWeb/Database/logicas/lFilme.php:220-306 | deleting the code an insert allocated gives back the table before the insert |
| StoreProperties.InsertedCodeIsOnlyAt | Trab2bimSD/0.SistemaWeb/Database/logicas/lFilme.php:236-246 | after an insert, the allocated code is non-empty and held by the new record only |
| StoreProperties.UpdateIsIdempotent | Trab2bimSD/0.SistemaWeb/Database/logicas/lFilme.php:487-489 | repeating a successful update reports "no change" |
| StoreProperties.InsertKeepsDense | Trab2bimSD/0.SistemaWeb/Database/logicas/lFilme.php:236-246 | an insert into a gap-free table appends, keeps the old records as the prefix, and stays gap-free |
| StoreProperties.DeletedCodeIsReused | Trab2bimSD/0.SistemaWeb/Database/logicas/lFilme.php:123-139 | deleting a record from a gap-free table frees its code, and the next insert takes that code at that place |
| StoreProperties.InsertAllFromTemplate | Trab2bimSD/0.SistemaWeb/TicketNow/Database/logicas/lFilmeSubscriber.php:199-252 | on a fresh table, inserts into a schema with no unique or rating field all succeed; the records are the template and then one per insert, coded with prefix and 0, 1, 2, … |
| Entities.SchemasWellFormed | Trab2bimSD/0.SistemaWeb/Database/logicas/lFilme.php:81-109 | the three tables have distinct field names and every unique field is required |
| Entities.NewTablesHaveNoGaps | 0.SistemaWeb/Database/logicas/lSubscriber.php:79-108 | each freshly created table is gap-free and consistent |
| Entities.FilmeTitleChecks | Trab2bimSD/0.SistemaWeb/Database/logicas/lFilme.php:252-257 | a film insert without a title is refused as missing, and one with a taken title as duplicate |
| Entities.FilmeDefaults | Trab2bimSD/0.SistemaWeb/Database/logicas/lFilme.php:278-296 | a film inserted without rating, director or cast gets the default rating and the two "(sem informações …)" texts |
| Entities.NonNumericRatingsPass | Trab2bimSD/0.SistemaWeb/Database/logicas/lFilme.php:179-184 | the default rating and non-numeric texts read as 0 and pass the rating check |
| Entities.DefaultRatingNeverInRange | Trab2bimSD/0.SistemaWeb/Database/logicas/lFilme.php:375 | a film with the default rating never falls inside a rating range |
| RecordQuery.RatingInRangeOfFormat | Trab2bimSD/0.SistemaWeb/Database/logicas/lFilme.php:375 | `avaliacao>=min and avaliacao<=max` holds for a printed rating exactly when its number lies between the bounds, both included |
| Entities.JoinInserts | 0.SistemaWeb/TicketNow/Database/logicas/doc_lFilmeSubscriber.php:73-85 | the five join inserts of the documented test leave six records, the template first, coded X0000 to X0005 |
| Entities.DeleteEmptyCodeExample | Trab2bimSD/0.SistemaWeb/Database/logicas/lFilme.php:408-422 | no film has an empty code, yet the written delete of "" empties a fresh table, while the corrected delete reports "not found" |
| OrderedLongSet.Open | 2.TupleSpace/org/mozartspaces/capi3/javanative/persistence/StoredOrderedLongSet.java:41-52 | opening a map stores the (first, last) pair, and a map that already has one is used unchanged |
| OrderedLongSet.EmptyValid | 2.TupleSpace/org/mozartspaces/capi3/javanative/persistence/StoredOrderedLongSet.java:200-205 | a new store, and a cleared one, represent the empty sequence |
| OrderedLongSet.ReopenValid | 2.TupleSpace/org/mozartspaces/capi3/javanative/persistence/StoredOrderedLongSet.java:41-52 | reopening the stored map of a set gives back the same set |
| OrderedLongSet.SizeValid | 2.TupleSpace/org/mozartspaces/capi3/javanative/persistence/StoredOrderedLongSet.java:195-197 | `size()` is the length of the represented sequence |
| OrderedLongSet.AppendValid | 2.TupleSpace/org/mozartspaces/capi3/javanative/persistence/StoredOrderedLongSet.java:107-120 | appending a new value represents the old sequence followed by it |
| OrderedLongSet.PrependValid | 2.TupleSpace/org/mozartspaces/capi3/javanative/persistence/StoredOrderedLongSet.java:126-138 | prepending a new value represents it followed by the old sequence |
| OrderedLongSet.InsertBeforeValid | 2.TupleSpace/org/mozartspaces/capi3/javanative/persistence/StoredOrderedLongSet.java:58-77 | inserting before the element at position k places the new value at position k |
| OrderedLongSet.InsertAfterValid | 2.TupleSpace/org/mozartspaces/capi3/javanative/persistence/StoredOrderedLongSet.java:83-101 | inserting after the element at position k places the new value at position k + 1 |
| OrderedLongSet.RemoveValid | 2.TupleSpace/org/mozartspaces/capi3/javanative/persistence/StoredOrderedLongSet.java:156-189 | removing any element (only, first, last or inner) represents the sequence without it |
| OrderedLongSet.MissingIsNoSuchElement | 2.TupleSpace/org/mozartspaces/capi3/javanative/persistence/StoredOrderedLongSet.java:58-62 | anchoring at, or removing, a value other than -1 (`FIRST_LAST`) that the set does not hold throws `NoSuchElementException` |
| OrderedLongSet.FirstLastNeverMissing | 2.TupleSpace/org/mozartspaces/capi3/javanative/persistence/StoredOrderedLongSet.java:35-187 | -1 is the key of the stored (first, last) pair, so anchoring at it or removing it never throws: on an empty set it inserts the only element or clears, and on a non-empty set it rewrites the stored pair (inserting before it) or drops the pair (removing it) |
| OrderedLongSet.Next | 2.TupleSpace/org/mozartspaces/capi3/javanative/persistence/StoredOrderedLongSet.java:255-265 | `next()` succeeds exactly while `hasNext()` holds, and returns the current value |
| OrderedLongSet.IterateValid | 2.TupleSpace/org/mozartspaces/capi3/javanative/persistence/StoredOrderedLongSet.java:240-265 | the iterator returns the elements in sequence order, and one more `next()` throws `NoSuchElementException` |
| CoreUtils.LastIndexOf | 2.TupleSpace/org/mozartspaces/core/util/CoreUtils.java:201 | the position of the last occurrence, with none after it, or -1 |
| CoreUtils.ParseReference | 2.TupleSpace/org/mozartspaces/core/util/CoreUtils.java:194-199 | a null string parses to a null reference, and a successful parse of a string gives a reference |
| CoreUtils.ParseSplits | 2.TupleSpace/org/mozartspaces/core/util/CoreUtils.java:194-220 | a string is accepted exactly when its last '/' ends at or after the prefix length; it then splits into space, prefix and a '/'-free id |
| CoreUtils.RoundTrip | 2.TupleSpace/org/mozartspaces/core/Reference.java:93-95 | the string form of a reference parses back to the same id and space exactly when the id holds no '/' |
| CoreUtils.ParseThenRepresent | 2.TupleSpace/org/mozartspaces/core/util/CoreUtils.java:201-220 | representing a parsed reference gives back the parsed string |
| CoreUtils.EmbeddedSpaces | 2.TupleSpace/org/mozartspaces/core/util/CoreUtils.java:70-75 | a null space is embedded; a reference read back from the own space's string is embedded exactly when its id holds no '/' |
| CoreUtils.CloneProperties | 2.TupleSpace/org/mozartspaces/core/util/CoreUtils.java:86-90 | cloning keeps the text through the last ':' (nothing when the URI has none), the port reads back after it, and cloning twice equals cloning once with the second port |
| MzsConstants.LegalCounts | 2.TupleSpace/mozartspaces/core/MzsConstants.java:99-140 | a count is legal exactly when it is special or non-negative; the legal negatives are exactly the special ones; the default count is legal and not special |
| NativeSelector.CheckAgreesWithMet | 2.TupleSpace/org/mozartspaces/capi3/javanative/coordination/AbstractNativeSelector.java:79-106 | for a non-special count, `checkCount` passes exactly when `isCountMet` holds; a special count always passes yet is never met |
| NativeSelector.CausePriority | 2.TupleSpace/org/mozartspaces/capi3/javanative/coordination/AbstractNativeSelector.java:128-140 | the three-cause check fails exactly when the count check does; it reports a locked entry first, then access denied, then count not met |
| NativeSelector.NewSelector | 2.TupleSpace/org/mozartspaces/capi3/javanative/coordination/AbstractNativeSelector.java:59-65 | a selector is built exactly for counts at or above `COUNT_ALL`, and keeps its name and count |
| NativeSelector.SelectorIdentity | 2.TupleSpace/org/mozartspaces/capi3/javanative/coordination/AbstractNativeSelector.java:196-223 | selector equality is an equivalence that ignores the count, and equal selectors have equal hashes |
| NativeSelector.Wrap32 | 2.TupleSpace/org/mozartspaces/capi3/javanative/coordination/AbstractNativeSelector.java:196-201 | Java `int` arithmetic wraps into the 32-bit range and agrees with the exact value modulo 2^32 |
| Authorization.MatchesSubjects | 2.TupleSpace/org/mozartspaces/core/authorization/AuthorizationTarget.java:99-115 | the loop answers true exactly when the request has a subject whose attributes include those of some target subject |
| Authorization.WildcardsMatch | 2.TupleSpace/org/mozartspaces/core/authorization/AuthorizationTarget.java:86-97 | a target with all three sets null matches every request; a match implies the action and container are allowed |
| Authorization.NoSubjectNoMatch | 2.TupleSpace/org/mozartspaces/core/authorization/AuthorizationTarget.java:99-103 | a target with a subject set never matches a request without subject, nor when the set is empty |
| Authorization.MoreAttributesKeepMatch | 2.TupleSpace/org/mozartspaces/core/authorization/AuthorizationTarget.java:104-113 | a request subject with more attributes still matches, and the empty target subject matches every subject |
| Authorization.TargetEqualsIsEquivalence | 2.TupleSpace/org/mozartspaces/core/authorization/AuthorizationTarget.java:118-146 | the corrected equality is an equivalence, and it agrees with `equals` wherever the latter does not throw |
| Authorization.EqualsThrows | 2.TupleSpace/org/mozartspaces/core/authorization/AuthorizationTarget.java:118-146 | `equals` throws only on unequal targets, whose swapped comparison answers false; a concrete pair shows the throw |
| NativeLock.CompareMeans | 2.TupleSpace/org/mozartspaces/capi3/javanative/isolation/DefaultIsolationManager.java:547-567 | a requester may take a lock exactly when nobody holds it, or its transaction holds it either transaction-wide or through the same subtransaction |
| NativeLock.FirstConflict | 2.TupleSpace/org/mozartspaces/capi3/javanative/isolation/DefaultIsolationManager.java:320-327 | the first reader the requester may not share with, or none exactly when it may share with all |
| NativeLock.AddLockGrants | 2.TupleSpace/org/mozartspaces/capi3/javanative/isolation/DefaultIsolationManager.java:275-346 | a lock is granted exactly when no write lock conflicts (and no reader, unless reading); granting records the owner, and a denial changes nothing and names a holder that blocks |
| NativeLock.InsertLockRefused | 2.TupleSpace/org/mozartspaces/capi3/javanative/isolation/DefaultIsolationManager.java:275-318 | asking an existing lock for an insert lock is an error |
| NativeLock.DeleteLockBlocksAll | 2.TupleSpace/org/mozartspaces/capi3/javanative/isolation/DefaultIsolationManager.java:341-346 | while a delete lock is held, every further lock request is denied |
| NativeLock.NewLockOwnedByCreator | 2.TupleSpace/org/mozartspaces/capi3/javanative/isolation/DefaultIsolationManager.java:254-262 | a new lock is granted to its creating subtransaction and denied to every other transaction |
| NativeLock.ReleaseIffHeld | 2.TupleSpace/org/mozartspaces/capi3/javanative/isolation/DefaultIsolationManager.java:375-456 | a release succeeds exactly when the requester holds the lock and then frees only that slot; a read release removes one entry, or every entry of the transaction |
| NativeLock.AddThenRelease | 2.TupleSpace/org/mozartspaces/capi3/javanative/isolation/DefaultIsolationManager.java:275-456 | releasing a delete lock just granted, or a read lock the subtransaction did not hold before, gives back the lock as it was; releasing a granted exclusive lock empties the exclusive slot, even when the transaction held it at transaction level before |
| NativeLock.SurrenderIffHeld | 2.TupleSpace/org/mozartspaces/capi3/javanative/isolation/DefaultIsolationManager.java:466-528 | surrendering succeeds exactly when the subtransaction holds the lock; a read lock keeps its number of readers |
| NativeLock.SurrenderMovesToTransaction | 2.TupleSpace/org/mozartspaces/capi3/javanative/isolation/DefaultIsolationManager.java:466-528 | a surrendered insert, delete or exclusive lock passes to the parent transaction with nothing else changed, so sibling subtransactions may then take it and the parent can release it; a surrendered read lock turns one entry of the subtransaction into the parent's, with the other entries and the parent's release unchanged |
| NativeLock.WithoutTxKeepsOthers | 2.TupleSpace/org/mozartspaces/capi3/javanative/isolation/DefaultIsolationManager.java:375-400 | removing a transaction's read entries keeps exactly the entries of other transactions |
| AspectManager.CreateAspectRefFresh | 2.TupleSpace/mozartspaces/org/mozartspaces/runtime/aspects/SimpleAspectManager.java:150-157 | a new id carries the incremented counter, ends with "_" and the container, and differs from every id numbered before |
| AspectManager.NewManagerValid | 2.TupleSpace/mozartspaces/org/mozartspaces/runtime/aspects/SimpleAspectManager.java:79-94 | the new manager satisfies the invariant, its container points are exactly the named `ContainerIPoint` constants, and it answers an empty list for every space point and container |
| AspectManager.AddSpaceAspectValid | 2.TupleSpace/mozartspaces/org/mozartspaces/runtime/aspects/SimpleAspectManager.java:96-113 | adding a space aspect succeeds exactly for space points, so any container point (even one named like a space point) throws; a failure leaves the registry, the counter and the container lists alone; a success appends the aspect to the named points' lists only and keeps the invariant |
| AspectManager.AddContainerAspectValid | 2.TupleSpace/mozartspaces/org/mozartspaces/runtime/aspects/SimpleAspectManager.java:116-148 | adding a container aspect succeeds exactly for container points, so any space point throws; a failure still leaves the container's lists stored, created empty when new, and touches neither the registry, the counter nor the space lists; a success records the container, and the invariant holds either way |
| AspectManager.AddContainerAspectLists | 2.TupleSpace/mozartspaces/org/mozartspaces/runtime/aspects/SimpleAspectManager.java:116-148 | a container aspect is appended to that container's lists at the given points; all other lists are untouched |
| AspectManager.RemoveAspectOutcome | 2.TupleSpace/mozartspaces/org/mozartspaces/runtime/aspects/SimpleAspectManager.java:160-186 | removing an unregistered aspect throws `AspectException` and changes nothing; a registered one is removed exactly when the points are of its kind, a point of the other kind (even one of the same name) throws, and a failure leaves the registry and the counter alone |
| AspectManager.RemoveAspectValid | 2.TupleSpace/mozartspaces/org/mozartspaces/runtime/aspects/SimpleAspectManager.java:160-207 | after a removal the registration keeps only the points not named, is forgotten when none is left, and the invariant holds |
| AspectManager.RemoveSpaceAspectLists | 2.TupleSpace/mozartspaces/org/mozartspaces/runtime/aspects/SimpleAspectManager.java:172-186 | removing a space aspect takes it out of exactly the named space lists |
| AspectManager.RemoveContainerAspectLists | 2.TupleSpace/mozartspaces/org/mozartspaces/runtime/aspects/SimpleAspectManager.java:172-186 | removing a container aspect takes it out of exactly the named lists of its container |
| AspectManager.AddThenRemoveSpaceAspect | 2.TupleSpace/mozartspaces/org/mozartspaces/runtime/aspects/SimpleAspectManager.java:96-207 | adding a space aspect and removing it at all points gives back the lists and the registry; only the counter has moved |
| AspectManager.RemoveAtAppendAt | 2.TupleSpace/mozartspaces/org/mozartspaces/runtime/aspects/SimpleAspectManager.java:108-186 | appending an aspect at some points and removing it at all of them gives the lists back |
| AspectManager.RemoveContainerValid | 2.TupleSpace/mozartspaces/org/mozartspaces/runtime/aspects/SimpleAspectManager.java:210-236 | removing a container keeps the invariant and forgets its lists; the corrected version tells exactly those of the container's aspects that extend `AbstractContainerAspect`; the written and the corrected version leave the same state |
| AspectManager.RemoveContainerForgets | 2.TupleSpace/mozartspaces/org/mozartspaces/runtime/aspects/SimpleAspectManager.java:210-236 | removing a container forgets exactly its aspects and keeps every other aspect with its container |
| AspectManager.RemoveContainerTellsOthers | 2.TupleSpace/mozartspaces/org/mozartspaces/runtime/aspects/SimpleAspectManager.java:216-234 | the written removal tells none of the removed container's aspects, and tells each aspect of the other containers exactly when it extends `AbstractContainerAspect` |
| AspectManager.RemoveContainerExample | 2.TupleSpace/mozartspaces/org/mozartspaces/runtime/aspects/SimpleAspectManager.java:216-234 | with one `AbstractContainerAspect` on each of two containers, removing one container tells the other container's aspect |
| SubTransaction.NewIsRunning | 2.TupleSpace/org/mozartspaces/capi3/javanative/isolation/DefaultSubTransaction.java:65-84 | construction fails on a null parent or a negative id; otherwise the subtransaction is running, valid and empty, with id = parent id + number |
| SubTransaction.EndsOnce | 2.TupleSpace/org/mozartspaces/capi3/javanative/isolation/DefaultSubTransaction.java:97-146 | commit and rollback each succeed exactly once, on an active subtransaction, and notify the parent last; afterwards both fail and the subtransaction is invalid |
| SubTransaction.CommitReplaysAll | 2.TupleSpace/org/mozartspaces/capi3/javanative/isolation/DefaultSubTransaction.java:97-120 | commit commits every log item, in log order, before notifying the parent |
| SubTransaction.RollbackReplaysAll | 2.TupleSpace/org/mozartspaces/capi3/javanative/isolation/DefaultSubTransaction.java:122-146 | rollback rolls back every log item exactly once, log by log: delete, read, insert, lock, other |
| SubTransaction.RollbackUndoesWritesBeforeCreate | 2.TupleSpace/org/mozartspaces/capi3/javanative/isolation/DefaultSubTransaction.java:122-146 | writes are rolled back before container creations, and deletions before writes |
| SubTransaction.AddLogRoutes | 2.TupleSpace/org/mozartspaces/capi3/javanative/isolation/DefaultSubTransaction.java:221-260 | a null item is refused; any other item is appended to the log of its kind only, and its container is remembered |
| SubTransaction.Commits | 2.TupleSpace/org/mozartspaces/capi3/javanative/isolation/DefaultSubTransaction.java:101-105 | one commit event per log item, in order |
| QueueCoordinator.RegisterValid | 2.TupleSpace/org/mozartspaces/capi3/javanative/coordination/DefaultQueueCoordinator.java:244-252 | registering a new entry appends it with a position above every other, keeps the others' positions, and keeps the invariant |
| QueueCoordinator.UnregisterValid | 2.TupleSpace/org/mozartspaces/capi3/javanative/coordination/DefaultQueueCoordinator.java:254-274 | unregistering reports whether the entry was queued, removes it from queue and positions, keeps every other entry, and gives the same queue in both orders |
| QueueCoordinator.NewValid | 2.TupleSpace/org/mozartspaces/capi3/javanative/coordination/DefaultQueueCoordinator.java:114-123 | a new coordinator is valid and empty |
| QueueCoordinator.IterationOrder | 2.TupleSpace/org/mozartspaces/capi3/javanative/coordination/DefaultQueueCoordinator.java:363-391 | a FIFO queue is selected front to back and a LIFO queue back to front, which is what sorting by position gives |
| QueueCoordinator.PredecessorOrderFacts | 2.TupleSpace/org/mozartspaces/capi3/javanative/coordination/DefaultQueueCoordinator.java:342-361 | predecessor entries come out in position order (rising for FIFO, falling for LIFO), and only registered entries of the predecessor |
| QueueCoordinator.PredecessorKeepsRegistered | 2.TupleSpace/org/mozartspaces/capi3/javanative/coordination/DefaultQueueCoordinator.java:342-361 | with distinct positions every registered predecessor entry is kept |
| QueueCoordinator.BuildAscending | 2.TupleSpace/org/mozartspaces/capi3/javanative/coordination/DefaultQueueCoordinator.java:342-361 | sorting a queue whose positions rise gives the queue back |
| QueueCoordinator.TakeCount | 2.TupleSpace/org/mozartspaces/capi3/javanative/coordination/AbstractNativeSelector.java:79-84 | a special count takes every entry, another count at or below zero takes none, and a count n takes the first n |
| QueueCoordinator.GetAllResult | 2.TupleSpace/org/mozartspaces/capi3/javanative/coordination/DefaultQueueCoordinator.java:363-391 | without a predecessor, `getAll` fails with "count not met" exactly when a non-special count exceeds the queue; otherwise it returns the first count entries in iteration order |
| QueueCoordinator.RestoreValid | 2.TupleSpace/org/mozartspaces/capi3/javanative/coordination/DefaultQueueCoordinator.java:165-178 | the corrected restore rebuilds a valid coordinator holding every stored entry, on which new entries can be registered |
| QueueCoordinator.RestoreKeepsPositions | 2.TupleSpace/org/mozartspaces/capi3/javanative/coordination/DefaultQueueCoordinator.java:160-178 | after the corrected restore a new entry gets a fresh position and both entries keep their order |
| QueueCoordinator.RestoreReusesPositions | 2.TupleSpace/org/mozartspaces/capi3/javanative/coordination/DefaultQueueCoordinator.java:160-162 | after the written restore a new entry gets the position of a stored one, and sorting by position loses an entry |
| Lists.RemoveFirst | 2.TupleSpace/org/mozartspaces/capi3/javanative/coordination/DefaultQueueCoordinator.java:258-264 | `removeFirstOccurrence` removes one occurrence, if any, and nothing else |
| Lists.RemoveLast | 2.TupleSpace/org/mozartspaces/capi3/javanative/coordination/DefaultQueueCoordinator.java:264-270 | `removeLastOccurrence` removes one occurrence, if any, and nothing else |
| Lists.RemoveOnlyOccurrence | 2.TupleSpace/org/mozartspaces/capi3/javanative/coordination/DefaultQueueCoordinator.java:258-270 | in a list without repeats both removals take out exactly the element's position |
| Lists.Reverse | 2.TupleSpace/org/mozartspaces/capi3/javanative/coordination/DefaultQueueCoordinator.java:350-358 | the reversed list holds the elements back to front |
| CreateContainer.NewRequestChecks | 2.TupleSpace/org/mozartspaces/core/requests/CreateContainerRequest.java:77-107 | the constructor succeeds exactly for a non-negative size, an authorization level and at least one coordinator; it reports the earliest failing check and keeps the arguments, with null lists read as empty |
| CreateContainer.WithBuilder | 2.TupleSpace/org/mozartspaces/core/requests/CreateContainerRequest.java:273-306 | a new builder is unnamed and unbounded, with no authorization, no coordinator lists and no in-memory forcing |
| CreateContainer.BuildDefaultsCoordinator | 2.TupleSpace/org/mozartspaces/core/requests/CreateContainerRequest.java:299-306 | building never lacks a coordinator: with both lists empty it supplies `AnyCoordinator`, storing it in the builder's own obligatory list, and it fails only on a negative size or a missing authorization level; nothing else of the builder changes |
| CreateContainer.BuildTwice | 2.TupleSpace/org/mozartspaces/core/requests/CreateContainerRequest.java:299-306 | a second build from the same builder gives the same request and leaves the builder as the first did |
| CreateContainer.BuildKeepsSuppliedCoordinator | 2.TupleSpace/org/mozartspaces/core/requests/CreateContainerRequest.java:299-306 | the `AnyCoordinator` a build supplied stays in the builder: optional coordinators set afterwards are built beside it |
| CreateContainer.DefaultBuild | 2.TupleSpace/org/mozartspaces/core/requests/CreateContainerRequest.java:285-306 | an untouched builder yields the unnamed, unbounded, unauthorized request with one `AnyCoordinator` |
| CreateContainer.BuildAgreesWithConstructor | 2.TupleSpace/org/mozartspaces/core/requests/CreateContainerRequest.java:299-306 | when the caller gives a coordinator, building is calling the constructor |

## Left out

- File and DOM I/O are not modelled. The tables are values and saving is left to the caller. A failed `save` (the "Erro ao …" messages) is not modelled.
- The clock is not modelled. `date("Y-m-d H:i:s")` is the parameter `now`.
- `createTable`'s read-back of the written file is not modelled; a created table is its template record.
- XPath query text and quote injection are not modelled. A select is evaluated on records, not printed as an XPath string, so a parameter holding `'` does not break the query here.
- PHP loose comparison between numeric strings is not modelled. The update's "changed" test (`$filme->x != $x`) compares texts exactly, while PHP would treat "4.5" and "4.50" as equal.
- Floating point is not modelled. `floatval` and XPath `number()` yield exact decimals, not IEEE doubles. `intval` saturation at `PHP_INT_MAX` and exponent forms ("1e3") are not modelled.
- The select-by-field getters (`getFilmeByTitulo` and the rest) appear only through `Taken`, which is their use in the checks. `traduzSimpleXMLObjectTo…`, `insertFilme`, `updateFilme` and `clearFilme` (object-based wrappers) are not modelled.
- URIs are modelled as text. `URI.create`'s syntax check and `URI.equals` normalisation are not modelled. The four `PATH_PREFIX` lengths are defined outside the modelled files and are a parameter.
- Threads, `synchronized`, the lock monitor and waiting are not modelled. Every operation is atomic.
- OrderedLongSet.MissingIsNoSuchElement: stated for values other than -1. The value -1 (`FIRST_LAST`) is always a key of the stored map, so `insertBefore`, `insertAfter` and `remove` never reject it. They treat the (first, last) pair as an element: on an empty set they insert the only element or clear, and on a non-empty set they overwrite or drop the stored pair. The model does the same (`OrderedLongSet.FirstLastNeverMissing`).
- The persistent stored map is not modelled. `StoredOrderedLongSet` works on an in-memory map, and `destroy`/`close` have no counterpart.
- `TransactionTuple`, `TransactionStatus` transitions outside commit/rollback, and the log items' own commit/rollback bodies are not modelled. Log items are events.
- Queue coordinator persistence (`initPersistence`, the stored position map) is not modelled. A restore takes the stored positions as a map.
- Selector accessibility is not modelled. The isolation manager's entry availability checks are outside the model, so `getAll` treats every entry as accessible. Entry locks and access denial appear only in `NativeSelector.CausePriority`.
- QueueCoordinator.GetAllResult: states the result only for a selector without predecessor. With a predecessor, the candidates are ordered by `PredecessorOrder`, whose order and coverage `QueueCoordinator.PredecessorOrderFacts` states.
- `ContainerIPoint`'s constants are not part of this model; their names are a parameter of the manager. A point is its kind and its name, so a space point and a container point of the same name differ. The aspects' `aspectRemoved` callback is modelled as the set of references told; what the callback itself does is not modelled.
- AspectManager.AddSpaceAspect, AddContainerAspect, RemoveAspect: on a point of the wrong kind the source throws part-way through its loop over a `HashSet`, after changing the lists of the points it visited first. That order is the hash order and is not modelled: the model leaves those lists as they were, and the lemmas about a failure only state what the source leaves untouched.
- AspectManager.AddSpaceAspectValid: on a point of the wrong kind it states the error and that the registry and the container lists are untouched; the space lists the source changed before throwing are not stated (see above).
- AspectManager.AddContainerAspectValid: on a point of the wrong kind it states the error, the registry left as it was and the container's lists created; the lists the source changed before throwing are not stated (see above).
- AspectManager.RemoveAspectOutcome: on a point of the wrong kind it states the error and the registry left as it was; the lists the source changed before throwing are not stated (see above).
- AspectManager.RemoveContainerAsWritten, RemoveContainer: an exception thrown by `aspectRemoved` is caught and logged by the source, so it changes nothing the model holds. Which aspects extend `AbstractContainerAspect` is the parameter `callbacks`.
- AspectManager.CreateAspectRef: `aspectIdCounter` is a Java `int` and wraps after 2^31 - 1 registrations. The model counts without bound, so `CreateAspectRefFresh`'s freshness holds only up to that wrap.
- AspectManager.AddSpaceAspect, AddContainerAspect, RemoveAspect: the registration the source returns holds a live unmodifiable view of the registry's point set, which later removals shrink. The model returns the point set as it is when the call returns.
- RecordStore.Insert, Entities.FilmeTitleChecks: a required parameter that is absent is read as PHP null and reported as the missing-field error. In the source the required parameters are declared `string` without a null default (lFilme.php:220, lSubscriber.php:218, lFilmeSubscriber.php:199), so a null argument raises a `TypeError` before the body runs; only the empty text reaches the "é obrigatório" message. The model does not tell a null required argument from an empty one.
- RecordStore.Insert: the source builds each child with `DOMDocument::createElement(name, value)`, which does not escape the value and reads a `&` in it as the start of an entity reference. The model stores every text as given, so texts holding `&` are not stored as the source's insert stores them. XML entity handling is not modelled. The update path assigns through SimpleXML, which escapes `&`, and agrees with the model.
- RecordStore.InsertFacts: states that each parameter is stored as given; for a text holding `&` the source's insert does not do that (see `RecordStore.Insert` above).
- RecordStore.InsertedValue: states that a non-null parameter is stored as given; for a text holding `&` the source's insert does not do that (see `RecordStore.Insert` above).
- CreateContainerRequest's transaction, isolation level and request context are passed to the superclass and not modelled.
- NativeSelector.StringHash, CoreUtils.LastIndexOf, CoreUtils.ParseReference: Java strings are sequences of UTF-16 code units, and `String.hashCode` and `lastIndexOf` count those units. The model's strings are sequences of Unicode characters. Past a character outside the Basic Multilingual Plane, which Java counts as two units, the model's hash and the positions it compares with a prefix length differ from Java's.
- CreateContainer.Build: the builder's setters are not modelled; a builder is changed by updating its fields.
- `hashCode`/`toString` are not modelled, except the selector hash (`NativeSelector.SelectorHash`), which agrees with selector equality.
- RecordStore.Update: its own contract only states that a success changes one record. The full outcome, error cases included, is `RecordStore.UpdateReports`.

## Findings

| source | as written | input that shows it | evidently intended | confidence | as-written member | corrected member |
|---|---|---|---|---|---|---|
| Trab2bimSD/0.SistemaWeb/Database/logicas/lFilme.php:408-422 | `excluirFilme("")` selects with every parameter null, which returns the whole table, and removes its first record | a fresh film table and code "" | deleting a code that no record holds reports "not found", as the update operations' `$codigo == null` guard does | not executed | RecordStore.DeleteAsWritten, Entities.DeleteEmptyCodeExample | RecordStore.Delete, StoreProperties.DeleteUndoesInsert |
| 2.TupleSpace/org/mozartspaces/core/authorization/AuthorizationTarget.java:118-146 | when this target's set is null and the other's is not, the subject comparison dereferences the null set | `Target(null, null, null).equals(Target({}, null, null))` throws `NullPointerException` | unequal targets answer false | not executed | Authorization.EqualsAsWritten, Authorization.EqualsThrows | Authorization.TargetEquals, Authorization.TargetEqualsIsEquivalence |
| 2.TupleSpace/mozartspaces/org/mozartspaces/runtime/aspects/SimpleAspectManager.java:216-234 | `removeContainer` calls `aspectRemoved` on the aspects whose container differs from the one removed | aspects on containers "c" and "d"; removing "c" tells the aspect on "d" | the removed container's aspects are told | not executed | AspectManager.RemoveContainerAsWritten, AspectManager.RemoveContainerTellsOthers | AspectManager.RemoveContainer, AspectManager.RemoveContainerValid |
| 2.TupleSpace/org/mozartspaces/capi3/javanative/coordination/DefaultQueueCoordinator.java:160-178 | the restored coordinator starts its position counter at 0 | restore a FIFO queue holding entry 10 at position 1, then register entry 20: both get position 1 and sorting by position drops one | the counter resumes above the highest stored position | not executed | QueueCoordinator.RestoreAsWritten, QueueCoordinator.RestoreReusesPositions | QueueCoordinator.Restore, QueueCoordinator.RestoreKeepsPositions |

=== FILE: aspect_manager.dfy ===
/** `SimpleAspectManager`: the registry of space and container aspects.

    An aspect is registered for a set of interception points and gets a
    fresh reference; every interception point keeps the list of aspects
    that run at it, per space or per container.  Removing an aspect from
    some points keeps it registered for the rest, and it is forgotten once
    no point is left.  Transactions are ignored by this manager.

    Aspects are compared by identity and stand here for an integer
    identity.  Interception points are the constants of two enums,
    `SpaceIPoint` and `ContainerIPoint`, which share many names
    (`PRE_READ` is both); a point is its kind and its name, so two points
    of different kinds are never equal, as two constants of different enums
    are not.  `ContainerIPoint` is not part of this model, so the names of
    its constants are a parameter of the manager.  All references belong
    to the one space of the manager and are modelled by their id. */
module AspectManager {
  import opened Wrappers
  import opened Digits
  import opened Lists

  type Aspect = int

  /** A constant of `SpaceIPoint` or of `ContainerIPoint`. */
  datatype IPoint = SpacePoint(name: string) | ContainerPoint(name: string)

  /** The names of the constants of `SpaceIPoint`. */
  const SpacePointNames: set<string> := {
    "PRE_READ", "POST_READ", "PRE_TEST", "POST_TEST", "PRE_TAKE", "POST_TAKE",
    "PRE_DELETE", "POST_DELETE", "PRE_WRITE", "POST_WRITE",
    "PRE_CREATE_TRANSACTION", "POST_CREATE_TRANSACTION",
    "PRE_PREPARE_TRANSACTION", "POST_PREPARE_TRANSACTION",
    "PRE_COMMIT_TRANSACTION", "POST_COMMIT_TRANSACTION",
    "PRE_ROLLBACK_TRANSACTION", "POST_ROLLBACK_TRANSACTION",
    "PRE_CREATE_CONTAINER", "POST_CREATE_CONTAINER",
    "PRE_DESTROY_CONTAINER", "POST_DESTROY_CONTAINER",
    "PRE_LOOKUP_CONTAINER", "POST_LOOKUP_CONTAINER",
    "PRE_LOCK_CONTAINER", "POST_LOCK_CONTAINER",
    "PRE_ADD_ASPECT", "POST_ADD_ASPECT", "PRE_REMOVE_ASPECT", "POST_REMOVE_ASPECT",
    "PRE_SHUTDOWN"
  }

  /** `SpaceIPoint.values()`, which is also `SpaceIPoint.ALL_POINTS`. */
  const SpaceAllPoints: set<IPoint> := set n | n in SpacePointNames :: SpacePoint(n)

  /** `ContainerIPoint.values()` for the given constant names. */
  function ContainerPoints(names: set<string>): (r: set<IPoint>)
    ensures forall p | p in r :: p.ContainerPoint? && p.name in names
    ensures forall n | n in names :: ContainerPoint(n) in r
  {
    set n | n in names :: ContainerPoint(n)
  }

  /** `AspectRegistration`: the reference, the aspect, and the points it is
      (still) registered for. */
  datatype Registration = Registration(ref: string, aspect: Aspect, points: set<IPoint>)

  datatype AspectError =
    | NotRegistered(ref: string)   // AspectException
    | NullPointer                  // NullPointerException: a point of the wrong kind

  /** The manager's maps, keyed by aspect id, interception point and
      container id. */
  datatype Manager = Manager(
    counter: int,
    spaceAllPoints: set<IPoint>,
    containerAllPoints: set<IPoint>,
    aspects: map<string, Aspect>,
    aspectPoints: map<string, set<IPoint>>,
    aspectContainers: map<string, string>,
    spaceAspects: map<IPoint, seq<Aspect>>,
    containerAspects: map<string, map<IPoint, seq<Aspect>>>)

  /** One empty list per point. */
  function EmptyLists(points: set<IPoint>): (r: map<IPoint, seq<Aspect>>)
    ensures r.Keys == points
    ensures forall p | p in r :: r[p] == []
  {
    map p | p in points :: []
  }

  /** What an operation leaves behind: the manager, also after an
      exception, and the registration returned or the exception raised. */
  datatype Outcome = Outcome(after: Manager, result: Result<Registration, AspectError>)

  /** The constructor: an empty list for every space point and no
      container yet; `containerPointNames` names the constants of
      `ContainerIPoint`. */
  function NewManager(containerPointNames: set<string>): Manager {
    Manager(0, SpaceAllPoints, ContainerPoints(containerPointNames), map[], map[], map[], EmptyLists(SpaceAllPoints), map[])
  }

  // ---------------------------------------------------------------- ids

  /** The text of an id up to its first '_'. */
  function BeforeUnderscore(s: string): string {
    if s == [] || s[0] == '_' then [] else [s[0]] + BeforeUnderscore(s[1..])
  }

  /** The number an aspect id starts with. */
  function IdNumber(id: string): Option<int> {
    ParseInt(BeforeUnderscore(id))
  }

  /** `createAspectRef`: the counter is incremented and its decimal text is
      the id, followed by "_" and the container id for a container aspect. */
  function CreateAspectRef(m: Manager, container: Option<string>): (r: (Manager, string)) {
    var n := m.counter + 1;
    (m.(counter := n), IntToString(n) + (if container.Some? then "_" + container.value else ""))
  }

  lemma {:induction false} BeforeUnderscoreOfPrefix(x: string, y: string)
    requires '_' !in x
    requires y == [] || y[0] == '_'
    ensures BeforeUnderscore(x + y) == x
    decreases |x|
  {
    if x == [] {
      assert x + y == y;
    } else {
      assert (x + y)[0] == x[0];
      assert (x + y)[1..] == x[1..] + y;
      BeforeUnderscoreOfPrefix(x[1..], y);
      assert [x[0]] + x[1..] == x;
    }
  }

  /** A created id starts with the new counter value, ends with the
      container id after a '_' for a container aspect, and so differs from
      every id the counter has numbered before. */
  lemma CreateAspectRefFresh(m: Manager, container: Option<string>)
    requires m.counter >= 0
    ensures var (m', id) := CreateAspectRef(m, container);
            && m'.counter == m.counter + 1
            && IdNumber(id) == Some(m'.counter)
            && (container.Some? ==> id[|id| - |container.value| - 1..] == "_" + container.value)
            && (forall other | IdNumber(other).Some? && IdNumber(other).value <= m.counter :: other != id)
  {
    var n := m.counter + 1;
    var suffix := if container.Some? then "_" + container.value else "";
    IntToStringChars(n);
    assert '_' !in IntToString(n);
    BeforeUnderscoreOfPrefix(IntToString(n), suffix);
    ParseIntToString(n);
  }

  // ---------------------------------------------------------------- invariant

  /** Every registered id was numbered by the counter. */
  predicate IdsNumbered(aspects: map<string, Aspect>, counter: int) {
    forall r | r in aspects :: IdNumber(r).Some? && 1 <= IdNumber(r).value <= counter
  }

  /** A container aspect's container has lists. */
  predicate ContainersKnown(aspectContainers: map<string, string>, containerAspects: map<string, map<IPoint, seq<Aspect>>>) {
    forall r | r in aspectContainers :: aspectContainers[r] in containerAspects
  }

  /** The points of an aspect are of its kind. */
  predicate PointsOfKind(aspectPoints: map<string, set<IPoint>>, aspectContainers: map<string, string>,
                         containerAllPoints: set<IPoint>, spaceAllPoints: set<IPoint>) {
    forall r | r in aspectPoints ::
      aspectPoints[r] <= if r in aspectContainers then containerAllPoints else spaceAllPoints
  }

  /** The space points are all of the space kind and the container points
      all of the container kind. */
  predicate KindsApart(spaceAllPoints: set<IPoint>, containerAllPoints: set<IPoint>) {
    && (forall p | p in spaceAllPoints :: p.SpacePoint?)
    && (forall p | p in containerAllPoints :: p.ContainerPoint?)
  }

  /** Every container's list map covers all container points. */
  predicate ListsCover(containerAspects: map<string, map<IPoint, seq<Aspect>>>, containerAllPoints: set<IPoint>) {
    forall c | c in containerAspects :: containerAspects[c].Keys == containerAllPoints
  }

  /** The invariant the operations keep: the per-aspect maps agree, every
      registered id was numbered by the counter, a container aspect's
      container has lists, every list map covers all points of its kind,
      the points of an aspect are of its kind, and the two kinds are
      apart. */
  predicate Valid(m: Manager) {
    && m.counter >= 0
    && KindsApart(m.spaceAllPoints, m.containerAllPoints)
    && m.aspectPoints.Keys == m.aspects.Keys
    && m.aspectContainers.Keys <= m.aspects.Keys
    && IdsNumbered(m.aspects, m.counter)
    && ContainersKnown(m.aspectContainers, m.containerAspects)
    && PointsOfKind(m.aspectPoints, m.aspectContainers, m.containerAllPoints, m.spaceAllPoints)
    && m.spaceAspects.Keys == m.spaceAllPoints
    && ListsCover(m.containerAspects, m.containerAllPoints)
  }

  /** A fresh id numbered by the next counter value keeps the ids numbered,
      and so does forgetting ids. */
  lemma IdsNumberedChanges(aspects: map<string, Aspect>, counter: int, ref: string, a: Aspect, fewer: map<string, Aspect>)
    requires IdsNumbered(aspects, counter) && counter >= 0
    ensures IdNumber(ref) == Some(counter + 1) ==> IdsNumbered(aspects[ref := a], counter + 1)
    ensures fewer.Keys <= aspects.Keys ==> IdsNumbered(fewer, counter)
  {
    if IdNumber(ref) == Some(counter + 1) {
      var more := aspects[ref := a];
      forall r | r in more ensures IdNumber(r).Some? && 1 <= IdNumber(r).value <= counter + 1 {
        if r != ref {
          assert r in aspects;
        }
      }
    }
    if fewer.Keys <= aspects.Keys {
      forall r | r in fewer ensures IdNumber(r).Some? && 1 <= IdNumber(r).value <= counter {
        assert r in aspects;
      }
    }
  }

  /** Pointing an aspect at a container that has lists keeps containers
      known, and so does forgetting aspects or containers no aspect points
      at. */
  lemma ContainersKnownChanges(aspectContainers: map<string, string>, containerAspects: map<string, map<IPoint, seq<Aspect>>>,
                               ref: string, c: string, lists: map<IPoint, seq<Aspect>>, gone: set<string>)
    requires ContainersKnown(aspectContainers, containerAspects)
    ensures ContainersKnown(aspectContainers[ref := c], containerAspects[c := lists])
    ensures ContainersKnown(aspectContainers - gone, containerAspects)
    ensures (forall r | r in aspectContainers && r !in gone :: aspectContainers[r] != c) ==>
              ContainersKnown(aspectContainers - gone, containerAspects - {c})
  {
    var ac := aspectContainers[ref := c];
    var ca := containerAspects[c := lists];
    forall r | r in ac ensures ac[r] in ca {
      if r != ref {
        assert aspectContainers[r] in containerAspects;
      }
    }
    forall r | r in aspectContainers - gone ensures (aspectContainers - gone)[r] in containerAspects {
      assert aspectContainers[r] in containerAspects;
    }
    if forall r | r in aspectContainers && r !in gone :: aspectContainers[r] != c {
      forall r | r in aspectContainers - gone ensures (aspectContainers - gone)[r] in containerAspects - {c} {
        assert aspectContainers[r] in containerAspects && aspectContainers[r] != c;
      }
    }
  }

  /** Registering points of the right kind keeps the points of every aspect
      of its kind, and so do narrowing an aspect's points and forgetting
      aspects. */
  lemma PointsOfKindChanges(aspectPoints: map<string, set<IPoint>>, aspectContainers: map<string, string>,
                            containerAllPoints: set<IPoint>, spaceAllPoints: set<IPoint>,
                            ref: string, points: set<IPoint>, c: string, gone: set<string>)
    requires PointsOfKind(aspectPoints, aspectContainers, containerAllPoints, spaceAllPoints)
    ensures ref !in aspectContainers && points <= spaceAllPoints ==>
              PointsOfKind(aspectPoints[ref := points], aspectContainers, containerAllPoints, spaceAllPoints)
    ensures points <= containerAllPoints ==>
              PointsOfKind(aspectPoints[ref := points], aspectContainers[ref := c], containerAllPoints, spaceAllPoints)
    ensures ref in aspectPoints && points <= aspectPoints[ref] ==>
              PointsOfKind(aspectPoints[ref := points], aspectContainers, containerAllPoints, spaceAllPoints)
    ensures PointsOfKind(aspectPoints - gone, aspectContainers - gone, containerAllPoints, spaceAllPoints)
  {
    forall r | r in aspectPoints - gone
      ensures (aspectPoints - gone)[r] <= if r in aspectContainers - gone then containerAllPoints else spaceAllPoints
    {
      assert aspectPoints[r] <= if r in aspectContainers then containerAllPoints else spaceAllPoints;
    }
    if points <= containerAllPoints {
      var ac := aspectContainers[ref := c];
      forall r | r in aspectPoints[ref := points]
        ensures aspectPoints[ref := points][r] <= if r in ac then containerAllPoints else spaceAllPoints
      {
        if r != ref {
          assert r in ac <==> r in aspectContainers;
        }
      }
    }
  }

  /** Giving a container lists for every container point keeps the lists
      covering, and so does dropping containers. */
  lemma ListsCoverChanges(containerAspects: map<string, map<IPoint, seq<Aspect>>>, containerAllPoints: set<IPoint>,
                          c: string, lists: map<IPoint, seq<Aspect>>)
    requires ListsCover(containerAspects, containerAllPoints)
    ensures lists.Keys == containerAllPoints ==> ListsCover(containerAspects[c := lists], containerAllPoints)
    ensures ListsCover(containerAspects - {c}, containerAllPoints)
  {
  }

  // ---------------------------------------------------------------- lists

  /** `List.add` at every given point. */
  function AppendAt(lists: map<IPoint, seq<Aspect>>, points: set<IPoint>, a: Aspect): (r: map<IPoint, seq<Aspect>>)
    ensures r.Keys == lists.Keys
  {
    map p | p in lists :: if p in points then lists[p] + [a] else lists[p]
  }

  /** `List.remove` at every given point. */
  function RemoveAt(lists: map<IPoint, seq<Aspect>>, points: set<IPoint>, a: Aspect): (r: map<IPoint, seq<Aspect>>)
    ensures r.Keys == lists.Keys
  {
    map p | p in lists :: if p in points then RemoveFirst(lists[p], a) else lists[p]
  }

  // ---------------------------------------------------------------- adding

  /** `addSpaceAspect`: the aspect is appended to the list of every given
      point and registered under a fresh id.  A point without a space list
      (a container point) makes the source throw before an id is
      created. */
  function AddSpaceAspect(m: Manager, a: Aspect, points: set<IPoint>): Outcome {
    if !(points <= m.spaceAspects.Keys) then Outcome(m, Err(NullPointer))
    else
      var created := CreateAspectRef(m, None);
      var ref := created.1;
      Outcome(created.0.(spaceAspects := AppendAt(m.spaceAspects, points, a),
                         aspects := m.aspects[ref := a],
                         aspectPoints := m.aspectPoints[ref := points]),
              Ok(Registration(ref, a, points)))
  }

  /** The lists of a container, created empty for every container point on
      first use. */
  function ListsOf(m: Manager, container: string): map<IPoint, seq<Aspect>> {
    if container in m.containerAspects then m.containerAspects[container] else EmptyLists(m.containerAllPoints)
  }

  /** `addContainerAspect`: the container's lists are stored first, created
      empty when it has none; then, as for a space aspect, the aspect is
      appended on the lists of the container, and it remembers its
      container.  A point without a container list (a space point) makes
      the source throw after the lists were stored. */
  function AddContainerAspect(m: Manager, a: Aspect, container: string, points: set<IPoint>): Outcome {
    var lists := ListsOf(m, container);
    if !(points <= lists.Keys) then
      Outcome(m.(containerAspects := m.containerAspects[container := lists]), Err(NullPointer))
    else
      var created := CreateAspectRef(m, Some(container));
      var ref := created.1;
      Outcome(created.0.(containerAspects := m.containerAspects[container := AppendAt(lists, points, a)],
                         aspects := m.aspects[ref := a],
                         aspectPoints := m.aspectPoints[ref := points],
                         aspectContainers := m.aspectContainers[ref := container]),
              Ok(Registration(ref, a, points)))
  }

  // ---------------------------------------------------------------- getters

  /** `getSpaceAspects`; None for a point that has no space list. */
  function GetSpaceAspects(m: Manager, point: IPoint): Option<seq<Aspect>> {
    if point in m.spaceAspects then Some(m.spaceAspects[point]) else None
  }

  /** `getContainerAspects`: an empty list for a container without
      aspects, None for a point that has no container list. */
  function GetContainerAspects(m: Manager, container: string, point: IPoint): Option<seq<Aspect>> {
    if container !in m.containerAspects then Some([])
    else if point in m.containerAspects[container] then Some(m.containerAspects[container][point])
    else None
  }

  /** `getContainerWhereAspectIsRegistered`; None for a space aspect. */
  function ContainerOf(m: Manager, ref: string): Option<string> {
    if ref in m.aspectContainers then Some(m.aspectContainers[ref]) else None
  }

  /** The new manager is valid, has no aspect, its container points are
      the named constants of the container kind, and every space point and
      every container answers an empty list. */
  lemma NewManagerValid(containerPointNames: set<string>, point: IPoint, container: string)
    ensures Valid(NewManager(containerPointNames))
    ensures NewManager(containerPointNames).aspects == map[]
    ensures point in NewManager(containerPointNames).containerAllPoints
            <==> point.ContainerPoint? && point.name in containerPointNames
    ensures point in SpaceAllPoints <==> GetSpaceAspects(NewManager(containerPointNames), point) == Some([])
    ensures GetContainerAspects(NewManager(containerPointNames), container, point) == Some([])
  {
  }

  /** A new space registration under a fresh id keeps the invariant,
      whatever the lists do as long as they keep their points. */
  lemma RegisterSpaceKeepsValid(m: Manager, m': Manager, ref: string, a: Aspect, points: set<IPoint>)
    requires Valid(m) && ref !in m.aspects && points <= m.spaceAllPoints
    requires m' == m.(counter := m.counter + 1, spaceAspects := m'.spaceAspects,
                      aspects := m.aspects[ref := a], aspectPoints := m.aspectPoints[ref := points])
    requires IdNumber(ref) == Some(m'.counter)
    requires m'.spaceAspects.Keys == m.spaceAspects.Keys
    ensures Valid(m')
  {
    assert ref !in m.aspectContainers;
    IdsNumberedChanges(m.aspects, m.counter, ref, a, m.aspects);
    PointsOfKindChanges(m.aspectPoints, m.aspectContainers, m.containerAllPoints, m.spaceAllPoints, ref, points, "", {});
  }

  /** A new container registration under a fresh id keeps the invariant,
      as long as the container's new lists cover every container point. */
  lemma RegisterContainerKeepsValid(m: Manager, m': Manager, ref: string, a: Aspect, points: set<IPoint>,
                                    container: string, lists: map<IPoint, seq<Aspect>>)
    requires Valid(m) && ref !in m.aspects && points <= m.containerAllPoints
    requires m' == m.(counter := m.counter + 1, containerAspects := m.containerAspects[container := lists],
                      aspects := m.aspects[ref := a], aspectPoints := m.aspectPoints[ref := points],
                      aspectContainers := m.aspectContainers[ref := container])
    requires IdNumber(ref) == Some(m'.counter)
    requires lists.Keys == m.containerAllPoints
    ensures Valid(m')
  {
    IdsNumberedChanges(m.aspects, m.counter, ref, a, m.aspects);
    ContainersKnownChanges(m.aspectContainers, m.containerAspects, ref, container, lists, {});
    PointsOfKindChanges(m.aspectPoints, m.aspectContainers, m.containerAllPoints, m.spaceAllPoints, ref, points, container, {});
    ListsCoverChanges(m.containerAspects, m.containerAllPoints, container, lists);
  }

  /** Adding a space aspect succeeds exactly for space points, so a
      container point, even one named like a space point, makes it throw;
      a failure leaves the registry, the counter and the container lists
      alone.  A success registers a fresh id for the given points, appends
      the aspect to those points' lists only, and keeps the invariant. */
  lemma AddSpaceAspectValid(m: Manager, a: Aspect, points: set<IPoint>)
    requires Valid(m)
    ensures var o := AddSpaceAspect(m, a, points);
            && Valid(o.after)
            && (o.result.Ok? <==> points <= m.spaceAllPoints)
            && ((exists p | p in points :: p.ContainerPoint?) ==> o.result == Err(NullPointer))
            && (o.result.Err? ==> SameRegistry(m, o.after) && o.after.containerAspects == m.containerAspects)
    ensures var o := AddSpaceAspect(m, a, points);
            o.result.Ok? ==>
              var (m', reg) := (o.after, o.result.value);
              && reg.ref !in m.aspects && reg.aspect == a && reg.points == points
              && m'.aspects == m.aspects[reg.ref := a]
              && ContainerOf(m', reg.ref) == None
              && (forall p | p in m.spaceAllPoints ::
                    GetSpaceAspects(m', p).value
                      == if p in points then GetSpaceAspects(m, p).value + [a] else GetSpaceAspects(m, p).value)
              && m'.containerAspects == m.containerAspects
  {
    if points <= m.spaceAllPoints {
      CreateAspectRefFresh(m, None);
      var o := AddSpaceAspect(m, a, points);
      var (m', reg) := (o.after, o.result.value);
      assert reg.ref !in m.aspects;
      assert ContainerOf(m', reg.ref) == None;
      RegisterSpaceKeepsValid(m, m', reg.ref, a, points);
    }
  }

  /** The registry and the counter are the same in both managers. */
  predicate SameRegistry(m: Manager, m': Manager) {
    && m'.counter == m.counter
    && m'.aspects == m.aspects
    && m'.aspectPoints == m.aspectPoints
    && m'.aspectContainers == m.aspectContainers
  }

  /** Adding a container aspect succeeds exactly for container points, so a
      space point, even one named like a container point, makes it throw;
      a failure still leaves the container with lists for every container
      point, and changes neither the registry, the counter nor the space
      lists.  A success registers a fresh id ending in the container id,
      remembers the container, and keeps the invariant. */
  lemma AddContainerAspectValid(m: Manager, a: Aspect, container: string, points: set<IPoint>)
    requires Valid(m)
    ensures var o := AddContainerAspect(m, a, container, points);
            && Valid(o.after)
            && (o.result.Ok? <==> points <= m.containerAllPoints)
            && ((exists p | p in points :: p.SpacePoint?) ==> o.result == Err(NullPointer))
            && (o.result.Err? ==>
                  && SameRegistry(m, o.after) && o.after.spaceAspects == m.spaceAspects
                  && o.after.containerAspects.Keys == m.containerAspects.Keys + {container}
                  && o.after.containerAspects[container].Keys == m.containerAllPoints
                  && (container in m.containerAspects ==> o.after.containerAspects == m.containerAspects)
                  && (container !in m.containerAspects ==>
                        forall p | p in m.containerAllPoints :: o.after.containerAspects[container][p] == []))
    ensures var o := AddContainerAspect(m, a, container, points);
            o.result.Ok? ==>
              var (m', reg) := (o.after, o.result.value);
              && reg.ref !in m.aspects && reg.aspect == a && reg.points == points
              && m'.aspects == m.aspects[reg.ref := a]
              && ContainerOf(m', reg.ref) == Some(container)
  {
    var lists := ListsOf(m, container);
    if points <= m.containerAllPoints {
      CreateAspectRefFresh(m, Some(container));
      var o := AddContainerAspect(m, a, container, points);
      var (m', reg) := (o.after, o.result.value);
      assert reg.ref !in m.aspects;
      RegisterContainerKeepsValid(m, m', reg.ref, a, points, container, AppendAt(lists, points, a));
    } else {
      ListsCoverChanges(m.containerAspects, m.containerAllPoints, container, lists);
      if container in m.containerAspects {
        assert m.containerAspects[container := lists] == m.containerAspects;
      }
    }
  }

  /** A container aspect is appended to the container's lists at the given
      points only; other containers and the space lists are untouched. */
  lemma AddContainerAspectLists(m: Manager, a: Aspect, container: string, points: set<IPoint>)
    requires Valid(m)
    ensures AddContainerAspect(m, a, container, points).result.Ok? ==>
              var m' := AddContainerAspect(m, a, container, points).after;
              && (forall p | p in m.containerAllPoints ::
                    GetContainerAspects(m', container, p).value
                      == if p in points then GetContainerAspects(m, container, p).value + [a]
                         else GetContainerAspects(m, container, p).value)
              && m'.containerAspects.Keys == m.containerAspects.Keys + {container}
              && (forall c | c in m.containerAspects && c != container :: m'.containerAspects[c] == m.containerAspects[c])
              && m'.spaceAspects == m.spaceAspects
  {
  }

  // ---------------------------------------------------------------- removing

  /** The points a removal names: all points of the aspect's kind for
      null. */
  function RemovePoints(m: Manager, ref: string, points: Option<set<IPoint>>): set<IPoint> {
    if points.Some? then points.value
    else if ref in m.aspectContainers then m.containerAllPoints
    else m.spaceAllPoints
  }

  /** The list part of `removeAspect`: the aspect leaves the lists of the
      named points, of the space or of its container. */
  function DetachLists(m: Manager, ref: string, a: Aspect, remove: set<IPoint>): Result<Manager, AspectError> {
    if ref !in m.aspectContainers then
      if !(remove <= m.spaceAspects.Keys) then Err(NullPointer)
      else Ok(m.(spaceAspects := RemoveAt(m.spaceAspects, remove, a)))
    else
      var c := m.aspectContainers[ref];
      if c !in m.containerAspects then (if remove == {} then Ok(m) else Err(NullPointer))
      else if !(remove <= m.containerAspects[c].Keys) then Err(NullPointer)
      else Ok(m.(containerAspects := m.containerAspects[c := RemoveAt(m.containerAspects[c], remove, a)]))
  }

  /** `removeAspect`: an unregistered reference is refused; otherwise the
      aspect leaves the named points, and it is forgotten when no
      registered point is left.  The registration returned holds the points
      that are left.  A point of the other kind makes the source throw
      while it walks the lists, before the registry is touched. */
  function RemoveAspect(m: Manager, ref: string, points: Option<set<IPoint>>): Outcome {
    if ref !in m.aspects then Outcome(m, Err(NotRegistered(ref)))
    else
      var a := m.aspects[ref];
      var remove := RemovePoints(m, ref, points);
      var detached := DetachLists(m, ref, a, remove);
      if detached.Err? then Outcome(m, Err(detached.error))
      else if ref !in m.aspectPoints then Outcome(detached.value, Err(NullPointer))
      else
        var registered := m.aspectPoints[ref] - remove;
        Outcome(Unregister(detached.value, ref, registered), Ok(Registration(ref, a, registered)))
  }

  /** The registry part of `removeAspect`: the points left are kept, or
      the aspect is forgotten when none is left. */
  function Unregister(m: Manager, ref: string, registered: set<IPoint>): Manager {
    if registered == {} then
      m.(aspects := m.aspects - {ref}, aspectPoints := m.aspectPoints - {ref},
         aspectContainers := m.aspectContainers - {ref})
    else m.(aspectPoints := m.aspectPoints[ref := registered])
  }

  /** Detaching succeeds exactly for points of the aspect's kind. */
  lemma DetachListsOutcome(m: Manager, ref: string, a: Aspect, remove: set<IPoint>)
    requires m.spaceAspects.Keys == m.spaceAllPoints
    requires ContainersKnown(m.aspectContainers, m.containerAspects) && ListsCover(m.containerAspects, m.containerAllPoints)
    ensures DetachLists(m, ref, a, remove).Ok? <==>
              remove <= if ref in m.aspectContainers then m.containerAllPoints else m.spaceAllPoints
  {
    if ref !in m.aspectContainers {
      DetachSpaceFacts(m, ref, a, remove);
    } else {
      DetachContainerFacts(m, ref, a, remove);
    }
  }

  /** Detaching changes only lists, and keeps the points of every list
      map. */
  lemma DetachListsKeepsShape(m: Manager, ref: string, a: Aspect, remove: set<IPoint>)
    requires m.spaceAspects.Keys == m.spaceAllPoints
    requires ContainersKnown(m.aspectContainers, m.containerAspects) && ListsCover(m.containerAspects, m.containerAllPoints)
    ensures DetachLists(m, ref, a, remove).Ok? ==>
              var m1 := DetachLists(m, ref, a, remove).value;
              && m1 == m.(spaceAspects := m1.spaceAspects, containerAspects := m1.containerAspects)
              && m1.spaceAspects.Keys == m.spaceAspects.Keys
              && m1.containerAspects.Keys == m.containerAspects.Keys
              && (forall c | c in m.containerAspects :: m1.containerAspects[c].Keys == m.containerAspects[c].Keys)
  {
    if ref !in m.aspectContainers {
      DetachSpaceFacts(m, ref, a, remove);
    } else {
      var c := m.aspectContainers[ref];
      DetachContainerFacts(m, ref, a, remove);
      if DetachLists(m, ref, a, remove).Ok? {
        var m1 := DetachLists(m, ref, a, remove).value;
        forall d | d in m.containerAspects ensures m1.containerAspects[d].Keys == m.containerAspects[d].Keys {
          if d == c {
            assert m1.containerAspects[d] == RemoveAt(m.containerAspects[c], remove, a);
          }
        }
      }
    }
  }

  lemma DetachSpaceFacts(m: Manager, ref: string, a: Aspect, remove: set<IPoint>)
    requires ref !in m.aspectContainers && m.spaceAspects.Keys == m.spaceAllPoints
    ensures DetachLists(m, ref, a, remove).Ok? <==> remove <= m.spaceAllPoints
    ensures DetachLists(m, ref, a, remove).Ok? ==>
              DetachLists(m, ref, a, remove).value == m.(spaceAspects := RemoveAt(m.spaceAspects, remove, a))
  {
  }

  lemma DetachContainerFacts(m: Manager, ref: string, a: Aspect, remove: set<IPoint>)
    requires ref in m.aspectContainers && m.aspectContainers[ref] in m.containerAspects
    requires m.containerAspects[m.aspectContainers[ref]].Keys == m.containerAllPoints
    ensures DetachLists(m, ref, a, remove).Ok? <==> remove <= m.containerAllPoints
    ensures var c := m.aspectContainers[ref];
            DetachLists(m, ref, a, remove).Ok? ==>
              DetachLists(m, ref, a, remove).value
                == m.(containerAspects := m.containerAspects[c := RemoveAt(m.containerAspects[c], remove, a)])
  {
  }

  /** Lists that change without changing their points keep the
      invariant. */
  lemma ReshapedListsKeepValid(m: Manager, m1: Manager)
    requires Valid(m)
    requires m1 == m.(spaceAspects := m1.spaceAspects, containerAspects := m1.containerAspects)
    requires m1.spaceAspects.Keys == m.spaceAspects.Keys
    requires m1.containerAspects.Keys == m.containerAspects.Keys
    requires forall c | c in m.containerAspects :: m1.containerAspects[c].Keys == m.containerAspects[c].Keys
    ensures Valid(m1)
  {
    forall c | c in m1.containerAspects ensures m1.containerAspects[c].Keys == m1.containerAllPoints {
      assert c in m.containerAspects;
    }
  }

  /** Forgetting points, or the whole aspect, after the lists changed
      shape-preservingly keeps the invariant. */
  lemma UnregisterKeepsValid(m: Manager, m1: Manager, ref: string, registered: set<IPoint>)
    requires Valid(m) && ref in m.aspects
    requires m1 == m.(spaceAspects := m1.spaceAspects, containerAspects := m1.containerAspects)
    requires m1.spaceAspects.Keys == m.spaceAspects.Keys
    requires m1.containerAspects.Keys == m.containerAspects.Keys
    requires forall c | c in m.containerAspects :: m1.containerAspects[c].Keys == m.containerAspects[c].Keys
    requires registered <= m.aspectPoints[ref]
    ensures Valid(Unregister(m1, ref, registered))
  {
    ReshapedListsKeepValid(m, m1);
    UnregisterValid(m1, ref, registered);
  }

  /** Forgetting some points of a registered aspect, or the aspect itself,
      keeps the invariant. */
  lemma UnregisterValid(m: Manager, ref: string, registered: set<IPoint>)
    requires Valid(m) && ref in m.aspects && registered <= m.aspectPoints[ref]
    ensures Valid(Unregister(m, ref, registered))
  {
    PointsOfKindChanges(m.aspectPoints, m.aspectContainers, m.containerAllPoints, m.spaceAllPoints, ref, registered, "", {ref});
    if registered == {} {
      IdsNumberedChanges(m.aspects, m.counter, ref, 0, m.aspects - {ref});
      ContainersKnownChanges(m.aspectContainers, m.containerAspects, ref, "", map[], {ref});
      var m' := Unregister(m, ref, registered);
      assert m'.aspects.Keys == m.aspects.Keys - {ref};
      assert m'.aspectPoints.Keys == m.aspectPoints.Keys - {ref};
      assert m'.aspectContainers.Keys == m.aspectContainers.Keys - {ref};
    }
  }

  /** Removing an unregistered aspect fails with `AspectException` and
      changes nothing; a registered one is removed exactly when the named
      points are of its kind, so a point of the other kind, even one of the
      same name, makes it throw.  A failure leaves the registry and the
      counter alone. */
  lemma RemoveAspectOutcome(m: Manager, ref: string, points: Option<set<IPoint>>)
    requires Valid(m)
    ensures ref !in m.aspects ==> RemoveAspect(m, ref, points) == Outcome(m, Err(NotRegistered(ref)))
    ensures ref in m.aspects ==>
              (RemoveAspect(m, ref, points).result.Ok? <==>
                 points.None? || points.value <= if ref in m.aspectContainers then m.containerAllPoints else m.spaceAllPoints)
    ensures ref in m.aspects && points.Some?
            && (exists p | p in points.value :: if ref in m.aspectContainers then p.SpacePoint? else p.ContainerPoint?)
            ==> RemoveAspect(m, ref, points).result == Err(NullPointer)
    ensures RemoveAspect(m, ref, points).result.Err? ==> SameRegistry(m, RemoveAspect(m, ref, points).after)
  {
    if ref in m.aspects {
      DetachListsOutcome(m, ref, m.aspects[ref], RemovePoints(m, ref, points));
      DetachListsKeepsShape(m, ref, m.aspects[ref], RemovePoints(m, ref, points));
    }
  }

  /** A registered aspect's removal is its detachment followed by the
      registry update. */
  lemma RemoveAspectShape(m: Manager, ref: string, points: Option<set<IPoint>>)
    requires ref in m.aspects && ref in m.aspectPoints
    ensures var d := DetachLists(m, ref, m.aspects[ref], RemovePoints(m, ref, points));
            var registered := m.aspectPoints[ref] - RemovePoints(m, ref, points);
            && (RemoveAspect(m, ref, points).result.Ok? <==> d.Ok?)
            && (d.Ok? ==> RemoveAspect(m, ref, points)
                            == Outcome(Unregister(d.value, ref, registered), Ok(Registration(ref, m.aspects[ref], registered))))
  {
  }

  /** Every removal keeps the invariant.  After a successful one the
      registration keeps the registered points not named, and the aspect
      stays registered exactly when some are left (never after a null point
      set). */
  lemma RemoveAspectValid(m: Manager, ref: string, points: Option<set<IPoint>>)
    requires Valid(m)
    ensures Valid(RemoveAspect(m, ref, points).after)
    ensures var o := RemoveAspect(m, ref, points);
            o.result.Ok? ==>
              var (m', reg) := (o.after, o.result.value);
              && reg.ref == ref && reg.aspect == m.aspects[ref]
              && reg.points == m.aspectPoints[ref] - RemovePoints(m, ref, points)
              && (ref in m'.aspects <==> reg.points != {})
              && (points.None? ==> ref !in m'.aspects)
              && m'.aspects.Keys == m.aspects.Keys - (if reg.points == {} then {ref} else {})
  {
    if ref in m.aspects {
      var remove := RemovePoints(m, ref, points);
      RemoveAspectShape(m, ref, points);
      DetachListsKeepsShape(m, ref, m.aspects[ref], remove);
      if DetachLists(m, ref, m.aspects[ref], remove).Ok? {
        var m1 := DetachLists(m, ref, m.aspects[ref], remove).value;
        UnregisterKeepsValid(m, m1, ref, m.aspectPoints[ref] - remove);
      }
    }
  }

  /** Removing a space aspect takes it out of exactly the named space
      lists and leaves every other list alone. */
  lemma RemoveSpaceAspectLists(m: Manager, ref: string, points: Option<set<IPoint>>)
    requires Valid(m) && ref !in m.aspectContainers
    ensures var o := RemoveAspect(m, ref, points);
            o.result.Ok? ==>
              var (m', reg) := (o.after, o.result.value);
              var remove := RemovePoints(m, ref, points);
              && m'.containerAspects == m.containerAspects
              && forall p | p in m.spaceAllPoints ::
                   m'.spaceAspects[p] == if p in remove then RemoveFirst(m.spaceAspects[p], reg.aspect)
                                         else m.spaceAspects[p]
  {
    if RemoveAspect(m, ref, points).result.Ok? {
      var remove := RemovePoints(m, ref, points);
      RemoveAspectShape(m, ref, points);
      DetachSpaceFacts(m, ref, m.aspects[ref], remove);
      var m1 := DetachLists(m, ref, m.aspects[ref], remove).value;
      var registered := m.aspectPoints[ref] - remove;
      assert Unregister(m1, ref, registered).spaceAspects == m1.spaceAspects;
      assert Unregister(m1, ref, registered).containerAspects == m1.containerAspects;
    }
  }

  /** Removing a container aspect takes it out of exactly the named lists
      of its container and leaves every other list alone. */
  lemma RemoveContainerAspectLists(m: Manager, ref: string, points: Option<set<IPoint>>)
    requires Valid(m) && ref in m.aspectContainers
    ensures var o := RemoveAspect(m, ref, points);
            o.result.Ok? ==>
              var (m', reg) := (o.after, o.result.value);
              var remove := RemovePoints(m, ref, points);
              var c := m.aspectContainers[ref];
              && m'.spaceAspects == m.spaceAspects
              && m'.containerAspects == m.containerAspects[c := RemoveAt(m.containerAspects[c], remove, reg.aspect)]
              && (forall p | p in m.containerAllPoints ::
                    m'.containerAspects[c][p] == if p in remove then RemoveFirst(m.containerAspects[c][p], reg.aspect)
                                                 else m.containerAspects[c][p])
  {
    if RemoveAspect(m, ref, points).result.Ok? {
      var remove := RemovePoints(m, ref, points);
      RemoveAspectShape(m, ref, points);
      DetachContainerFacts(m, ref, m.aspects[ref], remove);
      var m1 := DetachLists(m, ref, m.aspects[ref], remove).value;
      var registered := m.aspectPoints[ref] - remove;
      assert Unregister(m1, ref, registered).spaceAspects == m1.spaceAspects;
      assert Unregister(m1, ref, registered).containerAspects == m1.containerAspects;
    }
  }


  /** Appending at some points and removing at all of them gives the
      lists back when the aspect was in none of them. */
  lemma RemoveAtAppendAt(lists: map<IPoint, seq<Aspect>>, points: set<IPoint>, all: set<IPoint>, a: Aspect)
    requires lists.Keys <= all
    requires forall p | p in lists :: a !in lists[p]
    ensures RemoveAt(AppendAt(lists, points, a), all, a) == lists
  {
    var back := RemoveAt(AppendAt(lists, points, a), all, a);
    forall p | p in lists ensures back[p] == lists[p] {
      if p in points {
        RemoveAppended(lists[p], a);
      }
    }
  }

  /** Adding a space aspect and removing it again at all points leaves
      every registry and list as it was, when the aspect was in no space
      list before; only the counter has moved on. */
  lemma AddThenRemoveSpaceAspect(m: Manager, a: Aspect, points: set<IPoint>)
    requires Valid(m)
    requires points <= m.spaceAllPoints
    requires forall p | p in m.spaceAspects :: a !in m.spaceAspects[p]
    ensures AddSpaceAspect(m, a, points).result.Ok?
    ensures var (m1, reg) := (AddSpaceAspect(m, a, points).after, AddSpaceAspect(m, a, points).result.value);
            && RemoveAspect(m1, reg.ref, None).result.Ok?
            && RemoveAspect(m1, reg.ref, None).after == m.(counter := m.counter + 1)
  {
    CreateAspectRefFresh(m, None);
    var ref := CreateAspectRef(m, None).1;
    assert ref !in m.aspects;
    RemoveFreshSpaceAspect(m, ref, a, points);
  }

  /** The removal half of `AddThenRemoveSpaceAspect`, for the manager the
      addition leaves under the fresh id `ref`. */
  lemma RemoveFreshSpaceAspect(m: Manager, ref: string, a: Aspect, points: set<IPoint>)
    requires ref !in m.aspects && m.aspectContainers.Keys <= m.aspects.Keys && m.aspectPoints.Keys == m.aspects.Keys
    requires m.spaceAspects.Keys == m.spaceAllPoints && points <= m.spaceAllPoints
    requires forall p | p in m.spaceAspects :: a !in m.spaceAspects[p]
    requires ref == CreateAspectRef(m, None).1
    ensures AddSpaceAspect(m, a, points).result.Ok?
    ensures AddSpaceAspect(m, a, points).result.value.ref == ref
    ensures RemoveAspect(AddSpaceAspect(m, a, points).after, ref, None)
            == Outcome(m.(counter := m.counter + 1), Ok(Registration(ref, a, {})))
  {
    var m1 := m.(counter := m.counter + 1, spaceAspects := AppendAt(m.spaceAspects, points, a),
                 aspects := m.aspects[ref := a], aspectPoints := m.aspectPoints[ref := points]);
    assert AddSpaceAspect(m, a, points) == Outcome(m1, Ok(Registration(ref, a, points)));
    assert ref !in m1.aspectContainers;
    assert RemovePoints(m1, ref, None) == m.spaceAllPoints;
    RemoveAtAppendAt(m.spaceAspects, points, m.spaceAllPoints, a);
    assert DetachLists(m1, ref, a, m.spaceAllPoints) == Ok(m1.(spaceAspects := m.spaceAspects));
    RemoveAspectShape(m1, ref, None);
    assert points - m.spaceAllPoints == {};
    ForgetFresh(m.aspects, ref, a);
    ForgetFresh(m.aspectPoints, ref, points);
    assert m.aspectContainers - {ref} == m.aspectContainers;
  }

  /** Adding a fresh key and removing it again gives the map back. */
  lemma ForgetFresh<V>(mp: map<string, V>, ref: string, x: V)
    requires ref !in mp
    ensures mp[ref := x] - {ref} == mp
  {
  }

  // ---------------------------------------------------------------- containers

  /** The aspects registered for a container. */
  function AspectsOf(m: Manager, container: string): set<string> {
    set r | r in m.aspectContainers && m.aspectContainers[r] == container
  }

  /** The state part of `removeContainer`: the container's lists and the
      aspects registered for it are forgotten. */
  function DropContainer(m: Manager, container: string): Manager {
    var gone := AspectsOf(m, container);
    m.(containerAspects := m.containerAspects - {container},
       aspects := m.aspects - gone,
       aspectPoints := m.aspectPoints - gone,
       aspectContainers := m.aspectContainers - gone)
  }

  /** `removeContainer` as written: each registered container aspect is
      told `aspectRemoved` after the container's own aspects have been
      deleted, so the ones told are those of the OTHER containers.  Only
      an aspect that extends `AbstractContainerAspect` is told; those are
      the aspects in `callbacks`.  An exception the callback throws is
      caught and logged and changes nothing here.  The second component is
      the set of references whose aspect is told. */
  function RemoveContainerAsWritten(m: Manager, container: string, callbacks: set<Aspect>): (Manager, set<string>) {
    if container !in m.containerAspects then (m, {})
    else (DropContainer(m, container),
          set r | r in m.aspectContainers && m.aspectContainers[r] != container && r in m.aspects && m.aspects[r] in callbacks)
  }

  /** `removeContainer` as intended: the aspects of the removed container
      that extend `AbstractContainerAspect` are the ones told
      `aspectRemoved`. */
  function RemoveContainer(m: Manager, container: string, callbacks: set<Aspect>): (Manager, set<string>) {
    if container !in m.containerAspects then (m, {})
    else (DropContainer(m, container), set r | r in AspectsOf(m, container) && r in m.aspects && m.aspects[r] in callbacks)
  }

  /** Removing a container keeps the invariant, forgets the container's
      lists so that it answers an empty list, tells exactly those aspects
      registered for it that take the callback, and leaves the space lists
      alone.  The written version leaves the same state behind. */
  lemma RemoveContainerValid(m: Manager, container: string, point: IPoint, callbacks: set<Aspect>)
    requires Valid(m)
    ensures var (m', told) := RemoveContainer(m, container, callbacks);
            && Valid(m')
            && container !in m'.containerAspects
            && GetContainerAspects(m', container, point) == Some([])
            && told <= AspectsOf(m, container)
            && (forall r | r in AspectsOf(m, container) :: r in told <==> m.aspects[r] in callbacks)
            && m'.spaceAspects == m.spaceAspects
            && RemoveContainerAsWritten(m, container, callbacks).0 == m'
  {
    if container in m.containerAspects {
      DropContainerValid(m, container);
    } else {
      assert AspectsOf(m, container) == {};
    }
  }

  lemma DropContainerValid(m: Manager, container: string)
    requires Valid(m) && container in m.containerAspects
    ensures Valid(DropContainer(m, container))
  {
    var gone := AspectsOf(m, container);
    var m' := DropContainer(m, container);
    IdsNumberedChanges(m.aspects, m.counter, "", 0, m.aspects - gone);
    assert forall r | r in m.aspectContainers && r !in gone :: m.aspectContainers[r] != container;
    ContainersKnownChanges(m.aspectContainers, m.containerAspects, "", container, map[], gone);
    PointsOfKindChanges(m.aspectPoints, m.aspectContainers, m.containerAllPoints, m.spaceAllPoints, "", {}, "", gone);
    ListsCoverChanges(m.containerAspects, m.containerAllPoints, container, map[]);
    assert m'.aspectPoints.Keys == m'.aspects.Keys;
    assert m'.aspectContainers.Keys <= m'.aspects.Keys;
  }

  /** Removing a container forgets exactly the aspects registered for it
      and keeps every other aspect with its container. */
  lemma RemoveContainerForgets(m: Manager, container: string, callbacks: set<Aspect>)
    requires Valid(m)
    ensures var m' := RemoveContainer(m, container, callbacks).0;
            && m'.aspects.Keys == m.aspects.Keys - AspectsOf(m, container)
            && (forall r | r in m'.aspects :: ContainerOf(m', r) == ContainerOf(m, r) && ContainerOf(m, r) != Some(container))
            && (forall r | r in m.aspects :: r !in m'.aspects <==> ContainerOf(m, r) == Some(container))
  {
    if container !in m.containerAspects {
      assert AspectsOf(m, container) == {};
    }
  }

  /** The written `removeContainer` never tells an aspect of the removed
      container, and tells instead every aspect of the other containers
      that takes the callback. */
  lemma RemoveContainerTellsOthers(m: Manager, container: string, callbacks: set<Aspect>)
    requires Valid(m)
    requires container in m.containerAspects
    ensures var told := RemoveContainerAsWritten(m, container, callbacks).1;
            && told * AspectsOf(m, container) == {}
            && told <= m.aspectContainers.Keys
            && forall r | r in m.aspectContainers.Keys - AspectsOf(m, container) :: r in told <==> m.aspects[r] in callbacks
  {
  }

  /** An instance: with one aspect on container "c" and one on "d", both
      taking the callback, removing "c" as written tells the aspect of "d"
      and not the one of "c"; the intended version tells the one of "c". */
  lemma RemoveContainerExample()
    ensures var m := Manager(2, {SpacePoint("S")}, {ContainerPoint("P")}, map["1_c" := 10, "2_d" := 20],
                             map["1_c" := {ContainerPoint("P")}, "2_d" := {ContainerPoint("P")}],
                             map["1_c" := "c", "2_d" := "d"], EmptyLists({SpacePoint("S")}),
                             map["c" := map[ContainerPoint("P") := [10]], "d" := map[ContainerPoint("P") := [20]]]);
            && RemoveContainerAsWritten(m, "c", {10, 20}).1 == {"2_d"}
            && RemoveContainer(m, "c", {10, 20}).1 == {"1_c"}
  {
    var m := Manager(2, {SpacePoint("S")}, {ContainerPoint("P")}, map["1_c" := 10, "2_d" := 20],
                     map["1_c" := {ContainerPoint("P")}, "2_d" := {ContainerPoint("P")}],
                     map["1_c" := "c", "2_d" := "d"], EmptyLists({SpacePoint("S")}),
                     map["c" := map[ContainerPoint("P") := [10]], "d" := map[ContainerPoint("P") := [20]]]);
    assert m.aspectContainers.Keys == {"1_c", "2_d"};
    assert "1_c" != "2_d" by { assert "1_c"[0] != "2_d"[0]; }
    assert "c" != "d";
  }
}

=== FILE: authorization.dfy ===
/** `AuthorizationTarget`: which requests an authorization rule applies
    to.  A target names sets of subjects, actions and containers; a null
    set stands for "all".  A request matches when its action, its container
    and its subject are each covered.

    `Subject` and `RequestAuthTarget` are not part of this model: a subject
    is its list of named attributes, and the request is the triple the
    target reads from it.  Actions and container references are compared by
    their text. */
module Authorization {
  import opened Wrappers

  datatype NamedValue = NamedValue(name: string, value: string)

  datatype Subject = Subject(attributes: seq<NamedValue>)

  datatype RequestInfo = RequestInfo(action: string, container: string, subject: Option<Subject>)

  /** The target subjects are listed in the order the set iterates them. */
  datatype Target = Target(subjects: Option<seq<Subject>>, actions: Option<set<string>>, containers: Option<set<string>>)

  /** Every attribute of the target subject is one of the request's. */
  predicate Covers(target: Subject, request: Subject) {
    forall a | a in target.attributes :: a in request.attributes
  }

  /** The request subject is present and some target subject covers it. */
  predicate SubjectsMatch(targets: seq<Subject>, request: Option<Subject>) {
    request.Some? && exists t | t in targets :: Covers(t, request.value)
  }

  /** `matchesSubjects`: the loop over the target subjects, each checked
      attribute by attribute. */
  method MatchesSubjects(targets: seq<Subject>, request: Option<Subject>) returns (b: bool)
    ensures b <==> SubjectsMatch(targets, request)
  {
    if request.None? {
      return false;
    }
    var attrs := request.value.attributes;
    var i := 0;
    while i < |targets|
      invariant 0 <= i <= |targets|
      invariant forall j | 0 <= j < i :: !Covers(targets[j], request.value)
    {
      var target := targets[i];
      var targetMatches := true;
      var k := 0;
      while k < |target.attributes|
        invariant 0 <= k <= |target.attributes|
        invariant targetMatches <==> forall m | 0 <= m < k :: target.attributes[m] in attrs
      {
        targetMatches := targetMatches && target.attributes[k] in attrs;
        k := k + 1;
      }
      if targetMatches {
        assert Covers(target, request.value) by {
          forall a | a in target.attributes ensures a in attrs {
            var m :| 0 <= m < |target.attributes| && target.attributes[m] == a;
          }
        }
        return true;
      }
      assert !Covers(target, request.value) by {
        var m :| 0 <= m < |target.attributes| && target.attributes[m] !in attrs;
      }
      i := i + 1;
    }
    assert !SubjectsMatch(targets, request) by {
      forall t | t in targets ensures !Covers(t, request.value) {
        var j :| 0 <= j < |targets| && targets[j] == t;
      }
    }
    return false;
  }

  /** `matchesRequest`. */
  predicate MatchesRequest(t: Target, req: RequestInfo) {
    && (t.actions.None? || req.action in t.actions.value)
    && (t.containers.None? || req.container in t.containers.value)
    && (t.subjects.None? || SubjectsMatch(t.subjects.value, req.subject))
  }

  /** A target without any set matches every request, even one without a
      subject; each given set must be satisfied on its own. */
  lemma WildcardsMatch(t: Target, req: RequestInfo)
    ensures t.subjects.None? && t.actions.None? && t.containers.None? ==> MatchesRequest(t, req)
    ensures MatchesRequest(t, req) ==> t.actions.None? || req.action in t.actions.value
    ensures MatchesRequest(t, req) ==> t.containers.None? || req.container in t.containers.value
  {
  }

  /** A request without a subject never matches a target that lists
      subjects, and an empty subject list matches nothing. */
  lemma NoSubjectNoMatch(t: Target, req: RequestInfo)
    requires t.subjects.Some?
    ensures req.subject.None? ==> !MatchesRequest(t, req)
    ensures t.subjects.value == [] ==> !MatchesRequest(t, req)
  {
  }

  /** A target subject without attributes matches every present subject, and
      giving the request subject more attributes never loses a match. */
  lemma MoreAttributesKeepMatch(t: Target, req: RequestInfo, extra: seq<NamedValue>)
    requires req.subject.Some?
    ensures t.subjects.Some? && Subject([]) in t.subjects.value && t.actions.None? && t.containers.None?
            ==> MatchesRequest(t, req)
    ensures MatchesRequest(t, req) ==>
              MatchesRequest(t, req.(subject := Some(Subject(req.subject.value.attributes + extra))))
  {
    var wider := Subject(req.subject.value.attributes + extra);
    if t.subjects.Some? && SubjectsMatch(t.subjects.value, req.subject) {
      var s :| s in t.subjects.value && Covers(s, req.subject.value);
      assert Covers(s, wider);
    }
    if t.subjects.Some? && Subject([]) in t.subjects.value {
      assert Covers(Subject([]), req.subject.value);
    }
  }

  // ---------------------------------------------------------------- equality

  datatype EqualsError = NullPointer   // NullPointerException

  function SubjectSet(subjects: seq<Subject>): set<Subject> {
    set s | s in subjects
  }

  /** One field of `equals` as written: a present field of the other
      target is compared through this target's field, which throws when
      this one is null. */
  function FieldEqualsAsWritten<T(==)>(mine: Option<T>, theirs: Option<T>): Result<bool, EqualsError> {
    if theirs.Some? then
      if mine.None? then Err(NullPointer) else Ok(mine.value == theirs.value)
    else Ok(mine.None?)
  }

  function SubjectsAsSets(subjects: Option<seq<Subject>>): Option<set<Subject>> {
    if subjects.Some? then Some(SubjectSet(subjects.value)) else None
  }

  /** `equals` as written: the first field that differs answers false, and
      a null field of this target facing a present one throws. */
  function EqualsAsWritten(a: Target, b: Target): Result<bool, EqualsError> {
    var subjects :- FieldEqualsAsWritten(SubjectsAsSets(a.subjects), SubjectsAsSets(b.subjects));
    if !subjects then Ok(false)
    else
      var actions :- FieldEqualsAsWritten(a.actions, b.actions);
      if !actions then Ok(false)
      else FieldEqualsAsWritten(a.containers, b.containers)
  }

  /** `equals` as intended: both fields null, or both present and equal as
      sets, for each of the three fields. */
  predicate TargetEquals(a: Target, b: Target) {
    && SubjectsAsSets(a.subjects) == SubjectsAsSets(b.subjects)
    && a.actions == b.actions
    && a.containers == b.containers
  }

  /** The intended equality is an equivalence, and the written one agrees
      with it whenever it does not throw. */
  lemma TargetEqualsIsEquivalence(a: Target, b: Target, c: Target)
    ensures TargetEquals(a, a)
    ensures TargetEquals(a, b) ==> TargetEquals(b, a)
    ensures TargetEquals(a, b) && TargetEquals(b, c) ==> TargetEquals(a, c)
    ensures EqualsAsWritten(a, b).Ok? ==> EqualsAsWritten(a, b).value == TargetEquals(a, b)
  {
  }

  /** The written equality throws only on targets that differ, and then
      the comparison the other way round answers false: a target without
      subjects compared with one listing no subjects throws. */
  lemma EqualsThrows(a: Target, b: Target)
    ensures EqualsAsWritten(a, b).Err? ==> !TargetEquals(a, b) && EqualsAsWritten(b, a) == Ok(false)
    ensures EqualsAsWritten(Target(None, None, None), Target(Some([]), None, None)) == Err(NullPointer)
    ensures EqualsAsWritten(Target(Some([]), None, None), Target(None, None, None)) == Ok(false)
    ensures !TargetEquals(Target(None, None, None), Target(Some([]), None, None))
  {
  }
}

=== FILE: code_allocation.dfy ===
/** How a new record gets its code (`buscaEspacoVazio` and the start of each
    insert operation): the codes are scanned in document order against the
    dense sequence P0000, P0001, ...; the first record that breaks the
    sequence marks a gap and the new record takes the number just below that
    record's, placed in front of it; without a gap the new record takes the
    number after the last one and goes at the end.

    The scheme is stated over a code writer `code` and a code reader
    `number`; all it needs of them is that reading a written code gives the
    number back, which `PhpText.CodeNumberOfCode` proves for the store's
    `Code` and `CodeNumber`. */
module CodeAllocation {
  import opened Wrappers
  import opened PhpText

  /** The store's code writer for one table prefix, as a function value. */
  function Coder(prefix: char): (code: int -> string)
    ensures forall n :: code(n) == Code(prefix, n)
  {
    n => Code(prefix, n)
  }

  /** Reading a written code gives its number back. */
  ghost predicate Inverse(code: int -> string, number: string -> int) {
    forall n :: number(code(n)) == n
  }

  lemma StoreCodesInvert(prefix: char)
    ensures Inverse(Coder(prefix), CodeNumber)
  {
    forall n
      ensures CodeNumber(Coder(prefix)(n)) == n
    {
      CodeNumberOfCode(prefix, n);
    }
  }

  /** The scan from position `i` on, every earlier code being the expected one. */
  function FindGapFrom(code: int -> string, codes: seq<string>, i: nat): (g: Option<nat>)
    requires i <= |codes|
    requires forall j | 0 <= j < i :: codes[j] == code(j)
    ensures g.Some? ==> i <= g.value < |codes| && codes[g.value] != code(g.value)
                        && forall j | 0 <= j < g.value :: codes[j] == code(j)
    ensures g.None? ==> forall j | 0 <= j < |codes| :: codes[j] == code(j)
    decreases |codes| - i
  {
    if i == |codes| then None
    else if codes[i] != code(i) then Some(i)
    else FindGapFrom(code, codes, i + 1)
  }

  /** `buscaEspacoVazio`: the position of the first record whose code is not
      the one expected at its position, or `None` (`semEspaco`) when every
      code is. */
  function FindGap(code: int -> string, codes: seq<string>): (g: Option<nat>)
    ensures g.Some? ==> g.value < |codes| && codes[g.value] != code(g.value)
                        && forall j | 0 <= j < g.value :: codes[j] == code(j)
    ensures g.None? ==> forall j | 0 <= j < |codes| :: codes[j] == code(j)
  {
    FindGapFrom(code, codes, 0)
  }

  /** Where the new record goes and which code it gets. */
  datatype Allocation = Allocation(code: string, at: nat)

  /** The code and position a new record receives.  On an empty table the
      source reads the code of a missing node, which `intval` turns into 0,
      so the first record gets number 1 and is appended. */
  function AllocateWith(code: int -> string, number: string -> int, codes: seq<string>): (a: Allocation)
    ensures a.at <= |codes|
  {
    match FindGap(code, codes)
    case None =>
      var last := if codes == [] then 0 else number(codes[|codes| - 1]);
      Allocation(code(last + 1), |codes|)
    case Some(k) =>
      Allocation(code(number(codes[k]) - 1), k)
  }

  /** The allocation of one table, whose codes start with `prefix`. */
  function Allocate(prefix: char, codes: seq<string>): (a: Allocation)
    ensures a.at <= |codes|
  {
    AllocateWith(Coder(prefix), CodeNumber, codes)
  }

  /** The codes after the new one is placed. */
  function Place(codes: seq<string>, a: Allocation): (r: seq<string>)
    requires a.at <= |codes|
    ensures |r| == |codes| + 1 && r[a.at] == a.code
  {
    codes[..a.at] + [a.code] + codes[a.at..]
  }

  /** Every code is the code of a non-negative number, and the numbers
      increase strictly along the table. */
  predicate WellNumbered(code: int -> string, number: string -> int, codes: seq<string>) {
    (forall i | 0 <= i < |codes| :: 0 <= number(codes[i]) && codes[i] == code(number(codes[i])))
    && (forall i, j | 0 <= i < j < |codes| :: number(codes[i]) < number(codes[j]))
  }

  /** The codes are exactly the codes of 0, 1, 2, ... with no gap. */
  predicate Dense(code: int -> string, codes: seq<string>) {
    forall i | 0 <= i < |codes| :: codes[i] == code(i)
  }

  lemma {:induction false} NumberAtLeastPosition(code: int -> string, number: string -> int,
                                                 codes: seq<string>, i: nat)
    requires WellNumbered(code, number, codes) && i < |codes|
    ensures number(codes[i]) >= i
    decreases i
  {
    if i > 0 {
      NumberAtLeastPosition(code, number, codes, i - 1);
    }
  }

  /** The number the new record receives lies strictly between the numbers
      of its new neighbours. */
  lemma AllocatedNumber(code: int -> string, number: string -> int, codes: seq<string>)
    returns (m: int)
    requires Inverse(code, number) && WellNumbered(code, number, codes)
    ensures m >= 0 && AllocateWith(code, number, codes).code == code(m)
    ensures forall j | 0 <= j < AllocateWith(code, number, codes).at :: number(codes[j]) < m
    ensures forall j | AllocateWith(code, number, codes).at <= j < |codes| :: m < number(codes[j])
  {
    match FindGap(code, codes)
    case None =>
      m := if codes == [] then 1 else number(codes[|codes| - 1]) + 1;
    case Some(k) =>
      m := number(codes[k]) - 1;
      NumberAtLeastPosition(code, number, codes, k);
      assert number(codes[k]) != k;
      if k > 0 {
        assert number(codes[k - 1]) == k - 1;
        forall j | 0 <= j < k
          ensures number(codes[j]) < m
        {
          if j < k - 1 {
            assert number(codes[j]) < number(codes[k - 1]);
          }
        }
      }
  }

  /** Placing a code whose number lies strictly between its neighbours'
      keeps the codes well numbered. */
  lemma PlaceKeepsNumbering(code: int -> string, number: string -> int, codes: seq<string>,
                            a: Allocation)
    requires WellNumbered(code, number, codes) && a.at <= |codes|
    requires 0 <= number(a.code) && a.code == code(number(a.code))
    requires forall j | 0 <= j < a.at :: number(codes[j]) < number(a.code)
    requires forall j | a.at <= j < |codes| :: number(a.code) < number(codes[j])
    ensures WellNumbered(code, number, Place(codes, a))
  {
    var r := Place(codes, a);
    assert forall i | 0 <= i < a.at :: r[i] == codes[i];
    assert forall i | a.at < i < |r| :: r[i] == codes[i - 1];
  }

  /** Removing one code keeps the codes well numbered. */
  lemma RemoveKeepsNumbering(code: int -> string, number: string -> int, codes: seq<string>, k: nat)
    requires WellNumbered(code, number, codes) && k < |codes|
    ensures WellNumbered(code, number, codes[..k] + codes[k + 1..])
  {
    var r := codes[..k] + codes[k + 1..];
    assert forall i | 0 <= i < |r| :: r[i] == codes[if i < k then i else i + 1];
  }

  /** The allocated code is new to the table and placing it keeps the codes
      well numbered: codes are never handed out twice. */
  lemma AllocationKeepsNumbering(code: int -> string, number: string -> int, codes: seq<string>)
    requires Inverse(code, number) && WellNumbered(code, number, codes)
    ensures AllocateWith(code, number, codes).code !in codes
    ensures WellNumbered(code, number, Place(codes, AllocateWith(code, number, codes)))
  {
    var a := AllocateWith(code, number, codes);
    var m := AllocatedNumber(code, number, codes);
    assert number(a.code) == m;
    PlaceKeepsNumbering(code, number, codes, a);
    forall j | 0 <= j < |codes|
      ensures codes[j] != a.code
    {
      assert number(codes[j]) != m;
    }
  }

  /** On a table without gaps the new record gets the next number and is
      appended, so N inserts into a fresh table give codes 1 ... N after
      the template's 0. */
  lemma DenseAllocatesNext(code: int -> string, number: string -> int, codes: seq<string>)
    requires Inverse(code, number) && Dense(code, codes) && codes != []
    ensures AllocateWith(code, number, codes) == Allocation(code(|codes|), |codes|)
    ensures Dense(code, Place(codes, AllocateWith(code, number, codes)))
  {
    assert number(codes[|codes| - 1]) == |codes| - 1;
  }

  /** Deleting one record from a table without gaps and inserting again
      hands the freed code out again, at the freed place. */
  lemma GapIsReused(code: int -> string, number: string -> int, codes: seq<string>, k: nat)
    requires Inverse(code, number) && Dense(code, codes) && k < |codes| && |codes| >= 2
    ensures AllocateWith(code, number, codes[..k] + codes[k + 1..]) == Allocation(codes[k], k)
    ensures Place(codes[..k] + codes[k + 1..], Allocation(codes[k], k)) == codes
  {
    var rest := codes[..k] + codes[k + 1..];
    if k == |codes| - 1 {
      assert rest == codes[..k];
      assert FindGap(code, rest).None?;
      assert number(rest[k - 1]) == k - 1;
    } else {
      assert rest[k] == codes[k + 1];
      assert number(code(k)) == k && number(code(k + 1)) == k + 1;
      assert FindGap(code, rest) == Some(k);
    }
    assert Place(rest, Allocation(codes[k], k)) == codes;
  }

  lemma DenseIsWellNumbered(code: int -> string, number: string -> int, codes: seq<string>)
    requires Inverse(code, number) && Dense(code, codes)
    ensures WellNumbered(code, number, codes)
  {
    assert forall i | 0 <= i < |codes| :: number(codes[i]) == i;
  }
}

=== FILE: core_utils.dfy ===
/** `CoreUtils`: the textual side of MozartSpaces references and URIs.

    A reference is an id plus the URI of the space that owns it; its short
    string form is the space URI, a '/', and the id.  The parser splits a
    string at its last '/' and removes a type-specific path prefix ending
    in that '/' from the space part.  URIs are modelled by their text:
    `URI.create`'s syntax check and `URI.equals`'s normalisation are not
    part of this model. */
module CoreUtils {
  import opened Wrappers
  import opened Digits

  /** Java's `String.lastIndexOf(char)`: the position of the last `c`, or
      -1 when `s` has none.  Positions count characters; Java counts UTF-16
      code units, which differ after a character outside the Basic
      Multilingual Plane. */
  function LastIndexOf(s: string, c: char): (r: int)
    ensures -1 <= r < |s|
    ensures r >= 0 ==> s[r] == c
    ensures forall i | r < i < |s| :: s[i] != c
    decreases |s|
  {
    if s == [] then -1
    else if s[|s| - 1] == c then |s| - 1
    else LastIndexOf(s[..|s| - 1], c)
  }

  /** A reference with a textual id; `space` is absent for a reference
      built with a null URI. */
  datatype Reference = Reference(id: string, space: Option<string>)

  datatype ParseError = InvalidReference(text: string)   // IllegalArgumentException

  /** `Reference.getStringRepresentation`: Java's string concatenation
      writes a null space as "null". */
  function StringRepresentation(r: Reference): string {
    (if r.space.Some? then r.space.value else "null") + "/" + r.id
  }

  /** `parseReference(str, type, pathPrefixLength)`: a null string gives a
      null reference; otherwise the id is what follows the last '/', and
      the space is what precedes the `pathPrefixLength` characters that end
      with that '/'.  The prefix lengths of the four reference types are
      defined outside this model and are a parameter here; the
      `...WithoutPrefix` variants pass 1, the '/' alone. */
  function ParseReference(str: Option<string>, pathPrefixLength: nat): (r: Result<Option<Reference>, ParseError>)
    ensures str.None? ==> r == Ok(None)
    ensures str.Some? && r.Ok? ==> r.value.Some?
  {
    if str.None? then Ok(None)
    else
      var s := str.value;
      var idStart := LastIndexOf(s, '/') + 1;
      if idStart < pathPrefixLength then Err(InvalidReference(s))
      else Ok(Some(Reference(s[idStart..], Some(s[..idStart - pathPrefixLength]))))
  }

  function ParseWithoutPrefix(str: Option<string>): Result<Option<Reference>, ParseError> {
    ParseReference(str, 1)
  }

  /** The parser accepts exactly the strings whose last '/' ends at or after
      the prefix length, and then splits the string into space, prefix and
      id, the id holding no '/'. */
  lemma ParseSplits(s: string, pathPrefixLength: nat)
    ensures ParseReference(Some(s), pathPrefixLength).Ok?
            <==> LastIndexOf(s, '/') + 1 >= pathPrefixLength
    ensures ParseReference(Some(s), pathPrefixLength).Ok? ==>
              var ref := ParseReference(Some(s), pathPrefixLength).value.value;
              && '/' !in ref.id
              && ref.space.Some?
              && |ref.space.value| + pathPrefixLength + |ref.id| == |s|
              && s == ref.space.value + s[|ref.space.value|..|s| - |ref.id|] + ref.id
              && (pathPrefixLength > 0 ==> s[|s| - |ref.id| - 1] == '/')
  {
    var idStart := LastIndexOf(s, '/') + 1;
    if idStart >= pathPrefixLength {
      var ref := Reference(s[idStart..], Some(s[..idStart - pathPrefixLength]));
      assert ParseReference(Some(s), pathPrefixLength) == Ok(Some(ref));
      NoSlashAfterLast(s, idStart);
      SplitParts(s, pathPrefixLength, idStart, ref);
    }
  }

  /** The parts the parser cuts a string into, with the '/' before the id
      and the prefix between space and id. */
  lemma SplitParts(s: string, pathPrefixLength: nat, idStart: int, ref: Reference)
    requires pathPrefixLength <= idStart <= |s|
    requires pathPrefixLength > 0 ==> s[idStart - 1] == '/'
    requires '/' !in s[idStart..]
    requires ref == Reference(s[idStart..], Some(s[..idStart - pathPrefixLength]))
    ensures && '/' !in ref.id
            && ref.space.Some?
            && |ref.space.value| + pathPrefixLength + |ref.id| == |s|
            && s == ref.space.value + s[|ref.space.value|..|s| - |ref.id|] + ref.id
            && (pathPrefixLength > 0 ==> s[|s| - |ref.id| - 1] == '/')
  {
    assert |s| - |ref.id| == idStart;
    SplitThree(s, idStart - pathPrefixLength, idStart);
  }

  /** Nothing after the last '/' is a '/'. */
  lemma NoSlashAfterLast(s: string, idStart: int)
    requires idStart == LastIndexOf(s, '/') + 1
    ensures '/' !in s[idStart..]
  {
    var id := s[idStart..];
    forall i | 0 <= i < |id| ensures id[i] != '/' {
      assert id[i] == s[idStart + i];
    }
  }

  /** A string is its three consecutive slices. */
  lemma SplitThree(s: string, i: nat, j: nat)
    requires i <= j <= |s|
    ensures s == s[..i] + s[i..j] + s[j..]
  {
    assert s[..j] == s[..i] + s[i..j];
    assert s == s[..j] + s[j..];
  }

  /** The id of a reference can be read back from its string form exactly
      when it holds no '/'. */
  lemma RoundTrip(r: Reference)
    ensures ParseWithoutPrefix(Some(StringRepresentation(r))).Ok?
    ensures ParseWithoutPrefix(Some(StringRepresentation(r))).value.value
              == Reference(r.id, Some(if r.space.Some? then r.space.value else "null"))
            <==> '/' !in r.id
  {
    var space := if r.space.Some? then r.space.value else "null";
    var s := StringRepresentation(r);
    assert s == space + "/" + r.id;
    var k := LastIndexOf(s, '/');
    assert s[|space|] == '/';
    if '/' !in r.id {
      assert k == |space| by {
        forall i | |space| < i < |s| ensures s[i] != '/' {
          assert s[i] == r.id[i - |space| - 1];
        }
        NoLaterIndex(s, '/', |space|);
      }
      assert s[k + 1..] == r.id;
      assert s[..k] == space;
    } else {
      assert k > |space| by {
        var j :| 0 <= j < |r.id| && r.id[j] == '/';
        assert s[|space| + 1 + j] == '/';
      }
      var back := ParseWithoutPrefix(Some(s)).value.value;
      assert back.space.value == s[..k];
      assert |back.space.value| > |space|;
    }
  }

  /** When `c` sits at position `k` and nowhere after it, `k` is the last
      index of `c`. */
  lemma {:induction false} NoLaterIndex(s: string, c: char, k: int)
    requires 0 <= k < |s| && s[k] == c
    requires forall i | k < i < |s| :: s[i] != c
    ensures LastIndexOf(s, c) == k
    decreases |s|
  {
    if k < |s| - 1 {
      assert s[|s| - 1] != c;
      NoLaterIndex(s[..|s| - 1], c, k);
    }
  }

  /** Conversely, representing a parsed reference gives back the string. */
  lemma ParseThenRepresent(s: string)
    requires ParseWithoutPrefix(Some(s)).Ok?
    ensures StringRepresentation(ParseWithoutPrefix(Some(s)).value.value) == s
  {
    ParseSplits(s, 1);
    var ref := ParseWithoutPrefix(Some(s)).value.value;
    assert s[|ref.space.value|..|s| - |ref.id|] == "/";
  }

  /** `isEmbeddedSpace`: a null URI, or the URI of the own space. */
  predicate IsEmbeddedSpace(ownSpace: string, space: Option<string>) {
    space.None? || space.value == ownSpace
  }

  /** A null space is the embedded one, and a reference read back from the
      string form of a reference into the own space is embedded exactly
      when its id holds no '/'. */
  lemma EmbeddedSpaces(ownSpace: string, id: string)
    ensures IsEmbeddedSpace(ownSpace, None)
    ensures ParseWithoutPrefix(Some(ownSpace + "/" + id)).Ok?
    ensures IsEmbeddedSpace(ownSpace, ParseWithoutPrefix(Some(ownSpace + "/" + id)).value.value.space)
            <==> '/' !in id
  {
    var r := Reference(id, Some(ownSpace));
    assert StringRepresentation(r) == ownSpace + "/" + id;
    RoundTrip(r);
    var back := ParseWithoutPrefix(Some(ownSpace + "/" + id)).value.value;
    ParseThenRepresent(ownSpace + "/" + id);
    if back.space == Some(ownSpace) {
      assert StringRepresentation(back) == ownSpace + "/" + back.id;
      assert back.id == id;
    }
  }

  /** `cloneUriWithNewPort`: everything up to the last ':' is kept and the
      rest is replaced by the port's decimal text. */
  function CloneUriWithNewPort(uri: string, port: int): string {
    uri[..LastIndexOf(uri, ':') + 1] + IntToString(port)
  }

  lemma IntToStringHasNoColon(n: int)
    ensures ':' !in IntToString(n)
  {
    IntToStringChars(n);
  }

  /** The new URI keeps the old one's text through its last ':' (none
      when it has no ':'), carries the port after it, and cloning again
      with another port is the same as cloning once with that port. */
  lemma CloneProperties(uri: string, port: int, other: int)
    ensures var r := CloneUriWithNewPort(uri, port);
            && LastIndexOf(r, ':') == LastIndexOf(uri, ':')
            && r[..LastIndexOf(r, ':') + 1] == uri[..LastIndexOf(uri, ':') + 1]
            && ParseInt(r[LastIndexOf(r, ':') + 1..]) == Some(port)
            && CloneUriWithNewPort(r, other) == CloneUriWithNewPort(uri, other)
  {
    if LastIndexOf(uri, ':') >= 0 {
      CloneAfterColon(uri, port, other);
    } else {
      CloneWithoutColon(uri, port, other);
    }
  }

  lemma CloneAfterColon(uri: string, port: int, other: int)
    requires LastIndexOf(uri, ':') >= 0
    ensures var r := CloneUriWithNewPort(uri, port);
            && LastIndexOf(r, ':') == LastIndexOf(uri, ':')
            && r[..LastIndexOf(r, ':') + 1] == uri[..LastIndexOf(uri, ':') + 1]
            && ParseInt(r[LastIndexOf(r, ':') + 1..]) == Some(port)
            && CloneUriWithNewPort(r, other) == CloneUriWithNewPort(uri, other)
  {
    var k := LastIndexOf(uri, ':');
    var r := CloneUriWithNewPort(uri, port);
    var text := IntToString(port);
    IntToStringHasNoColon(port);
    assert r[k] == ':';
    forall i | k < i < |r| ensures r[i] != ':' {
      assert r[i] == text[i - k - 1];
    }
    NoLaterIndex(r, ':', k);
    assert r[..k + 1] == uri[..k + 1];
    assert r[k + 1..] == text;
    ParseIntToString(port);
  }

  lemma CloneWithoutColon(uri: string, port: int, other: int)
    requires LastIndexOf(uri, ':') == -1
    ensures var r := CloneUriWithNewPort(uri, port);
            && LastIndexOf(r, ':') == -1
            && r == IntToString(port)
            && ParseInt(r) == Some(port)
            && CloneUriWithNewPort(r, other) == IntToString(other)
  {
    var r := CloneUriWithNewPort(uri, port);
    assert r == IntToString(port);
    IntToStringHasNoColon(port);
    ParseIntToString(port);
  }
}

=== FILE: create_container.dfy ===
/** `CreateContainerRequest`: the request that asks a space to create a
    container, with the checks its constructor makes and the defaults its
    builder fills in.  The transaction, isolation level and request context
    that the request passes on to its superclass are not part of this
    model. */
module CreateContainer {
  import opened Wrappers
  import opened MzsConstants

  /** The two authorization levels a container can be created with. */
  datatype AuthLevel = NoAuthorization | Secure

  /** `MzsConstants.DEFAULT_AUTHORIZATION`. */
  const DefaultAuthorization: AuthLevel := NoAuthorization

  /** A coordinator is told apart only by its kind here; `Any` is the
      coordinator the builder falls back to. */
  datatype Coordinator = AnyCoordinator | OtherCoordinator(kind: string)

  /** A request as the constructor leaves it: both coordinator lists exist
      (a null list has become the empty one) and the authorization level is
      set.  A null name is the unnamed container. */
  datatype Request = Request(
    name: Option<string>,
    size: int,
    obligatoryCoords: seq<Coordinator>,
    optionalCoords: seq<Coordinator>,
    authLevel: AuthLevel,
    forceInMemory: bool)

  /** The three `IllegalArgumentException`s of the constructor. */
  datatype RequestError = NegativeSize(size: int) | NoAuthorizationLevel | NoCoordinator

  /** A null list reads as the empty list. */
  function OrEmpty(coords: Option<seq<Coordinator>>): (r: seq<Coordinator>)
    ensures coords.Some? ==> r == coords.value
    ensures coords.None? ==> r == []
  {
    if coords.Some? then coords.value else []
  }

  /** The constructor: the size is checked first, then the authorization
      level, then that at least one coordinator is given. */
  function NewRequest(name: Option<string>, size: int,
                      obligatoryCoords: Option<seq<Coordinator>>, optionalCoords: Option<seq<Coordinator>>,
                      authLevel: Option<AuthLevel>, forceInMemory: bool): (r: Result<Request, RequestError>)
    ensures r.Ok? ==> r.value.size >= 0
    ensures r.Ok? ==> |r.value.obligatoryCoords| + |r.value.optionalCoords| > 0
  {
    if size < 0 then Err(NegativeSize(size))
    else if authLevel.None? then Err(NoAuthorizationLevel)
    else
      var obligatory := OrEmpty(obligatoryCoords);
      var optional := OrEmpty(optionalCoords);
      if obligatory == [] && optional == [] then Err(NoCoordinator)
      else Ok(Request(name, size, obligatory, optional, authLevel.value, forceInMemory))
  }

  /** A request is built exactly when the size is not negative, an
      authorization level is given and some list holds a coordinator; the
      request then carries the arguments unchanged, with null lists read as
      empty.  When several checks fail, the earlier one is reported. */
  lemma NewRequestChecks(name: Option<string>, size: int,
                         obligatoryCoords: Option<seq<Coordinator>>, optionalCoords: Option<seq<Coordinator>>,
                         authLevel: Option<AuthLevel>, forceInMemory: bool)
    ensures var r := NewRequest(name, size, obligatoryCoords, optionalCoords, authLevel, forceInMemory);
            && (r.Ok? <==> size >= 0 && authLevel.Some?
                           && (|OrEmpty(obligatoryCoords)| > 0 || |OrEmpty(optionalCoords)| > 0))
            && (size < 0 ==> r == Err(NegativeSize(size)))
            && (size >= 0 && authLevel.None? ==> r == Err(NoAuthorizationLevel))
            && (size >= 0 && authLevel.Some? && OrEmpty(obligatoryCoords) + OrEmpty(optionalCoords) == [] ==>
                  r == Err(NoCoordinator))
            && (r.Ok? ==> r.value == Request(name, size, OrEmpty(obligatoryCoords), OrEmpty(optionalCoords),
                                             authLevel.value, forceInMemory))
  {
  }

  /** The builder's state: every field starts at its documented default and
      the coordinator lists start as null. */
  datatype Builder = Builder(
    name: Option<string>,
    size: int,
    obligatoryCoords: Option<seq<Coordinator>>,
    optionalCoords: Option<seq<Coordinator>>,
    authLevel: Option<AuthLevel>,
    forceInMemory: bool)

  /** `CreateContainerRequest.withBuilder()`. */
  function WithBuilder(): (b: Builder)
    ensures b.name.None? && b.size == Unbounded && b.authLevel == Some(NoAuthorization)
    ensures b.obligatoryCoords.None? && b.optionalCoords.None? && !b.forceInMemory
  {
    Builder(None, DefaultSize, None, None, Some(DefaultAuthorization), DefaultForceInMemory)
  }

  /** `Builder.build`: when no list holds a coordinator, the builder's own
      obligatory list becomes a single `AnyCoordinator`; then the
      constructor runs.  The builder is returned with that update, which
      stays in place for later builds, even when the constructor throws. */
  function Build(b: Builder): (Builder, Result<Request, RequestError>)
  {
    var noCoordinator := OrEmpty(b.obligatoryCoords) == [] && OrEmpty(b.optionalCoords) == [];
    var after := if noCoordinator then b.(obligatoryCoords := Some([AnyCoordinator])) else b;
    (after, NewRequest(after.name, after.size, after.obligatoryCoords, after.optionalCoords,
                       after.authLevel, after.forceInMemory))
  }

  /** A built request never lacks a coordinator: the builder fails only on a
      negative size or a missing authorization level, and it keeps the
      caller's lists unless both are null or empty, in which case the
      obligatory list is a single `AnyCoordinator`, in the request and in
      the builder alike.  Nothing else of the builder changes. */
  lemma BuildDefaultsCoordinator(b: Builder)
    ensures Build(b).1.Ok? <==> b.size >= 0 && b.authLevel.Some?
    ensures Build(b).1 != Err(NoCoordinator)
    ensures Build(b).1.Ok? ==> Build(b).1.value.optionalCoords == OrEmpty(b.optionalCoords)
    ensures Build(b).1.Ok? ==>
              Build(b).1.value.obligatoryCoords
                == if OrEmpty(b.obligatoryCoords) == [] && OrEmpty(b.optionalCoords) == []
                   then [AnyCoordinator] else OrEmpty(b.obligatoryCoords)
    ensures Build(b).1.Ok? ==> Build(b).1.value.size == b.size && Build(b).1.value.name == b.name
    ensures Build(b).0 == b.(obligatoryCoords := Build(b).0.obligatoryCoords)
    ensures Build(b).0.obligatoryCoords
              == if OrEmpty(b.obligatoryCoords) == [] && OrEmpty(b.optionalCoords) == []
                 then Some([AnyCoordinator]) else b.obligatoryCoords
  {
    var after := Build(b).0;
    NewRequestChecks(after.name, after.size, after.obligatoryCoords, after.optionalCoords,
                     after.authLevel, after.forceInMemory);
  }

  /** Building twice from the same builder gives the same request, and the
      second build leaves the builder as the first left it. */
  lemma BuildTwice(b: Builder)
    ensures Build(Build(b).0) == Build(b)
  {
  }

  /** The supplied `AnyCoordinator` outlives the build that put it there:
      optional coordinators given afterwards are added beside it, not in
      its place. */
  lemma BuildKeepsSuppliedCoordinator(b: Builder, optional: seq<Coordinator>)
    requires OrEmpty(b.obligatoryCoords) == [] && OrEmpty(b.optionalCoords) == []
    requires b.size >= 0 && b.authLevel.Some?
    ensures var again := Build(Build(b).0.(optionalCoords := Some(optional))).1;
            again.Ok? && again.value.obligatoryCoords == [AnyCoordinator] && again.value.optionalCoords == optional
  {
  }

  /** A builder left untouched yields an unnamed, unbounded, in-memory-optional
      container with no authorization and a single `AnyCoordinator`. */
  lemma DefaultBuild()
    ensures Build(WithBuilder()).1 == Ok(Request(None, Unbounded, [AnyCoordinator], [], NoAuthorization, false))
  {
  }

  /** Where the caller gives a coordinator, building is the same as calling
      the constructor directly. */
  lemma BuildAgreesWithConstructor(b: Builder)
    requires |OrEmpty(b.obligatoryCoords)| > 0 || |OrEmpty(b.optionalCoords)| > 0
    ensures Build(b) == (b, NewRequest(b.name, b.size, b.obligatoryCoords, b.optionalCoords, b.authLevel, b.forceInMemory))
  {
  }
}

=== FILE: decimals.dfy ===
/** Exact decimal numbers for the film ratings.  PHP compares ratings after
    `floatval`, and the select query compares them with XPath's `number()`;
    both are modelled on exact decimals `num / 10^scale`, which agree with the
    floating-point results for the short decimal texts ratings are written
    in. */
module Decimals {
  import opened Wrappers
  import opened Digits
  import opened PhpText

  datatype Dec = Dec(num: int, scale: nat)

  function Pow10(k: nat): (p: nat)
    ensures p >= 1
  {
    if k == 0 then 1 else 10 * Pow10(k - 1)
  }

  /** Numeric order, independent of how many decimals each side is written with. */
  predicate Le(a: Dec, b: Dec) {
    a.num * Pow10(b.scale) <= b.num * Pow10(a.scale)
  }

  predicate Lt(a: Dec, b: Dec) {
    a.num * Pow10(b.scale) < b.num * Pow10(a.scale)
  }

  const Zero: Dec := Dec(0, 0)
  const Five: Dec := Dec(5, 0)

  lemma AllDigitsConcat(a: string, b: string)
    requires AllDigits(a) && AllDigits(b)
    ensures AllDigits(a + b)
  {
    forall i | 0 <= i < |a + b|
      ensures IsDigit((a + b)[i])
    {
      if i >= |a| {
        assert (a + b)[i] == b[i - |a|];
      }
    }
  }

  /** The decimal written as an optional minus, the digits `whole`, and
      (after a point) the digits `frac`. */
  function Compose(negative: bool, whole: string, frac: string): (d: Dec)
    requires AllDigits(whole) && AllDigits(frac)
    ensures d.scale == |frac|
  {
    AllDigitsConcat(whole, frac);
    var m := DigitsValue(whole + frac);
    Dec(if negative then 0 - m else m, |frac|)
  }

  /** The digits before and after the point at the start of `u`, as
      `floatval` reads them. */
  function FloatDigits(u: string): (r: (string, string))
    ensures AllDigits(r.0) && AllDigits(r.1)
  {
    LeadingDigitsShape(u);
    var whole := LeadingDigits(u);
    var rest := u[|whole|..];
    if rest != [] && rest[0] == '.' then
      LeadingDigitsShape(rest[1..]);
      (whole, LeadingDigits(rest[1..]))
    else (whole, [])
  }

  /** PHP's `floatval` of a string: leading white space, an optional sign,
      digits, optionally a point and more digits; reading stops at the first
      other character and a text without a number is 0. */
  function Floatval(s: string): Dec {
    var t := SkipSpaces(s);
    var negative := t != [] && t[0] == '-';
    var u := if t != [] && (t[0] == '-' || t[0] == '+') then t[1..] else t;
    var parts := FloatDigits(u);
    Compose(negative, parts.0, parts.1)
  }

  predicate IsXmlSpace(c: char) {
    c == ' ' || c == '\t' || c == '\r' || c == '\n'
  }

  function TrimXmlSpace(s: string): (r: string)
    ensures |r| <= |s|
    decreases |s|
  {
    if s != [] && IsXmlSpace(s[0]) then TrimXmlSpace(s[1..])
    else if s != [] && IsXmlSpace(s[|s| - 1]) then TrimXmlSpace(s[..|s| - 1])
    else s
  }

  /** The digits of an XPath `Number` (`Digits ('.' Digits?)? | '.' Digits`)
      when `u` is exactly one. */
  function XPathDigits(u: string): (r: Option<(string, string)>)
    ensures r.Some? ==> AllDigits(r.value.0) && AllDigits(r.value.1)
  {
    LeadingDigitsShape(u);
    var whole := LeadingDigits(u);
    var rest := u[|whole|..];
    if rest == [] then
      if whole == [] then None else Some((whole, []))
    else if rest[0] != '.' || !AllDigits(rest[1..]) || (whole == [] && |rest| == 1) then None
    else Some((whole, rest[1..]))
  }

  /** XPath 1.0 `number()` of a string: optional white space, an optional
      minus, a `Number`, optional white space.  Anything else is NaN,
      written `None`. */
  function XPathNumber(s: string): Option<Dec> {
    var t := TrimXmlSpace(s);
    var negative := t != [] && t[0] == '-';
    var u := if negative then t[1..] else t;
    match XPathDigits(u)
    case None => None
    case Some(parts) => Some(Compose(negative, parts.0, parts.1))
  }

  function Magnitude(d: Dec): nat {
    if d.num < 0 then -d.num else d.num
  }

  /** The digits of `d`, padded so that at least one stands before the point. */
  function PaddedDigits(d: Dec): (digits: string)
    ensures AllDigits(digits) && DigitsValue(digits) == Magnitude(d)
    ensures |digits| >= d.scale + 1
  {
    DigitsValueOfNatToDigits(Magnitude(d));
    ZeroPadKeepsValue(NatToDigits(Magnitude(d)), d.scale + 1);
    ZeroPadShape(NatToDigits(Magnitude(d)), d.scale + 1);
    ZeroPad(NatToDigits(Magnitude(d)), d.scale + 1)
  }

  function WholeText(d: Dec): string {
    PaddedDigits(d)[..|PaddedDigits(d)| - d.scale]
  }

  function FracText(d: Dec): string {
    PaddedDigits(d)[|PaddedDigits(d)| - d.scale..]
  }

  function PointText(d: Dec): string {
    if d.scale == 0 then "" else "." + FracText(d)
  }

  /** The plain decimal text of `d`, with exactly `d.scale` digits after the
      point ("4.5", "0.05", "-3"). */
  function Format(d: Dec): (s: string)
    ensures 1 <= |s|
  {
    (if d.num < 0 then "-" else "") + (WholeText(d) + PointText(d))
  }

  lemma FormatPieces(d: Dec)
    ensures AllDigits(WholeText(d)) && AllDigits(FracText(d)) && WholeText(d) != []
    ensures |FracText(d)| == d.scale
    ensures AllDigits(WholeText(d) + FracText(d))
    ensures DigitsValue(WholeText(d) + FracText(d)) == Magnitude(d)
  {
    assert WholeText(d) + FracText(d) == PaddedDigits(d);
  }

  lemma {:induction false} LeadingDigitsStops(a: string, b: string)
    requires AllDigits(a)
    requires b == [] || !IsDigit(b[0])
    ensures LeadingDigits(a + b) == a
    decreases |a|
  {
    if a == [] {
      assert a + b == b;
    } else {
      assert (a + b)[1..] == a[1..] + b;
      LeadingDigitsStops(a[1..], b);
    }
  }

  lemma SplitAtPoint(d: Dec)
    ensures LeadingDigits(WholeText(d) + PointText(d)) == WholeText(d)
    ensures (WholeText(d) + PointText(d))[|WholeText(d)|..] == PointText(d)
  {
    FormatPieces(d);
    LeadingDigitsStops(WholeText(d), PointText(d));
  }

  lemma FloatDigitsOfFormat(d: Dec)
    ensures FloatDigits(WholeText(d) + PointText(d)) == (WholeText(d), FracText(d))
  {
    FormatPieces(d);
    SplitAtPoint(d);
    if d.scale != 0 {
      assert PointText(d)[1..] == FracText(d);
      LeadingDigitsStops(FracText(d), []);
      assert FracText(d) + [] == FracText(d);
    }
  }

  lemma SkipSpacesNoop(s: string)
    requires s != [] && !IsPhpSpace(s[0])
    ensures SkipSpaces(s) == s
  {
  }

  lemma ComposeOfFormat(d: Dec)
    ensures Compose(d.num < 0, WholeText(d), FracText(d)) == d
  {
    FormatPieces(d);
  }

  lemma FloatvalOfSigned(negative: bool, body: string)
    requires body != [] && IsDigit(body[0])
    ensures Floatval((if negative then "-" else "") + body)
         == Compose(negative, FloatDigits(body).0, FloatDigits(body).1)
  {
    var s := (if negative then "-" else "") + body;
    SkipSpacesNoop(s);
    if negative {
      assert s[0] == '-' && s[1..] == body;
    } else {
      assert s == body && s[0] != '-' && s[0] != '+';
    }
  }

  lemma FloatvalOfFormat(d: Dec)
    ensures Floatval(Format(d)) == d
  {
    FormatPieces(d);
    FloatvalOfSigned(d.num < 0, WholeText(d) + PointText(d));
    FloatDigitsOfFormat(d);
    ComposeOfFormat(d);
  }

  lemma XPathDigitsOfFormat(d: Dec)
    ensures XPathDigits(WholeText(d) + PointText(d)) == Some((WholeText(d), FracText(d)))
  {
    FormatPieces(d);
    SplitAtPoint(d);
    if d.scale != 0 {
      assert PointText(d)[1..] == FracText(d);
    }
  }

  lemma FormatEndsWithDigit(d: Dec)
    ensures IsDigit(Format(d)[|Format(d)| - 1])
  {
    FormatPieces(d);
    var s := Format(d);
    if d.scale == 0 {
      assert s[|s| - 1] == WholeText(d)[|WholeText(d)| - 1];
    } else {
      assert s[|s| - 1] == FracText(d)[|FracText(d)| - 1];
    }
  }

  lemma TrimXmlSpaceNoop(s: string)
    requires s != [] && !IsXmlSpace(s[0]) && !IsXmlSpace(s[|s| - 1])
    ensures TrimXmlSpace(s) == s
  {
  }

  lemma XPathNumberOfSigned(negative: bool, body: string)
    requires body != [] && IsDigit(body[0]) && IsDigit(body[|body| - 1])
    ensures XPathNumber((if negative then "-" else "") + body)
         == match XPathDigits(body)
            case None => None
            case Some(parts) => Some(Compose(negative, parts.0, parts.1))
  {
    var s := (if negative then "-" else "") + body;
    assert s[|s| - 1] == body[|body| - 1];
    TrimXmlSpaceNoop(s);
    if negative {
      assert s[0] == '-' && s[1..] == body;
    } else {
      assert s == body && s[0] != '-';
    }
  }

  lemma XPathNumberOfFormat(d: Dec)
    ensures XPathNumber(Format(d)) == Some(d)
  {
    FormatPieces(d);
    FormatEndsWithDigit(d);
    var body := WholeText(d) + PointText(d);
    assert Format(d) == (if d.num < 0 then "-" else "") + body;
    assert body[|body| - 1] == Format(d)[|Format(d)| - 1];
    XPathNumberOfSigned(d.num < 0, body);
    XPathDigitsOfFormat(d);
    ComposeOfFormat(d);
  }

  /** `validaFormatoAvaliacao`: a rating is refused when its `floatval`
      lies below 0 or above 5. */
  predicate RatingRejected(rating: string) {
    Lt(Floatval(rating), Zero) || Lt(Five, Floatval(rating))
  }

  /** `s` does not start with anything `floatval` reads as part of a
      number: no space, sign, digit or point. */
  predicate StartsNoNumber(s: string) {
    s == [] || (!IsPhpSpace(s[0]) && !IsDigit(s[0]) && s[0] != '+' && s[0] != '-' && s[0] != '.')
  }

  /** A text that does not start a number reads as 0, and so passes the
      rating check. */
  lemma FloatvalOfNonNumber(s: string)
    requires StartsNoNumber(s)
    ensures Floatval(s) == Zero
    ensures !RatingRejected(s)
  {
    assert SkipSpaces(s) == s;
    if s != [] {
      assert LeadingDigits(s) == [];
    }
    assert FloatDigits(s) == ([], []);
    assert DigitsValue([] + []) == 0;
  }

  /** A rating written as a plain decimal is accepted exactly when it lies in
      the closed interval [0, 5]. */
  lemma RatingRejectedOfFormat(d: Dec)
    ensures RatingRejected(Format(d)) <==> !(Le(Zero, d) && Le(d, Five))
  {
    FloatvalOfFormat(d);
  }
}

=== FILE: digits.dfy ===
/** Decimal digit strings: the conversions between natural numbers and their
    decimal text that PHP's `sprintf`/`intval` and Java's `Long.toString` /
    `Long.parseLong` both rest on. */
module Digits {
  import opened Wrappers

  predicate IsDigit(c: char) {
    '0' <= c <= '9'
  }

  predicate AllDigits(s: string) {
    forall i | 0 <= i < |s| :: IsDigit(s[i])
  }

  function DigitChar(d: nat): (c: char)
    requires d < 10
    ensures IsDigit(c)
  {
    ('0' as int + d) as char
  }

  function DigitValue(c: char): (d: nat)
    requires IsDigit(c)
    ensures d < 10
  {
    c as int - '0' as int
  }

  /** The shortest decimal text of `n` (no sign, no leading zero). */
  function NatToDigits(n: nat): string
    decreases n
  {
    if n < 10 then [DigitChar(n)] else NatToDigits(n / 10) + [DigitChar(n % 10)]
  }

  lemma {:induction false} NatToDigitsShape(n: nat)
    ensures 1 <= |NatToDigits(n)| && AllDigits(NatToDigits(n))
    decreases n
  {
    if n >= 10 {
      NatToDigitsShape(n / 10);
    }
  }

  /** The value of a string of decimal digits, most significant first. */
  function DigitsValue(s: string): nat
    requires AllDigits(s)
  {
    if s == [] then 0 else 10 * DigitsValue(s[..|s| - 1]) + DigitValue(s[|s| - 1])
  }

  lemma {:induction false} DigitsValueOfNatToDigits(n: nat)
    ensures AllDigits(NatToDigits(n)) && DigitsValue(NatToDigits(n)) == n
    decreases n
  {
    NatToDigitsShape(n);
    if n >= 10 {
      NatToDigitsShape(n / 10);
      var s := NatToDigits(n);
      assert s[..|s| - 1] == NatToDigits(n / 10);
      DigitsValueOfNatToDigits(n / 10);
    }
  }

  lemma {:induction false} LeadingZeroIgnored(s: string)
    requires AllDigits(s)
    ensures AllDigits("0" + s) && DigitsValue("0" + s) == DigitsValue(s)
    decreases |s|
  {
    if s != [] {
      var z := "0" + s;
      assert z[..|z| - 1] == "0" + s[..|s| - 1];
      LeadingZeroIgnored(s[..|s| - 1]);
    }
  }

  /** Left-pads `s` with '0' up to `width` characters, as `%0Nd` does. */
  function ZeroPad(s: string, width: nat): string
    decreases width - |s|
  {
    if |s| >= width then s else ZeroPad("0" + s, width)
  }

  lemma {:induction false} ZeroPadShape(s: string, width: nat)
    ensures |ZeroPad(s, width)| == if |s| >= width then |s| else width
    ensures ZeroPad(s, width)[|ZeroPad(s, width)| - |s|..] == s
    ensures forall i | 0 <= i < |ZeroPad(s, width)| - |s| :: ZeroPad(s, width)[i] == '0'
    decreases width - |s|
  {
    if |s| < width {
      var z := "0" + s;
      ZeroPadShape(z, width);
      var r := ZeroPad(s, width);
      assert r == ZeroPad(z, width);
      assert r[|r| - |z|..] == z;
      assert r[|r| - |s|..] == z[1..];
      forall i | 0 <= i < |r| - |s| ensures r[i] == '0' {
        if i == |r| - |z| {
          assert r[i] == r[|r| - |z|..][0];
        }
      }
    }
  }

  lemma {:induction false} ZeroPadKeepsValue(s: string, width: nat)
    requires AllDigits(s)
    ensures AllDigits(ZeroPad(s, width))
    ensures DigitsValue(ZeroPad(s, width)) == DigitsValue(s)
    decreases width - |s|
  {
    if |s| < width {
      LeadingZeroIgnored(s);
      ZeroPadKeepsValue("0" + s, width);
    }
  }

  /** Java's `Long.toString`: an optional '-' followed by the digits. */
  function IntToString(n: int): string {
    if n < 0 then "-" + NatToDigits(-n) else NatToDigits(n)
  }

  /** Java's `Long.parseLong` (radix 10): an optional sign and at least one
      digit, nothing else; a malformed text is a NumberFormatException. */
  function ParseInt(s: string): (r: Option<int>)
    ensures r.Some? ==> 1 <= |s|
  {
    if |s| > 0 && (s[0] == '-' || s[0] == '+') then
      if |s| > 1 && AllDigits(s[1..]) then
        Some(if s[0] == '-' then 0 - DigitsValue(s[1..]) as int else DigitsValue(s[1..]))
      else None
    else if |s| > 0 && AllDigits(s) then Some(DigitsValue(s))
    else None
  }

  lemma ParseIntToString(n: int)
    ensures ParseInt(IntToString(n)) == Some(n)
  {
    var m := if n < 0 then -n else n;
    DigitsValueOfNatToDigits(m);
    var s := IntToString(n);
    if n < 0 {
      assert s == "-" + NatToDigits(m);
      assert |s| > 1 && s[0] == '-';
      assert s[1..] == NatToDigits(m);
    } else {
      assert s == NatToDigits(m);
      assert IsDigit(s[0]);
    }
  }

  /** The text of a number holds only digits and a leading '-'. */
  lemma {:induction false} IntToStringChars(n: int)
    ensures forall i | 0 <= i < |IntToString(n)| :: IsDigit(IntToString(n)[i]) || (i == 0 && IntToString(n)[i] == '-')
    ensures n >= 0 ==> AllDigits(IntToString(n))
  {
    var m := if n < 0 then -n else n;
    NatToDigitsShape(m);
    assert IntToString(n) == (if n < 0 then "-" else "") + NatToDigits(m);
  }

  lemma IntToStringInjective(a: int, b: int)
    ensures IntToString(a) == IntToString(b) ==> a == b
  {
    ParseIntToString(a);
    ParseIntToString(b);
  }
}

=== FILE: entities.dfy ===
/** The three tables of the store: films (`tFilme.xml`), subscribers
    (`tSubscriber.xml`) and the join recording which subscriber chose
    which film (`tFilmeSubscriber.xml`). */
module Entities {
  import opened Wrappers
  import opened Digits
  import opened PhpText
  import opened Decimals
  import opened Records
  import opened RecordQuery
  import opened CodeAllocation
  import opened RecordStore
  import opened StoreProperties

  function Required(name: string): FieldSpec {
    FieldSpec(name, true, "", false, false, false)
  }

  function Optional(name: string, default: string): FieldSpec {
    FieldSpec(name, false, default, false, false, false)
  }

  /** A required field no two records may share. */
  function Key(name: string): FieldSpec {
    FieldSpec(name, true, "", true, false, false)
  }

  /** A required field of the join that names a record of another table. */
  function Reference(name: string): FieldSpec {
    FieldSpec(name, true, "", false, false, true)
  }

  const RatingField: string := "avaliacao"
  const NoRating: string := "(sem avaliação)"

  const Filme: Schema := Schema('F', [
      Key("titulo"), Required("descricao"), Required("genero"), Required("ano"),
      FieldSpec(RatingField, false, NoRating, false, true, false),
      Optional("diretor", "(sem informações de diretor)"),
      Optional("elenco", "(sem informações de elenco)")],
    RatingField,
    map[CodeField := "F0000", "titulo" := "Template, o Filme",
        "descricao" := "Este é o primeiro registro, serve como Template para os demais [é gerado automaticamente ao criar uma nova tabela]",
        "genero" := "Aventura", "ano" := "2007", RatingField := NoRating,
        "diretor" := "(sem informações de diretor)", "elenco" := "(sem informações de elenco)",
        DateField := "1993-05-31 23:59:59"])

  const Subscriber: Schema := Schema('S', [
      Required("nome"), Key("cpf"), Key("email"),
      Optional("telefone", "(sem informações de telefone)"),
      Optional("endereco", "(sem informações de endereço)"),
      Optional("bairro", "(sem informações de bairro)"),
      Optional("cep", "(sem informações de CEP)")],
    "",
    map[CodeField := "S0000", "nome" := "Template Junior", "cpf" := "777.777.777-77",
        "email" := "template.junior@gmail.com", "telefone" := "(sem informações de telefone)",
        "endereco" := "(sem informações de endereço)", "bairro" := "(sem informações de bairro)",
        "cep" := "(sem informações de CEP)", DateField := "1993-05-31 23:59:59"])

  const FilmeSubscriber: Schema := Schema('X', [Reference("titulo"), Reference("email")],
    "",
    map[CodeField := "X0000", "titulo" := "Template, o Filme",
        "email" := "template.junior@gmail.com", DateField := "1993-05-31 23:59:59"])

  /** The references of the join: a title must name a film, an email a
      subscriber. */
  function JoinRefs(films: Table, subscribers: Table): (refs: map<string, Table>)
    ensures RefTable(refs, "titulo") == films && RefTable(refs, "email") == subscribers
  {
    map["titulo" := films, "email" := subscribers]
  }

  lemma SchemasWellFormed()
    ensures WellFormed(Filme) && WellFormed(Subscriber) && WellFormed(FilmeSubscriber)
  {
    FilmeWellFormed();
    SubscriberWellFormed();
    JoinWellFormed();
  }

  lemma FilmeWellFormed()
    ensures WellFormed(Filme)
  {
  }

  lemma SubscriberWellFormed()
    ensures WellFormed(Subscriber)
  {
  }

  lemma JoinWellFormed()
    ensures WellFormed(FilmeSubscriber)
  {
  }

  lemma CodeZero(prefix: char)
    ensures Code(prefix, 0) == [prefix] + "0000"
  {
    assert NatToDigits(0) == "0";
    ZeroPadShape("0", 4);
    assert ZeroPad("0", 4)[3..] == "0";
    assert ZeroPad("0", 4) == "0000";
  }

  /** A table created from a template carrying code number 0 is consistent
      and without gaps. */
  lemma NewTableHasNoGaps(s: Schema)
    requires Field(s.template, CodeField) == Code(s.prefix, 0)
    ensures Dense(Coder(s.prefix), Codes(CreateTable(s))) && Consistent(s, CreateTable(s))
  {
    StoreCodesInvert(s.prefix);
    DenseIsWellNumbered(Coder(s.prefix), CodeNumber, Codes(CreateTable(s)));
  }

  /** The three templates carry code number 0. */
  lemma NewTablesHaveNoGaps()
    ensures Dense(Coder('F'), Codes(CreateTable(Filme))) && Consistent(Filme, CreateTable(Filme))
    ensures Dense(Coder('S'), Codes(CreateTable(Subscriber))) && Consistent(Subscriber, CreateTable(Subscriber))
    ensures Dense(Coder('X'), Codes(CreateTable(FilmeSubscriber)))
            && Consistent(FilmeSubscriber, CreateTable(FilmeSubscriber))
  {
    NewFilmeTableHasNoGaps();
    NewSubscriberTableHasNoGaps();
    NewJoinTableHasNoGaps();
  }

  lemma NewFilmeTableHasNoGaps()
    ensures Dense(Coder('F'), Codes(CreateTable(Filme))) && Consistent(Filme, CreateTable(Filme))
  {
    CodeZero('F');
    assert Field(Filme.template, CodeField) == "F0000";
    NewTableHasNoGaps(Filme);
  }

  lemma NewSubscriberTableHasNoGaps()
    ensures Dense(Coder('S'), Codes(CreateTable(Subscriber))) && Consistent(Subscriber, CreateTable(Subscriber))
  {
    CodeZero('S');
    assert Field(Subscriber.template, CodeField) == "S0000";
    NewTableHasNoGaps(Subscriber);
  }

  lemma NewJoinTableHasNoGaps()
    ensures Dense(Coder('X'), Codes(CreateTable(FilmeSubscriber)))
            && Consistent(FilmeSubscriber, CreateTable(FilmeSubscriber))
  {
    CodeZero('X');
    assert Field(FilmeSubscriber.template, CodeField) == "X0000";
    NewTableHasNoGaps(FilmeSubscriber);
  }

  /** `validaFormatoAvaliacao` on texts that do not start a number: they
      read as 0 and pass; the default rating text is one of them. */
  lemma NonNumericRatingsPass(s: string)
    requires StartsNoNumber(s)
    ensures !RatingRejected(s)
    ensures StartsNoNumber(NoRating) && !RatingRejected(NoRating)
  {
    FloatvalOfNonNumber(s);
    assert NoRating[0] == '(';
    FloatvalOfNonNumber(NoRating);
  }

  /** `validaFormatoAvaliacao` on numbers: both bounds pass, a number
      outside them is refused. */
  lemma RatingBoundExamples()
    ensures !RatingRejected("0.0") && !RatingRejected("5.0") && !RatingRejected("4.5")
    ensures RatingRejected("5.1")
  {
    DecimalExample("0.0", '0', '0');
    DecimalExample("5.0", '5', '0');
    DecimalExample("4.5", '4', '5');
    DecimalExample("5.1", '5', '1');
  }

  /** The value of a one-digit decimal "a.b". */
  lemma DecimalExample(s: string, a: char, b: char)
    requires s == [a, '.', b] && IsDigit(a) && IsDigit(b)
    ensures Floatval(s) == Dec(10 * DigitValue(a) + DigitValue(b), 1)
  {
    assert SkipSpaces(s) == s;
    assert LeadingDigits(s[2..]) == [b];
    assert LeadingDigits(s[1..]) == [];
    assert LeadingDigits(s) == [a];
    assert FloatDigits(s) == ([a], [b]);
    assert [a] + [b] == [a, b];
    assert DigitsValue([a]) == DigitValue(a) by {
      assert [a][..0] == [];
    }
    assert DigitsValue([a, b]) == 10 * DigitValue(a) + DigitValue(b) by {
      assert [a, b][..1] == [a];
    }
  }

  /** The four required fields of a film are given. */
  predicate FilmeRequiredGiven(p: Params) {
    !IsNullParam(p, "titulo") && !IsNullParam(p, "descricao") && !IsNullParam(p, "genero")
    && !IsNullParam(p, "ano")
  }

  /** A film given only its four required fields, under a new title, is
      stored with the default rating, director and cast. */
  lemma FilmeDefaults(t: Table, p: Params, now: string)
    requires FilmeRequiredGiven(p) && !ExistsWith(t, "titulo", p["titulo"])
    requires RatingField !in p && "diretor" !in p && "elenco" !in p
    ensures var r := Insert(Filme, t, p, now);
            var at := Allocate('F', Codes(t)).at;
            r.Ok? && Field(r.value[at], "titulo") == p["titulo"] && Field(r.value[at], RatingField) == NoRating
            && Field(r.value[at], "diretor") == "(sem informações de diretor)"
            && Field(r.value[at], "elenco") == "(sem informações de elenco)"
  {
    FilmeWellFormed();
    FilmeRequiredAccepted(t, p);
    InsertOutcome(Filme, t, p, now);
    InsertedValue(Filme, t, p, now, 0);
    InsertedValue(Filme, t, p, now, 4);
    InsertedValue(Filme, t, p, now, 5);
    InsertedValue(Filme, t, p, now, 6);
  }

  lemma FilmeRequiredAccepted(t: Table, p: Params)
    requires FilmeRequiredGiven(p) && !ExistsWith(t, "titulo", p["titulo"])
    requires RatingField !in p
    ensures forall i | 0 <= i < |Filme.fields| :: InsertFieldError(Filme.fields[i], t, p).None?
  {
    forall i | 0 <= i < |Filme.fields| ensures InsertFieldError(Filme.fields[i], t, p).None? {
      if i == 0 {
        assert Filme.fields[0] == Key("titulo");
        TakenIff(t, "titulo", p["titulo"]);
      } else if i == 4 {
        DefaultRatingAccepted(t, p);
      } else {
        var f := Filme.fields[i];
        assert !f.unique && !f.rating && (f.required ==> !IsNullParam(p, f.name));
      }
    }
  }

  lemma DefaultRatingAccepted(t: Table, p: Params)
    requires RatingField !in p
    ensures InsertFieldError(Filme.fields[4], t, p).None?
  {
    var f := FieldSpec(RatingField, false, NoRating, false, true, false);
    assert Filme.fields[4] == f;
    assert InsertValue(f, p) == NoRating;
    NonNumericRatingsPass(NoRating);
  }

  /** A film without a title is refused whatever else it carries, and one
      whose title is taken is refused as a duplicate. */
  lemma FilmeTitleChecks(t: Table, p: Params, now: string)
    ensures IsNullParam(p, "titulo") ==> Insert(Filme, t, p, now) == Err(Missing("titulo"))
    ensures !IsNullParam(p, "titulo") && ExistsWith(t, "titulo", p["titulo"]) ==>
              Insert(Filme, t, p, now) == Err(Duplicate("titulo"))
  {
    FilmeWellFormed();
    InsertOutcome(Filme, t, p, now);
    if !IsNullParam(p, "titulo") {
      TakenIff(t, "titulo", p["titulo"]);
    }
    assert Filme.fields[0] == Key("titulo");
  }

  /** The join's insertion test: five inserts into a new table, repeated
      pairs included, leave six records, the template first, numbered
      X0000 to X0005. */
  lemma JoinInsertExample(now: string)
    ensures var p1 := map["titulo" := "Template, o Filme", "email" := "teste.1@email.com"];
            var p2 := map["titulo" := "Template, o Filme", "email" := "teste.2@email.com"];
            var r := InsertAll(FilmeSubscriber, CreateTable(FilmeSubscriber), [p1, p1, p2, p1, p2], now);
            r.Ok? && |r.value| == 6 && r.value[0] == FilmeSubscriber.template
            && forall i | 0 <= i < 6 :: Field(r.value[i], CodeField) == Code('X', i)
  {
    var p1 := map["titulo" := "Template, o Filme", "email" := "teste.1@email.com"];
    var p2 := map["titulo" := "Template, o Filme", "email" := "teste.2@email.com"];
    assert !IsNullParam(p1, "titulo") && !IsNullParam(p1, "email");
    assert !IsNullParam(p2, "titulo") && !IsNullParam(p2, "email");
    JoinInserts(p1, p2, now);
  }

  /** The join's insertion test for any two pairs that give a title and an
      email. */
  lemma JoinInserts(p1: Params, p2: Params, now: string)
    requires !IsNullParam(p1, "titulo") && !IsNullParam(p1, "email")
    requires !IsNullParam(p2, "titulo") && !IsNullParam(p2, "email")
    ensures var r := InsertAll(FilmeSubscriber, CreateTable(FilmeSubscriber), [p1, p1, p2, p1, p2], now);
            r.Ok? && |r.value| == 6 && r.value[0] == FilmeSubscriber.template
            && forall i | 0 <= i < 6 :: Field(r.value[i], CodeField) == Code('X', i)
  {
    JoinWellFormed();
    NewJoinTableHasNoGaps();
    JoinFieldsPlain();
    JoinGivesRequired(p1);
    JoinGivesRequired(p2);
    var ps := [p1, p1, p2, p1, p2];
    forall i | 0 <= i < |ps| ensures GivesRequired(FilmeSubscriber, ps[i]) {
      assert ps[i] == p1 || ps[i] == p2;
    }
    InsertAllFromTemplate(FilmeSubscriber, ps, now);
    assert |ps| + 1 == 6 && FilmeSubscriber.prefix == 'X';
  }

  /** The join's fields are references, neither unique nor ratings. */
  lemma JoinFieldsPlain()
    ensures forall k | 0 <= k < |FilmeSubscriber.fields| ::
              !FilmeSubscriber.fields[k].unique && !FilmeSubscriber.fields[k].rating
  {
    assert FilmeSubscriber.fields == [Reference("titulo"), Reference("email")];
  }

  /** A title and an email are all the join requires. */
  lemma JoinGivesRequired(p: Params)
    requires !IsNullParam(p, "titulo") && !IsNullParam(p, "email")
    ensures GivesRequired(FilmeSubscriber, p)
  {
    assert FilmeSubscriber.fields == [Reference("titulo"), Reference("email")];
  }

  /** A film still carrying the default rating text is never found by a
      rating range: XPath reads the text as NaN, although the insert check
      read it as 0. */
  lemma DefaultRatingNeverInRange(lo: Dec, hi: Dec)
    ensures !RatingInRange(NoRating, lo, hi)
    ensures !RatingRejected(NoRating)
  {
    assert TrimXmlSpace(NoRating) == NoRating;
    assert LeadingDigits(NoRating) == [];
    assert XPathNumber(NoRating) == None;
    NonNumericRatingsPass(NoRating);
  }

  /** The value XPath reads from a one-digit decimal "a.b". */
  lemma XPathDecimalExample(s: string, a: char, b: char)
    requires s == [a, '.', b] && IsDigit(a) && IsDigit(b)
    ensures XPathNumber(s) == Some(Dec(10 * DigitValue(a) + DigitValue(b), 1))
  {
    assert TrimXmlSpace(s) == s;
    assert LeadingDigits(s[2..]) == [b];
    assert LeadingDigits(s[1..]) == [];
    assert LeadingDigits(s) == [a];
    assert XPathDigits(s) == Some(([a], [b]));
    assert [a] + [b] == [a, b];
    assert DigitsValue([a]) == DigitValue(a) by {
      assert [a][..0] == [];
    }
    assert DigitsValue([a, b]) == 10 * DigitValue(a) + DigitValue(b) by {
      assert [a, b][..1] == [a];
    }
  }

  /** A rating range includes both of its bounds and nothing past them. */
  lemma RatingRangeExample()
    ensures RatingInRange("3.0", Dec(3, 0), Dec(5, 0)) && RatingInRange("5.0", Dec(3, 0), Dec(5, 0))
    ensures !RatingInRange("2.9", Dec(3, 0), Dec(5, 0)) && !RatingInRange("5.1", Dec(3, 0), Dec(5, 0))
  {
    XPathDecimalExample("3.0", '3', '0');
    XPathDecimalExample("5.0", '5', '0');
    XPathDecimalExample("2.9", '2', '9');
    XPathDecimalExample("5.1", '5', '1');
  }

  /** Deleting with an empty code, as written, removes the template of a new
      table although no record carries the empty code; the corrected delete
      reports that no record has it. */
  lemma DeleteEmptyCodeExample()
    ensures !ExistsWith(CreateTable(Filme), CodeField, "")
    ensures DeleteAsWritten(Filme, CreateTable(Filme), "") == Ok([])
    ensures Delete(Filme, CreateTable(Filme), "") == Err(NotFound(""))
  {
    assert Field(Filme.template, CodeField) == "F0000";
  }
}

=== FILE: lists.dfy ===
/** Sequences as Java's lists and deques use them: removing the first or
    the last occurrence of an element, as `List.remove(Object)`,
    `Deque.removeFirstOccurrence` and `Deque.removeLastOccurrence` do. */
module Lists {

  predicate Distinct<T(==)>(s: seq<T>) {
    forall i, j | 0 <= i < j < |s| :: s[i] != s[j]
  }

  /** `List.remove(Object)`: the first occurrence of `a` goes, if any. */
  function RemoveFirst<T(==)>(s: seq<T>, a: T): (r: seq<T>)
    ensures a !in s ==> r == s
    ensures multiset(r) == multiset(s) - multiset{a}
  {
    if s == [] then []
    else if s[0] == a then
      assert s == [s[0]] + s[1..];
      s[1..]
    else
      assert s == [s[0]] + s[1..];
      [s[0]] + RemoveFirst(s[1..], a)
  }

  /** The elements before the first `a` stay in place and those after it
      move up by one. */
  lemma {:induction false} RemoveFirstShape<T>(s: seq<T>, a: T, k: nat)
    requires k < |s| && s[k] == a && a !in s[..k]
    ensures RemoveFirst(s, a) == s[..k] + s[k + 1..]
    decreases k
  {
    if k > 0 {
      assert s[0] == s[..k][0];
      assert a !in s[1..][..k - 1] by { assert s[1..][..k - 1] == s[..k][1..]; }
      RemoveFirstShape(s[1..], a, k - 1);
      assert s[..k] == [s[0]] + s[1..][..k - 1];
      assert s[k + 1..] == s[1..][k..];
    }
  }

  /** Removing what was just appended gives the list back when the
      element was not in it before. */
  lemma RemoveAppended<T>(s: seq<T>, a: T)
    requires a !in s
    ensures RemoveFirst(s + [a], a) == s
  {
    assert (s + [a])[..|s|] == s;
    RemoveFirstShape(s + [a], a, |s|);
  }

  /** `Deque.removeLastOccurrence`: the last occurrence of `a` goes, if
      any. */
  function RemoveLast<T(==)>(s: seq<T>, a: T): (r: seq<T>)
    ensures a !in s ==> r == s
    ensures multiset(r) == multiset(s) - multiset{a}
  {
    if s == [] then []
    else if s[|s| - 1] == a then
      assert s == s[..|s| - 1] + [a];
      s[..|s| - 1]
    else
      assert s == s[..|s| - 1] + [s[|s| - 1]];
      RemoveLast(s[..|s| - 1], a) + [s[|s| - 1]]
  }

  /** The elements after the last `a` stay in place and those before it
      keep their order. */
  lemma {:induction false} RemoveLastShape<T>(s: seq<T>, a: T, k: nat)
    requires k < |s| && s[k] == a && a !in s[k + 1..]
    ensures RemoveLast(s, a) == s[..k] + s[k + 1..]
    decreases |s|
  {
    if k < |s| - 1 {
      var init := s[..|s| - 1];
      var last := s[|s| - 1];
      var rest := s[k + 1..];
      assert last == rest[|rest| - 1] && last != a;
      assert RemoveLast(s, a) == RemoveLast(init, a) + [last];
      assert init[k + 1..] == rest[..|rest| - 1];
      RemoveLastShape(init, a, k);
      assert init[..k] == s[..k];
      assert init[k + 1..] + [last] == s[k + 1..];
    }
  }

  /** Without duplicates, removing the first and the last occurrence is
      the same: the one occurrence goes and the rest keep their order. */
  lemma RemoveOnlyOccurrence<T>(s: seq<T>, k: nat)
    requires Distinct(s) && k < |s|
    ensures RemoveFirst(s, s[k]) == s[..k] + s[k + 1..]
    ensures RemoveLast(s, s[k]) == s[..k] + s[k + 1..]
  {
    RemoveFirstShape(s, s[k], k);
    RemoveLastShape(s, s[k], k);
  }

  /** A deque's `descendingIterator` order. */
  function Reverse<T>(s: seq<T>): (r: seq<T>)
    ensures |r| == |s|
    ensures forall k | 0 <= k < |s| :: r[k] == s[|s| - 1 - k]
  {
    if s == [] then [] else Reverse(s[1..]) + [s[0]]
  }
}

=== FILE: mzs_constants.dfy ===
/** `MzsConstants`: the special values of the MozartSpaces core API, and
    the two checks on selector counts. */
module MzsConstants {
  import opened Wrappers

  // ---------------------------------------------------------------- Container

  /** The container size is not limited. */
  const Unbounded: int := 0
  const DefaultSize: int := Unbounded
  const DefaultForceInMemory: bool := false

  // ---------------------------------------------------------------- Selecting

  /** Select all available entries. */
  const CountMax: int := -1
  /** Select all entries; one that is not available fails the selection. */
  const CountAll: int := -2
  const DefaultCount: int := 1

  // ---------------------------------------------------------------- RequestTimeout

  /** Process once and answer at once, whatever the outcome. */
  const TimeoutZero: int := 0
  /** Never expire; reschedule after a LOCKED or DELAYABLE status. */
  const TimeoutInfinite: int := -1
  /** Process once on the actual data; reschedule only after LOCKED. */
  const TimeoutTryOnce: int := -2
  const TimeoutDefault: int := TimeoutTryOnce

  // ---------------------------------------------------------------- TransactionTimeout

  const TransactionTimeoutInfinite: int := -1

  /** `Selecting.isSpecialCountConstant`. */
  predicate IsSpecialCount(count: int) {
    count == CountAll || count == CountMax
  }

  datatype CountError = IllegalCount(count: int)   // IllegalArgumentException

  /** `Selecting.checkCount`: a count below `COUNT_ALL` is illegal. */
  function CheckCount(count: int): Result<(), CountError> {
    if count < CountAll then Err(IllegalCount(count)) else Ok(())
  }

  /** The legal counts are the two special values and the natural numbers,
      and among legal counts the special ones are exactly the negative
      ones. */
  lemma LegalCounts(count: int)
    ensures CheckCount(count).Ok? <==> IsSpecialCount(count) || count >= 0
    ensures CheckCount(count).Ok? ==> (IsSpecialCount(count) <==> count < 0)
    ensures !IsSpecialCount(DefaultCount) && CheckCount(DefaultCount).Ok?
  {
  }
}

=== FILE: native_lock.dfy ===
/** `NativeLock` of `DefaultIsolationManager`: the lock state of one entry
    or container.  It holds a list of read locks and at most one insert,
    delete and exclusive lock, each owned by a (transaction,
    sub-transaction) pair whose sub-transaction becomes null once it has
    committed and surrendered the lock to its transaction.

    Transactions and sub-transactions are modelled by their ids; their
    `equals` is id equality.  The lock's monitor is left out: each
    operation is one atomic step from state to state. */
module NativeLock {
  import opened Wrappers

  /** `TransactionTuple`: the owner of a lock. */
  datatype Owner = Owner(tx: int, stx: Option<int>)

  datatype LockType = Read | Insert | Delete | Exclusive

  datatype Lock = Lock(readers: seq<Owner>, insert: Option<Owner>, delete: Option<Owner>, exclusive: Option<Owner>)

  /** `LockResult`: granted (`VALID`), or denied naming the owner in the
      way. */
  datatype LockResult = Granted | Denied(holder: Owner)

  datatype LockError =
    | InsertOnExisting   // addLock(INSERT): only a new entry gets an insert lock
    | NotHeld            // release or surrender of a lock the caller does not hold

  /** The constructor: a new entry or container is insert-locked by the
      sub-transaction that creates it. */
  function NewLock(tx: int, stx: int): Lock {
    Lock([], Some(Owner(tx, Some(stx))), None, None)
  }

  /** `compare`: may the requester take a lock that `holder` has?  Yes when
      nobody holds it, or the same transaction holds it at transaction
      level, or the same sub-transaction holds it. */
  predicate Compare(tx: int, stx: Option<int>, holder: Option<Owner>) {
    if holder.None? then true
    else if tx == holder.value.tx then
      if holder.value.stx.None? then true
      else if stx.None? then false
      else stx == holder.value.stx
    else false
  }

  /** `compare` in plain terms. */
  lemma CompareMeans(tx: int, stx: Option<int>, holder: Option<Owner>)
    ensures Compare(tx, stx, holder) <==>
              holder.None?
              || (holder.value.tx == tx && (holder.value.stx.None? || holder.value.stx == stx))
  {
  }

  /** `checkActiveReadLocks`: the first read lock the requester may not
      share, if any. */
  function FirstConflict(readers: seq<Owner>, tx: int, stx: Option<int>): (r: Option<Owner>)
    ensures r.None? <==> forall i | 0 <= i < |readers| :: Compare(tx, stx, Some(readers[i]))
    ensures r.Some? ==> exists i | 0 <= i < |readers| :: readers[i] == r.value && !Compare(tx, stx, Some(readers[i]))
                          && forall j | 0 <= j < i :: Compare(tx, stx, Some(readers[j]))
    decreases |readers|
  {
    if readers == [] then None
    else if !Compare(tx, stx, Some(readers[0])) then Some(readers[0])
    else
      var rest := FirstConflict(readers[1..], tx, stx);
      if rest.Some? then
        ghost var i :| 0 <= i < |readers[1..]| && readers[1..][i] == rest.value && !Compare(tx, stx, Some(readers[1..][i]))
                       && forall j | 0 <= j < i :: Compare(tx, stx, Some(readers[1..][j]));
        assert readers[i + 1] == rest.value;
        rest
      else rest
  }

  /** `checkActiveExclDelInsLocks`: the exclusive lock, then any delete
      lock (whoever holds it), then the insert lock. */
  function ExclDelInsConflict(l: Lock, tx: int, stx: Option<int>): Option<Owner> {
    if !Compare(tx, stx, l.exclusive) then l.exclusive
    else if l.delete.Some? then l.delete
    else if !Compare(tx, stx, l.insert) then l.insert
    else None
  }

  /** `addLock(lockType, tx, stx)`. */
  function AddLock(l: Lock, lockType: LockType, tx: int, stx: int): Result<(Lock, LockResult), LockError> {
    var me := Owner(tx, Some(stx));
    match lockType
    case Insert => Err(InsertOnExisting)
    case Read =>
      var blocker := ExclDelInsConflict(l, tx, Some(stx));
      if blocker.Some? then Ok((l, Denied(blocker.value)))
      else Ok((l.(readers := l.readers + [me]), Granted))
    case Delete =>
      var blocker := ExclDelInsConflict(l, tx, Some(stx));
      if blocker.Some? then Ok((l, Denied(blocker.value)))
      else
        var reader := FirstConflict(l.readers, tx, Some(stx));
        if reader.Some? then Ok((l, Denied(reader.value)))
        else Ok((l.(delete := Some(me)), Granted))
    case Exclusive =>
      var blocker := ExclDelInsConflict(l, tx, Some(stx));
      if blocker.Some? then Ok((l, Denied(blocker.value)))
      else
        var reader := FirstConflict(l.readers, tx, Some(stx));
        if reader.Some? then Ok((l, Denied(reader.value)))
        else Ok((l.(exclusive := Some(me)), Granted))
  }

  /** No exclusive, delete or insert lock stands in the requester's way. */
  predicate NoWriteConflict(l: Lock, tx: int, stx: int) {
    Compare(tx, Some(stx), l.exclusive) && l.delete.None? && Compare(tx, Some(stx), l.insert)
  }

  /** No read lock stands in the requester's way. */
  predicate NoReadConflict(l: Lock, tx: int, stx: int) {
    forall o | o in l.readers :: Compare(tx, Some(stx), Some(o))
  }

  /** A read lock is granted exactly when no exclusive, delete or insert
      lock conflicts; a delete or exclusive lock also needs every read lock
      to be compatible.  A granted lock is recorded for the requester and
      nothing else changes; a denied one changes nothing and names a holder
      that is in the way. */
  lemma AddLockGrants(l: Lock, lockType: LockType, tx: int, stx: int)
    requires lockType != Insert
    ensures AddLock(l, lockType, tx, stx).Ok?
    ensures var (l', res) := AddLock(l, lockType, tx, stx).value;
            && (res == Granted <==>
                  NoWriteConflict(l, tx, stx) && (lockType == Read || NoReadConflict(l, tx, stx)))
            && (res == Granted ==>
                  l' == match lockType
                        case Read => l.(readers := l.readers + [Owner(tx, Some(stx))])
                        case Delete => l.(delete := Some(Owner(tx, Some(stx))))
                        case _ => l.(exclusive := Some(Owner(tx, Some(stx)))))
            && (res.Denied? ==>
                  && l' == l
                  && (Some(res.holder) == l.delete || !Compare(tx, Some(stx), Some(res.holder)))
                  && (Some(res.holder) in {l.exclusive, l.delete, l.insert} || res.holder in l.readers))
  {
    var blocker := ExclDelInsConflict(l, tx, Some(stx));
    var reader := FirstConflict(l.readers, tx, Some(stx));
    if blocker.None? && reader.Some? {
      ghost var i :| 0 <= i < |l.readers| && l.readers[i] == reader.value && !Compare(tx, Some(stx), Some(l.readers[i]));
    }
    if blocker.None? && reader.None? {
      assert NoReadConflict(l, tx, stx) by {
        forall o | o in l.readers ensures Compare(tx, Some(stx), Some(o)) {
          var i :| 0 <= i < |l.readers| && l.readers[i] == o;
        }
      }
    }
    if NoReadConflict(l, tx, stx) {
      assert reader.None? by {
        forall i | 0 <= i < |l.readers| ensures Compare(tx, Some(stx), Some(l.readers[i])) {
          assert l.readers[i] in l.readers;
        }
      }
    }
  }

  /** An insert lock cannot be added to an existing entry. */
  lemma InsertLockRefused(l: Lock, tx: int, stx: int)
    ensures AddLock(l, Insert, tx, stx) == Err(InsertOnExisting)
  {
  }

  /** A delete lock blocks every new lock, even one of its own
      sub-transaction. */
  lemma DeleteLockBlocksAll(l: Lock, lockType: LockType, tx: int, stx: int)
    requires lockType != Insert && l.delete.Some?
    ensures AddLock(l, lockType, tx, stx).Ok?
    ensures AddLock(l, lockType, tx, stx).value.1.Denied?
  {
    AddLockGrants(l, lockType, tx, stx);
  }

  /** A new lock belongs to its creator: the creating sub-transaction may
      read, delete or lock it exclusively, and any other transaction is
      denied by the insert lock. */
  lemma NewLockOwnedByCreator(tx: int, stx: int, lockType: LockType, other: int, otherStx: int)
    requires lockType != Insert && other != tx
    ensures AddLock(NewLock(tx, stx), lockType, tx, stx).Ok?
    ensures AddLock(NewLock(tx, stx), lockType, tx, stx).value.1 == Granted
    ensures AddLock(NewLock(tx, stx), lockType, other, otherStx).Ok?
    ensures AddLock(NewLock(tx, stx), lockType, other, otherStx).value.1 == Denied(Owner(tx, Some(stx)))
  {
    AddLockGrants(NewLock(tx, stx), lockType, tx, stx);
  }

  // ---------------------------------------------------------------- release

  /** The single-owner slots: held at transaction level by `tx`, or held by
      the sub-transaction `stx`. */
  predicate HoldsSlot(slot: Option<Owner>, tx: int, stx: Option<int>) {
    slot.Some? && ((slot.value.tx == tx && slot.value.stx.None?) || (stx.Some? && stx == slot.value.stx))
  }

  function ReleaseSlot(slot: Option<Owner>, tx: int, stx: Option<int>): Result<Option<Owner>, LockError> {
    if slot.None? then Err(NotHeld)
    else if tx == slot.value.tx && slot.value.stx.None? then Ok(None)
    else if stx.Some? && stx == slot.value.stx then Ok(None)
    else Err(NotHeld)
  }

  /** The position of the first read lock of exactly (`tx`, `stx`). */
  function FindRead(readers: seq<Owner>, owner: Owner): (r: Option<nat>)
    ensures r.None? <==> owner !in readers
    ensures r.Some? ==> r.value < |readers| && readers[r.value] == owner && owner !in readers[..r.value]
    decreases |readers|
  {
    if readers == [] then None
    else if readers[0] == owner then Some(0)
    else
      var rest := FindRead(readers[1..], owner);
      if rest.Some? then
        assert readers[..rest.value + 1] == [readers[0]] + readers[1..][..rest.value];
        Some(rest.value + 1)
      else None
  }

  /** The read locks without those of transaction `tx`. */
  function WithoutTx(readers: seq<Owner>, tx: int): seq<Owner>
    decreases |readers|
  {
    if readers == [] then []
    else if readers[0].tx == tx then WithoutTx(readers[1..], tx)
    else [readers[0]] + WithoutTx(readers[1..], tx)
  }

  lemma {:induction false} WithoutTxKeepsOthers(readers: seq<Owner>, tx: int)
    ensures forall o | o in WithoutTx(readers, tx) :: o.tx != tx && o in readers
    ensures forall o | o in readers && o.tx != tx :: o in WithoutTx(readers, tx)
    ensures |WithoutTx(readers, tx)| <= |readers|
    decreases |readers|
  {
    if readers != [] {
      WithoutTxKeepsOthers(readers[1..], tx);
      forall o | o in readers && o.tx != tx ensures o in WithoutTx(readers, tx) {
        if o != readers[0] {
          assert o in readers[1..];
        }
      }
    }
  }

  /** `releaseLock(lockType, tx, stx)`: a single slot is cleared when the
      caller holds it; a read lock of a sub-transaction is removed once
      (its first occurrence); with a null sub-transaction every read lock of
      the transaction goes, and that never fails. */
  function ReleaseLock(l: Lock, lockType: LockType, tx: int, stx: Option<int>): Result<Lock, LockError> {
    match lockType
    case Insert =>
      var slot :- ReleaseSlot(l.insert, tx, stx);
      Ok(l.(insert := slot))
    case Delete =>
      var slot :- ReleaseSlot(l.delete, tx, stx);
      Ok(l.(delete := slot))
    case Exclusive =>
      var slot :- ReleaseSlot(l.exclusive, tx, stx);
      Ok(l.(exclusive := slot))
    case Read =>
      if stx.Some? then
        var i := FindRead(l.readers, Owner(tx, stx));
        if i.None? then Err(NotHeld)
        else Ok(l.(readers := l.readers[..i.value] + l.readers[i.value + 1..]))
      else Ok(l.(readers := WithoutTx(l.readers, tx)))
  }

  /** Releasing fails exactly when the caller does not hold the lock; a
      successful release clears that lock and touches no other. */
  lemma ReleaseIffHeld(l: Lock, lockType: LockType, tx: int, stx: Option<int>)
    ensures lockType == Insert ==>
              (ReleaseLock(l, lockType, tx, stx).Ok? <==> HoldsSlot(l.insert, tx, stx))
              && (ReleaseLock(l, lockType, tx, stx).Ok? ==> ReleaseLock(l, lockType, tx, stx).value == l.(insert := None))
    ensures lockType == Delete ==>
              (ReleaseLock(l, lockType, tx, stx).Ok? <==> HoldsSlot(l.delete, tx, stx))
              && (ReleaseLock(l, lockType, tx, stx).Ok? ==> ReleaseLock(l, lockType, tx, stx).value == l.(delete := None))
    ensures lockType == Exclusive ==>
              (ReleaseLock(l, lockType, tx, stx).Ok? <==> HoldsSlot(l.exclusive, tx, stx))
              && (ReleaseLock(l, lockType, tx, stx).Ok? ==> ReleaseLock(l, lockType, tx, stx).value == l.(exclusive := None))
    ensures lockType == Read ==>
              (ReleaseLock(l, lockType, tx, stx).Ok? <==> stx.None? || Owner(tx, stx) in l.readers)
              && (ReleaseLock(l, lockType, tx, stx).Ok? ==>
                    var l' := ReleaseLock(l, lockType, tx, stx).value;
                    l' == l.(readers := l'.readers) && |l'.readers| <= |l.readers|
                    && (stx.Some? ==> multiset(l'.readers) + multiset{Owner(tx, stx)} == multiset(l.readers))
                    && (stx.None? ==> forall o | o in l.readers :: o in l'.readers <==> o.tx != tx))
  {
    if lockType == Read && stx.Some? && Owner(tx, stx) in l.readers {
      var i := FindRead(l.readers, Owner(tx, stx)).value;
      assert l.readers == l.readers[..i] + [l.readers[i]] + l.readers[i + 1..];
    }
    if lockType == Read && stx.None? {
      WithoutTxKeepsOthers(l.readers, tx);
    }
  }

  /** A granted exclusive or delete lock is released again by the same
      sub-transaction, leaving that slot empty; a granted read lock, when
      the sub-transaction held none before, is released back to the
      original state. */
  lemma AddThenRelease(l: Lock, lockType: LockType, tx: int, stx: int)
    requires lockType != Insert
    requires AddLock(l, lockType, tx, stx).Ok? && AddLock(l, lockType, tx, stx).value.1 == Granted
    requires lockType == Read ==> Owner(tx, Some(stx)) !in l.readers
    ensures ReleaseLock(AddLock(l, lockType, tx, stx).value.0, lockType, tx, Some(stx))
              == Ok(match lockType
                    case Read => l
                    case Delete => l.(delete := None)
                    case _ => l.(exclusive := None))
  {
    if lockType == Read {
      var readers := l.readers + [Owner(tx, Some(stx))];
      assert FindRead(readers, Owner(tx, Some(stx))) == Some(|l.readers|) by {
        assert Owner(tx, Some(stx)) in readers;
        assert forall k | 0 <= k < |l.readers| :: readers[k] == l.readers[k];
      }
      assert readers[..|l.readers|] + readers[|l.readers| + 1..] == l.readers;
    }
  }

  // ---------------------------------------------------------------- surrender

  function SurrenderSlot(slot: Option<Owner>, parent: int, stx: int): Result<Option<Owner>, LockError> {
    if slot.None? then Err(NotHeld)
    else if parent == slot.value.tx && Some(stx) == slot.value.stx then Ok(Some(slot.value.(stx := None)))
    else Err(NotHeld)
  }

  /** `surrenderLock(lockType, stx)`: the lock of sub-transaction `stx`,
      whose parent is `parent`, passes to the parent by forgetting the
      sub-transaction; for read locks the first one of `stx` does. */
  function SurrenderLock(l: Lock, lockType: LockType, parent: int, stx: int): Result<Lock, LockError> {
    match lockType
    case Insert =>
      var slot :- SurrenderSlot(l.insert, parent, stx);
      Ok(l.(insert := slot))
    case Delete =>
      var slot :- SurrenderSlot(l.delete, parent, stx);
      Ok(l.(delete := slot))
    case Exclusive =>
      var slot :- SurrenderSlot(l.exclusive, parent, stx);
      Ok(l.(exclusive := slot))
    case Read =>
      var i := FindRead(l.readers, Owner(parent, Some(stx)));
      if i.None? then Err(NotHeld)
      else Ok(l.(readers := l.readers[i.value := Owner(parent, None)]))
  }

  /** The slot of a write lock. */
  function SlotOf(l: Lock, lockType: LockType): Option<Owner>
    requires lockType != Read
  {
    match lockType
    case Insert => l.insert
    case Delete => l.delete
    case Exclusive => l.exclusive
  }

  /** `l` with the slot of a write lock replaced. */
  function WithSlot(l: Lock, lockType: LockType, slot: Option<Owner>): Lock
    requires lockType != Read
  {
    match lockType
    case Insert => l.(insert := slot)
    case Delete => l.(delete := slot)
    case Exclusive => l.(exclusive := slot)
  }

  /** Replacing a read entry of `tx` by another entry of `tx` leaves the
      read locks of the other transactions as they were. */
  lemma {:induction false} WithoutTxIgnoresOwnEntries(readers: seq<Owner>, i: nat, o: Owner, tx: int)
    requires i < |readers| && readers[i].tx == tx && o.tx == tx
    ensures WithoutTx(readers[i := o], tx) == WithoutTx(readers, tx)
    decreases |readers|
  {
    if i == 0 {
      assert readers[i := o][1..] == readers[1..];
    } else {
      assert readers[i := o][1..] == readers[1..][i - 1 := o];
      WithoutTxIgnoresOwnEntries(readers[1..], i - 1, o, tx);
    }
  }

  /** After a surrender the transaction holds the lock at transaction
      level: every sub-transaction of it may share it, and the transaction
      can release it without naming a sub-transaction.  For a write lock the
      slot passes to the transaction and nothing else changes; for a read
      lock one entry of the sub-transaction becomes the transaction's, and
      the transaction's release removes its read locks as before. */
  lemma SurrenderMovesToTransaction(l: Lock, lockType: LockType, parent: int, stx: int, sibling: int)
    requires lockType != Read ==> SlotOf(l, lockType) == Some(Owner(parent, Some(stx)))
    requires lockType == Read ==> Owner(parent, Some(stx)) in l.readers
    ensures SurrenderLock(l, lockType, parent, stx).Ok?
    ensures Compare(parent, Some(sibling), Some(Owner(parent, None)))
    ensures var l' := SurrenderLock(l, lockType, parent, stx).value;
            lockType != Read ==>
              && l' == WithSlot(l, lockType, Some(Owner(parent, None)))
              && Compare(parent, Some(sibling), SlotOf(l', lockType))
              && !Compare(parent, Some(sibling), SlotOf(l, lockType)) == (sibling != stx)
              && ReleaseLock(l', lockType, parent, None) == Ok(WithSlot(l, lockType, None))
    ensures var l' := SurrenderLock(l, lockType, parent, stx).value;
            lockType == Read ==>
              && l' == l.(readers := l'.readers)
              && Owner(parent, None) in l'.readers
              && multiset(l'.readers) + multiset{Owner(parent, Some(stx))}
                   == multiset(l.readers) + multiset{Owner(parent, None)}
              && ReleaseLock(l', Read, parent, None) == ReleaseLock(l, Read, parent, None)
  {
    if lockType == Read {
      var i := FindRead(l.readers, Owner(parent, Some(stx))).value;
      var readers' := l.readers[i := Owner(parent, None)];
      assert readers'[i] == Owner(parent, None);
      assert l.readers == l.readers[..i] + [l.readers[i]] + l.readers[i + 1..];
      assert readers' == l.readers[..i] + [Owner(parent, None)] + l.readers[i + 1..];
      WithoutTxIgnoresOwnEntries(l.readers, i, Owner(parent, None), parent);
    }
  }

  /** Surrendering fails exactly when the sub-transaction does not hold the
      lock under its parent. */
  lemma SurrenderIffHeld(l: Lock, lockType: LockType, parent: int, stx: int)
    ensures lockType == Insert ==> (SurrenderLock(l, lockType, parent, stx).Ok? <==> l.insert == Some(Owner(parent, Some(stx))))
    ensures lockType == Delete ==> (SurrenderLock(l, lockType, parent, stx).Ok? <==> l.delete == Some(Owner(parent, Some(stx))))
    ensures lockType == Exclusive ==> (SurrenderLock(l, lockType, parent, stx).Ok? <==> l.exclusive == Some(Owner(parent, Some(stx))))
    ensures lockType == Read ==>
              (SurrenderLock(l, lockType, parent, stx).Ok? <==> Owner(parent, Some(stx)) in l.readers)
              && (SurrenderLock(l, lockType, parent, stx).Ok? ==>
                    Owner(parent, None) in SurrenderLock(l, lockType, parent, stx).value.readers
                    && |SurrenderLock(l, lockType, parent, stx).value.readers| == |l.readers|)
  {
    if lockType == Read && Owner(parent, Some(stx)) in l.readers {
      var i := FindRead(l.readers, Owner(parent, Some(stx))).value;
      assert SurrenderLock(l, lockType, parent, stx).value.readers[i] == Owner(parent, None);
    }
  }
}

=== FILE: native_selector.dfy ===
/** `AbstractNativeSelector`: the count checks every native selector uses,
    and selector identity by name. */
module NativeSelector {
  import opened Wrappers
  import opened MzsConstants

  /** What a count check throws.  `A` is the availability information of a
      locked entry, which the check only passes on. */
  datatype SelectError<A> =
    | CountNotMet(expected: int, actual: int)
    | EntryLocked(availability: A)
    | AccessDenied

  /** `isCountMet`: enough entries, and the expected count is an ordinary
      number. */
  predicate IsCountMet(actual: int, expected: int) {
    actual >= expected && !IsSpecialCount(expected)
  }

  /** `checkCount(actual, expected, message)`. */
  function CheckCountMet<A>(actual: int, expected: int): Result<(), SelectError<A>> {
    if actual < expected && !IsSpecialCount(expected) then Err(CountNotMet(expected, actual)) else Ok(())
  }

  /** `checkCount(actual, expected, lockedAvailability, existsDeniedEntry,
      message)`: on a shortfall, a locked entry is reported first, then a
      denied one, and a plain shortfall last. */
  function CheckCountWithCause<A>(actual: int, expected: int, locked: Option<A>, existsDenied: bool)
    : Result<(), SelectError<A>>
  {
    if actual < expected && !IsSpecialCount(expected) then
      if locked.Some? then Err(EntryLocked(locked.value))
      else if existsDenied then Err(AccessDenied)
      else Err(CountNotMet(expected, actual))
    else Ok(())
  }

  /** For an ordinary expected count the check passes exactly when the
      count is met; a special expected count always passes the check and is
      never met. */
  lemma CheckAgreesWithMet<A>(actual: int, expected: int)
    ensures !IsSpecialCount(expected) ==> (CheckCountMet<A>(actual, expected).Ok? <==> IsCountMet(actual, expected))
    ensures IsSpecialCount(expected) ==> CheckCountMet<A>(actual, expected).Ok? && !IsCountMet(actual, expected)
    ensures CheckCountMet<A>(actual, expected).Err? ==> CheckCountMet<A>(actual, expected).error == CountNotMet(expected, actual)
  {
  }

  /** The five-argument check fails exactly when the three-argument one
      does, and picks its cause in the order locked, denied, count. */
  lemma CausePriority<A>(actual: int, expected: int, locked: Option<A>, existsDenied: bool)
    ensures CheckCountWithCause(actual, expected, locked, existsDenied).Ok? <==> CheckCountMet<A>(actual, expected).Ok?
    ensures CheckCountWithCause(actual, expected, locked, existsDenied).Err? ==>
              CheckCountWithCause(actual, expected, locked, existsDenied).error
                == if locked.Some? then EntryLocked(locked.value)
                   else if existsDenied then AccessDenied
                   else CountNotMet(expected, actual)
  {
  }

  // ---------------------------------------------------------------- identity

  /** A selector: its concrete class, its name (possibly null) and its
      count. */
  datatype Selector = Selector(kind: string, name: Option<string>, count: int)

  /** The constructor checks the count with `Selecting.checkCount`. */
  function NewSelector(kind: string, name: Option<string>, count: int): (r: Result<Selector, CountError>)
    ensures r.Ok? <==> count >= CountAll
    ensures r.Ok? ==> r.value.kind == kind && r.value.name == name && r.value.count == count
  {
    var _ :- CheckCount(count);
    Ok(Selector(kind, name, count))
  }

  /** `equals`: the same class and the same name; the count does not take
      part. */
  predicate SameSelector(a: Selector, b: Selector) {
    a.kind == b.kind && a.name == b.name
  }

  const TwoTo31: int := 0x8000_0000
  const TwoTo32: int := 0x1_0000_0000

  /** Java's `int` arithmetic: `x` reduced into [-2^31, 2^31). */
  function Wrap32(x: int): (r: int)
    ensures -TwoTo31 <= r < TwoTo31
    ensures (r - x) % TwoTo32 == 0
  {
    (x + TwoTo31) % TwoTo32 - TwoTo31
  }

  /** `String.hashCode`: h = 31 * h + c over the characters, in `int`.
      Java sums UTF-16 code units; a character outside the Basic
      Multilingual Plane counts once here, not as its two surrogates. */
  function StringHash(s: string): int
    decreases |s|
  {
    if s == [] then 0 else Wrap32(31 * StringHash(s[..|s| - 1]) + s[|s| - 1] as int)
  }

  /** `hashCode`: 31 * 1 plus the hash of the name, 0 for a null name. */
  function SelectorHash(a: Selector): int {
    Wrap32(31 + (if a.name.Some? then StringHash(a.name.value) else 0))
  }

  /** Equality is an equivalence that ignores the count and agrees with the
      hash code. */
  lemma SelectorIdentity(a: Selector, b: Selector, c: Selector)
    ensures SameSelector(a, a)
    ensures SameSelector(a, b) ==> SameSelector(b, a)
    ensures SameSelector(a, b) && SameSelector(b, c) ==> SameSelector(a, c)
    ensures SameSelector(a, a.(count := b.count))
    ensures SameSelector(a, b) ==> SelectorHash(a) == SelectorHash(b)
  {
  }

  /** Names that differ get different hash codes in some cases and the same
      one in others: "Aa" and "BB" collide, so the hash cannot stand in for
      equality. */
  lemma HashCollision()
    ensures SelectorHash(Selector("Fifo", Some("Aa"), 1)) == SelectorHash(Selector("Fifo", Some("BB"), 1))
    ensures !SameSelector(Selector("Fifo", Some("Aa"), 1), Selector("Fifo", Some("BB"), 1))
  {
    assert "Aa"[..1] == "A" && "BB"[..1] == "B";
    assert "A"[..0] == [] && "B"[..0] == [];
    assert StringHash("A") == 65;
    assert StringHash("B") == 66;
    assert StringHash("Aa") == 31 * 65 + 97;
    assert StringHash("BB") == 31 * 66 + 66;
  }
}

=== FILE: ordered_long_set.dfy ===
/** `StoredOrderedLongSet`: an ordered set of longs kept as a doubly linked
    list inside a key-to-links map, so that it can live in a persistent
    store.  Each element maps to its (previous, next) pair, -1 standing for
    "none"; the key -1 (`FIRST_LAST`) holds the (first, last) pair.

    Each operation is a function from the old state to the new one, or to
    the exception the source throws.  `Valid(s, xs)` relates a state to the
    sequence `xs` it represents, and the lemmas at the end show that every
    operation does to that sequence what its name says. */
module OrderedLongSet {
  import opened Wrappers

  /** The key of the (first, last) pair. */
  const FirstLast: int := -1
  /** The link of an element without a predecessor or successor. */
  const Nil: int := -1

  datatype Links = Links(prev: int, next: int)

  datatype LongSet = LongSet(data: map<int, Links>, first: int, last: int)

  datatype SetError =
    | NoSuchElement   // java.util.NoSuchElementException
    | NullLinks       // a NullPointerException: the links of a value are missing

  function WithFirstLast(data: map<int, Links>, first: int, last: int): map<int, Links> {
    data[FirstLast := Links(first, last)]
  }

  /** The constructor: the stored (first, last) pair, or an empty set whose
      pair is stored at once. */
  function Open(data: map<int, Links>): (s: LongSet)
    ensures FirstLast in s.data && s.data[FirstLast] == Links(s.first, s.last)
    ensures FirstLast in data ==> s.data == data
  {
    if FirstLast in data then LongSet(data, data[FirstLast].prev, data[FirstLast].next)
    else LongSet(WithFirstLast(data, Nil, Nil), Nil, Nil)
  }

  /** The empty set: only the (first, last) pair, both -1. */
  function Clear(s: LongSet): (r: LongSet)
    ensures r.data.Keys == {FirstLast}
  {
    LongSet(WithFirstLast(map[], Nil, Nil), Nil, Nil)
  }

  function InsertVeryFirst(s: LongSet, v: int): LongSet {
    LongSet(WithFirstLast(s.data[v := Links(Nil, Nil)], v, v), v, v)
  }

  function Append(s: LongSet, v: int): Result<LongSet, SetError> {
    if s.last == Nil then Ok(InsertVeryFirst(s, v))
    else if s.last !in s.data then Err(NullLinks)
    else
      var data := s.data[s.last := s.data[s.last].(next := v)][v := Links(s.last, Nil)];
      Ok(LongSet(WithFirstLast(data, s.first, v), s.first, v))
  }

  function Prepend(s: LongSet, v: int): Result<LongSet, SetError> {
    if s.first == Nil then Ok(InsertVeryFirst(s, v))
    else if s.first !in s.data then Err(NullLinks)
    else
      var data := s.data[s.first := s.data[s.first].(prev := v)][v := Links(Nil, s.first)];
      Ok(LongSet(WithFirstLast(data, v, s.last), v, s.last))
  }

  function InsertBefore(s: LongSet, anchor: int, v: int): Result<LongSet, SetError> {
    if anchor !in s.data then Err(NoSuchElement)
    else if anchor == s.first then Prepend(s, v)
    else
      var before := s.data[anchor].prev;
      if before !in s.data then Err(NullLinks)
      else
        var data := s.data[before := s.data[before].(next := v)]
                          [anchor := s.data[anchor].(prev := v)]
                          [v := Links(before, anchor)];
        Ok(LongSet(data, s.first, s.last))
  }

  function InsertAfter(s: LongSet, anchor: int, v: int): Result<LongSet, SetError> {
    if anchor !in s.data then Err(NoSuchElement)
    else if anchor == s.last then Append(s, v)
    else
      var after := s.data[anchor].next;
      if after !in s.data then Err(NullLinks)
      else
        var data := s.data[anchor := s.data[anchor].(next := v)]
                          [v := Links(anchor, after)]
                          [after := s.data[after].(prev := v)];
        Ok(LongSet(data, s.first, s.last))
  }

  function Remove(s: LongSet, v: int): Result<LongSet, SetError> {
    if v !in s.data then Err(NoSuchElement)
    else
      var links := s.data[v];
      if v == s.first && v == s.last then Ok(Clear(s))
      else if v == s.first then
        if links.next !in s.data then Err(NullLinks)
        else
          var data := s.data[links.next := s.data[links.next].(prev := Nil)] - {s.first};
          Ok(LongSet(WithFirstLast(data, links.next, s.last), links.next, s.last))
      else if v == s.last then
        if links.prev !in s.data then Err(NullLinks)
        else
          var data := s.data[links.prev := s.data[links.prev].(next := Nil)] - {s.last};
          Ok(LongSet(WithFirstLast(data, s.first, links.prev), s.first, links.prev))
      else if links.prev !in s.data || links.next !in s.data then Err(NullLinks)
      else
        var data := s.data[links.prev := s.data[links.prev].(next := links.next)]
                          [links.next := s.data[links.next].(prev := links.prev)] - {v};
        Ok(LongSet(data, s.first, s.last))
  }

  /** `data.size() - 1`: the stored keys without the (first, last) key. */
  function Size(s: LongSet): int {
    |s.data.Keys| - 1
  }

  // ---------------------------------------------------------------- iterator

  /** The iterator's state: the value `next()` returns and its links, absent
      when the map has none for it. */
  datatype Cursor = Cursor(current: int, links: Option<Links>)

  function LinksOf(s: LongSet, v: int): Option<Links> {
    if v in s.data then Some(s.data[v]) else None
  }

  function Start(s: LongSet): Cursor {
    if s.first == Nil then Cursor(Nil, Some(Links(Nil, Nil))) else Cursor(s.first, LinksOf(s, s.first))
  }

  predicate HasNext(c: Cursor) {
    c.current != Nil
  }

  function Next(s: LongSet, c: Cursor): (r: Result<(int, Cursor), SetError>)
    ensures r.Ok? <==> HasNext(c) && c.links.Some?
    ensures r.Ok? ==> r.value.0 == c.current
  {
    if c.current == Nil then Err(NoSuchElement)
    else if c.links.None? then Err(NullLinks)
    else
      var following := c.links.value.next;
      Ok((c.current, Cursor(following, if following == Nil then c.links else LinksOf(s, following))))
  }

  /** The values `n` successive calls of `next()` return. */
  function Take(s: LongSet, c: Cursor, n: nat): Result<seq<int>, SetError>
    decreases n
  {
    if n == 0 then Ok([])
    else
      var step :- Next(s, c);
      var rest :- Take(s, step.1, n - 1);
      Ok([step.0] + rest)
  }

  // ---------------------------------------------------------------- abstraction

  predicate Distinct(xs: seq<int>) {
    forall i, j | 0 <= i < j < |xs| :: xs[i] != xs[j]
  }

  /** The links the element at position `i` of `xs` must have. */
  function LinksAt(xs: seq<int>, i: int): Links
    requires 0 <= i < |xs|
  {
    Links(if i == 0 then Nil else xs[i - 1], if i == |xs| - 1 then Nil else xs[i + 1])
  }

  predicate WellFormedSeq(xs: seq<int>) {
    Distinct(xs) && forall i | 0 <= i < |xs| :: xs[i] != Nil
  }

  /** Every element of `xs` carries the links its position demands. */
  predicate LinksMatch(data: map<int, Links>, xs: seq<int>) {
    forall i | 0 <= i < |xs| :: xs[i] in data && data[xs[i]] == LinksAt(xs, i)
  }

  predicate EndsMatch(s: LongSet, xs: seq<int>) {
    FirstLast in s.data && s.data[FirstLast] == Links(s.first, s.last)
    && if xs == [] then s.first == Nil && s.last == Nil else s.first == xs[0] && s.last == xs[|xs| - 1]
  }

  /** `s` stores the sequence `xs`. */
  predicate Valid(s: LongSet, xs: seq<int>) {
    WellFormedSeq(xs) && s.data.Keys == Elems(xs) + {FirstLast} && EndsMatch(s, xs) && LinksMatch(s.data, xs)
  }

  function Elems(xs: seq<int>): set<int> {
    set x | x in xs
  }

  // ---------------------------------------------------------------- refinement lemmas

  /** A new store, and a cleared one, hold the empty sequence. */
  lemma EmptyValid(s: LongSet)
    ensures Valid(Open(map[]), [])
    ensures Valid(Clear(s), [])
  {
  }

  /** Reopening the stored map of a set gives back the same set. */
  lemma ReopenValid(s: LongSet, xs: seq<int>)
    requires Valid(s, xs)
    ensures Open(s.data) == s
  {
  }

  lemma {:induction false} DistinctCard(xs: seq<int>)
    requires Distinct(xs)
    ensures |Elems(xs)| == |xs|
  {
    if xs != [] {
      var init := xs[..|xs| - 1];
      assert Distinct(init);
      DistinctCard(init);
      assert Elems(xs) == Elems(init) + {xs[|xs| - 1]};
      assert xs[|xs| - 1] !in Elems(init);
    }
  }

  /** `size()` is the length of the sequence. */
  lemma SizeValid(s: LongSet, xs: seq<int>)
    requires Valid(s, xs)
    ensures Size(s) == |xs|
  {
    DistinctCard(xs);
    assert FirstLast !in Elems(xs);
  }

  lemma AppendValid(s: LongSet, xs: seq<int>, v: int)
    requires Valid(s, xs) && v != Nil && v !in xs
    ensures Append(s, v).Ok? && Valid(Append(s, v).value, xs + [v])
  {
    if xs == [] {
      VeryFirstValid(s, v);
      assert xs + [v] == [v];
    } else {
      AppendNonEmpty(s, xs, v);
    }
  }

  lemma AppendNonEmpty(s: LongSet, xs: seq<int>, v: int)
    requires Valid(s, xs) && xs != [] && v != Nil && v !in xs
    ensures Append(s, v).Ok? && Valid(Append(s, v).value, xs + [v])
  {
    ElemsAdded(xs, v);
    EndsWellFormed(xs, v);
    assert s.last == xs[|xs| - 1] && s.last in s.data;
    AppendShape(s, v);
    AppendedValid(s, xs, v, Append(s, v).value);
  }

  /** The state `Append` leaves behind stores `xs` followed by `v`. */
  lemma AppendedValid(s: LongSet, xs: seq<int>, v: int, r: LongSet)
    requires Valid(s, xs) && xs != [] && v != Nil && v !in xs && WellFormedSeq(xs + [v])
    requires Elems(xs + [v]) == Elems(xs) + {v}
    requires r == LongSet(WithFirstLast(s.data[s.last := s.data[s.last].(next := v)][v := Links(s.last, Nil)], s.first, v),
                          s.first, v)
    ensures Valid(r, xs + [v])
  {
    assert s.last == xs[|xs| - 1] && s.last in s.data;
    var data := s.data[s.last := s.data[s.last].(next := v)][v := Links(s.last, Nil)];
    AppendLinks(s.data, xs, v, data);
    AddedKeys(s.data, s.last, s.data[s.last].(next := v), v, Links(s.last, Nil), Links(s.first, v));
    assert (xs + [v])[0] == xs[0];
  }

  /** The first value added to an empty set is its only element. */
  lemma VeryFirstValid(s: LongSet, v: int)
    requires Valid(s, []) && v != Nil
    ensures Valid(InsertVeryFirst(s, v), [v])
  {
    assert Elems([v]) == {v};
    assert s.data.Keys == {FirstLast};
  }

  /** Appending to a non-empty set links the new value after the last one. */
  lemma AppendShape(s: LongSet, v: int)
    requires s.last != Nil && s.last in s.data
    ensures Append(s, v)
            == Ok(LongSet(WithFirstLast(s.data[s.last := s.data[s.last].(next := v)][v := Links(s.last, Nil)], s.first, v),
                          s.first, v))
  {
  }

  /** A new value added at either end keeps the sequence well formed. */
  lemma EndsWellFormed(xs: seq<int>, v: int)
    requires WellFormedSeq(xs) && v !in xs && v != Nil
    ensures WellFormedSeq([v] + xs) && WellFormedSeq(xs + [v])
  {
    InsertedWellFormed(xs, 0, v);
    assert xs[..0] + [v] + xs[0..] == [v] + xs;
    InsertedWellFormed(xs, |xs|, v);
    assert xs[..|xs|] + [v] + xs[|xs|..] == xs + [v];
  }

  /** The elements of `xs` with `v` added at the end, or at the front. */
  lemma ElemsAdded(xs: seq<int>, v: int)
    ensures Elems(xs + [v]) == Elems(xs) + {v}
    ensures Elems([v] + xs) == Elems(xs) + {v}
  {
    forall x ensures x in xs + [v] <==> x in xs || x == v {
      if x in xs + [v] && x != v {
        var i :| 0 <= i < |xs + [v]| && (xs + [v])[i] == x;
        assert xs[i] == x;
      }
    }
    forall x ensures x in [v] + xs <==> x in xs || x == v {
      if x in [v] + xs && x != v {
        var i :| 0 <= i < |[v] + xs| && ([v] + xs)[i] == x;
        assert xs[i - 1] == x;
      }
    }
  }

  /** Two updates and a new (first, last) pair add one key. */
  lemma AddedKeys(m: map<int, Links>, a: int, la: Links, v: int, lv: Links, ends: Links)
    requires a in m && FirstLast in m
    ensures m[a := la][v := lv][FirstLast := ends].Keys == m.Keys + {v}
  {
  }

  lemma AppendLinks(before: map<int, Links>, xs: seq<int>, v: int, data: map<int, Links>)
    requires WellFormedSeq(xs) && LinksMatch(before, xs) && xs != [] && v !in xs && v != Nil
    requires data == before[xs[|xs| - 1] := before[xs[|xs| - 1]].(next := v)][v := Links(xs[|xs| - 1], Nil)]
    ensures LinksMatch(data[FirstLast := Links(xs[0], v)], xs + [v])
  {
    var ys := xs + [v];
    var last := xs[|xs| - 1];
    forall i | 0 <= i < |ys| ensures ys[i] in data && data[ys[i]] == LinksAt(ys, i) {
      if i < |xs| - 1 {
        assert ys[i] == xs[i] && LinksAt(ys, i) == LinksAt(xs, i);
        assert ys[i] != last;
      }
    }
  }

  lemma PrependValid(s: LongSet, xs: seq<int>, v: int)
    requires Valid(s, xs) && v != Nil && v !in xs
    ensures Prepend(s, v).Ok? && Valid(Prepend(s, v).value, [v] + xs)
  {
    if xs == [] {
      VeryFirstValid(s, v);
      assert [v] + xs == [v];
    } else {
      PrependNonEmpty(s, xs, v);
    }
  }

  lemma PrependNonEmpty(s: LongSet, xs: seq<int>, v: int)
    requires Valid(s, xs) && xs != [] && v != Nil && v !in xs
    ensures Prepend(s, v).Ok? && Valid(Prepend(s, v).value, [v] + xs)
  {
    ElemsAdded(xs, v);
    EndsWellFormed(xs, v);
    assert s.first == xs[0] && s.first in s.data;
    PrependShape(s, v);
    PrependedValid(s, xs, v, Prepend(s, v).value);
  }

  /** The state `Prepend` leaves behind stores `v` followed by `xs`. */
  lemma PrependedValid(s: LongSet, xs: seq<int>, v: int, r: LongSet)
    requires Valid(s, xs) && xs != [] && v != Nil && v !in xs && WellFormedSeq([v] + xs)
    requires Elems([v] + xs) == Elems(xs) + {v}
    requires r == LongSet(WithFirstLast(s.data[s.first := s.data[s.first].(prev := v)][v := Links(Nil, s.first)], v, s.last),
                          v, s.last)
    ensures Valid(r, [v] + xs)
  {
    assert s.first == xs[0] && s.first in s.data;
    var data := s.data[s.first := s.data[s.first].(prev := v)][v := Links(Nil, s.first)];
    PrependLinks(s.data, xs, v, data);
    AddedKeys(s.data, s.first, s.data[s.first].(prev := v), v, Links(Nil, s.first), Links(v, s.last));
    assert ([v] + xs)[|xs|] == xs[|xs| - 1];
  }

  /** Prepending to a non-empty set links the new value before the first one. */
  lemma PrependShape(s: LongSet, v: int)
    requires s.first != Nil && s.first in s.data
    ensures Prepend(s, v)
            == Ok(LongSet(WithFirstLast(s.data[s.first := s.data[s.first].(prev := v)][v := Links(Nil, s.first)], v, s.last),
                          v, s.last))
  {
  }

  lemma PrependLinks(before: map<int, Links>, xs: seq<int>, v: int, data: map<int, Links>)
    requires WellFormedSeq(xs) && LinksMatch(before, xs) && xs != [] && v !in xs && v != Nil
    requires data == before[xs[0] := before[xs[0]].(prev := v)][v := Links(Nil, xs[0])]
    ensures LinksMatch(data[FirstLast := Links(v, xs[|xs| - 1])], [v] + xs)
  {
    var ys := [v] + xs;
    forall i | 0 <= i < |ys| ensures ys[i] in data && data[ys[i]] == LinksAt(ys, i) {
      if i > 1 {
        assert ys[i] == xs[i - 1] && LinksAt(ys, i) == LinksAt(xs, i - 1);
        assert ys[i] != xs[0];
      }
    }
  }

  lemma InsertBeforeValid(s: LongSet, xs: seq<int>, k: nat, v: int)
    requires Valid(s, xs) && k < |xs| && v != Nil && v !in xs
    ensures InsertBefore(s, xs[k], v).Ok?
    ensures Valid(InsertBefore(s, xs[k], v).value, xs[..k] + [v] + xs[k..])
  {
    if k == 0 {
      PrependValid(s, xs, v);
      assert xs[..0] + [v] + xs[0..] == [v] + xs;
    } else {
      InsertBeforeMiddle(s, xs, k, v);
    }
  }

  lemma InsertBeforeMiddle(s: LongSet, xs: seq<int>, k: nat, v: int)
    requires Valid(s, xs) && 0 < k < |xs| && v != Nil && v !in xs
    ensures InsertBefore(s, xs[k], v).Ok?
    ensures Valid(InsertBefore(s, xs[k], v).value, xs[..k] + [v] + xs[k..])
  {
    assert xs[k] in s.data && s.data[xs[k]] == LinksAt(xs, k);
    assert xs[k - 1] in s.data && xs[0] != xs[k];
    InsertBeforeShape(s, xs[k], xs[k - 1], v);
    InsertedBeforeValid(s, xs, k, v, InsertBefore(s, xs[k], v).value);
  }

  /** The state `InsertBefore` leaves behind before an inner element
      stores `xs` with `v` placed at position `k`. */
  lemma InsertedBeforeValid(s: LongSet, xs: seq<int>, k: nat, v: int, r: LongSet)
    requires Valid(s, xs) && 0 < k < |xs| && v != Nil && v !in xs
    requires r == LongSet(s.data[xs[k - 1] := s.data[xs[k - 1]].(next := v)]
                                [xs[k] := s.data[xs[k]].(prev := v)]
                                [v := Links(xs[k - 1], xs[k])], s.first, s.last)
    ensures Valid(r, xs[..k] + [v] + xs[k..])
  {
    assert xs[k - 1] in s.data && xs[k] in s.data;
    assert xs[k - 1] != xs[k] && xs[k - 1] != v && xs[k] != v;
    UpdatesKeepOthers(s.data, xs[k - 1], s.data[xs[k - 1]].(next := v), xs[k], s.data[xs[k]].(prev := v), v, Links(xs[k - 1], xs[k]), v);
    PlacedBetweenValid(s, xs, k, v, r);
  }

  /** Inserting before an element other than the first links the new value
      to it and to its predecessor. */
  lemma InsertBeforeShape(s: LongSet, anchor: int, before: int, v: int)
    requires anchor in s.data && anchor != s.first && s.data[anchor].prev == before && before in s.data
    ensures InsertBefore(s, anchor, v)
            == Ok(LongSet(s.data[before := s.data[before].(next := v)]
                                [anchor := s.data[anchor].(prev := v)]
                                [v := Links(before, anchor)], s.first, s.last))
  {
  }

  /** Three updates of a map, one of them adding the key `v`, set those
      three keys and leave every other key as it was. */
  lemma UpdatesKeepOthers(m: map<int, Links>, a: int, la: Links, b: int, lb: Links, c: int, lc: Links, v: int)
    requires a != b && b != c && a != c
    requires (a in m || a == v) && (b in m || b == v) && (c in m || c == v) && v in {a, b, c}
    ensures m[a := la][b := lb][c := lc].Keys == m.Keys + {v}
    ensures m[a := la][b := lb][c := lc][a] == la
    ensures m[a := la][b := lb][c := lc][b] == lb
    ensures m[a := la][b := lb][c := lc][c] == lc
    ensures forall x | x in m && x != a && x != b && x != c ::
              x in m[a := la][b := lb][c := lc] && m[a := la][b := lb][c := lc][x] == m[x]
  {
  }

  /** A state that differs from `s` only by `v` linked between positions
      `k - 1` and `k` stores `xs` with `v` inserted at `k`. */
  lemma PlacedBetweenValid(s: LongSet, xs: seq<int>, k: nat, v: int, r: LongSet)
    requires Valid(s, xs) && 0 < k < |xs| && v != Nil && v !in xs
    requires r.first == s.first && r.last == s.last
    requires r.data.Keys == s.data.Keys + {v}
    requires r.data[v] == Links(xs[k - 1], xs[k])
    requires r.data[xs[k - 1]] == s.data[xs[k - 1]].(next := v)
    requires r.data[xs[k]] == s.data[xs[k]].(prev := v)
    requires forall x | x in s.data && x != xs[k - 1] && x != xs[k] :: r.data[x] == s.data[x]
    ensures Valid(r, xs[..k] + [v] + xs[k..])
  {
    var ys := xs[..k] + [v] + xs[k..];
    InsertedElems(xs, k, v);
    InsertedWellFormed(xs, k, v);
    InsertedEnds(xs, k, v);
    PlacedLinks(s.data, xs, k, v, r.data);
    assert xs[k - 1] != FirstLast && xs[k] != FirstLast;
    assert r.data[FirstLast] == s.data[FirstLast];
    assert ys != [] && ys[0] == xs[0] && ys[|ys| - 1] == xs[|xs| - 1];
    assert EndsMatch(r, ys);
    assert r.data.Keys == Elems(ys) + {FirstLast};
  }

  lemma PlacedLinks(before: map<int, Links>, xs: seq<int>, k: nat, v: int, data: map<int, Links>)
    requires WellFormedSeq(xs) && LinksMatch(before, xs) && 0 < k < |xs| && v !in xs
    requires v in data && data[v] == Links(xs[k - 1], xs[k])
    requires xs[k - 1] in data && data[xs[k - 1]] == before[xs[k - 1]].(next := v)
    requires xs[k] in data && data[xs[k]] == before[xs[k]].(prev := v)
    requires forall x | x in before && x != xs[k - 1] && x != xs[k] :: x in data && data[x] == before[x]
    ensures LinksMatch(data, xs[..k] + [v] + xs[k..])
  {
    var ys := xs[..k] + [v] + xs[k..];
    InsertedAt(xs, k, v);
    forall i | 0 <= i < |ys| ensures ys[i] in data && data[ys[i]] == LinksAt(ys, i) {
      if i < k - 1 {
        assert ys[i] == xs[i] && LinksAt(ys, i) == LinksAt(xs, i);
      } else if i == k - 1 {
        assert LinksAt(ys, i) == LinksAt(xs, i).(next := v);
      } else if i == k + 1 {
        assert LinksAt(ys, i) == LinksAt(xs, k).(prev := v);
      } else if i > k + 1 {
        assert ys[i] == xs[i - 1] && LinksAt(ys, i) == LinksAt(xs, i - 1);
      }
    }
  }

  lemma InsertedWellFormed(xs: seq<int>, k: nat, v: int)
    requires WellFormedSeq(xs) && k <= |xs| && v !in xs && v != Nil
    ensures WellFormedSeq(xs[..k] + [v] + xs[k..])
  {
    var ys := xs[..k] + [v] + xs[k..];
    InsertedAt(xs, k, v);
    forall i, j | 0 <= i < j < |ys| ensures ys[i] != ys[j] {
      if i < k && j > k {
        assert ys[i] == xs[i] && ys[j] == xs[j - 1];
      }
    }
  }

  lemma InsertedElems(xs: seq<int>, k: nat, v: int)
    requires k <= |xs|
    ensures Elems(xs[..k] + [v] + xs[k..]) == Elems(xs) + {v}
  {
    assert xs == xs[..k] + xs[k..];
  }

  lemma InsertedEnds(xs: seq<int>, k: nat, v: int)
    requires 0 < k < |xs|
    ensures var ys := xs[..k] + [v] + xs[k..];
            ys[0] == xs[0] && ys[|ys| - 1] == xs[|xs| - 1]
  {
  }

  /** Position `i` of `xs` with `v` inserted at `k`. */
  lemma InsertedAt(xs: seq<int>, k: nat, v: int)
    requires k <= |xs|
    ensures var ys := xs[..k] + [v] + xs[k..];
            |ys| == |xs| + 1 && ys[k] == v
            && (forall i | 0 <= i < k :: ys[i] == xs[i])
            && (forall i | k < i < |ys| :: ys[i] == xs[i - 1])
  {
  }

  lemma InsertAfterValid(s: LongSet, xs: seq<int>, k: nat, v: int)
    requires Valid(s, xs) && k < |xs| && v != Nil && v !in xs
    ensures InsertAfter(s, xs[k], v).Ok?
    ensures Valid(InsertAfter(s, xs[k], v).value, xs[..k + 1] + [v] + xs[k + 1..])
  {
    if k == |xs| - 1 {
      AppendValid(s, xs, v);
      assert xs[..k + 1] + [v] + xs[k + 1..] == xs + [v];
    } else {
      InsertAfterMiddle(s, xs, k, v);
    }
  }

  lemma InsertAfterMiddle(s: LongSet, xs: seq<int>, k: nat, v: int)
    requires Valid(s, xs) && k + 1 < |xs| && v != Nil && v !in xs
    ensures InsertAfter(s, xs[k], v).Ok?
    ensures Valid(InsertAfter(s, xs[k], v).value, xs[..k + 1] + [v] + xs[k + 1..])
  {
    assert xs[k] in s.data && s.data[xs[k]] == LinksAt(xs, k);
    assert xs[k + 1] in s.data && xs[|xs| - 1] != xs[k];
    InsertAfterShape(s, xs[k], xs[k + 1], v);
    InsertedAfterValid(s, xs, k, v, InsertAfter(s, xs[k], v).value);
  }

  /** The state `InsertAfter` leaves behind after an inner element stores
      `xs` with `v` placed after position `k`. */
  lemma InsertedAfterValid(s: LongSet, xs: seq<int>, k: nat, v: int, r: LongSet)
    requires Valid(s, xs) && k + 1 < |xs| && v != Nil && v !in xs
    requires r == LongSet(s.data[xs[k] := s.data[xs[k]].(next := v)]
                                [v := Links(xs[k], xs[k + 1])]
                                [xs[k + 1] := s.data[xs[k + 1]].(prev := v)], s.first, s.last)
    ensures Valid(r, xs[..k + 1] + [v] + xs[k + 1..])
  {
    assert xs[k] in s.data && xs[k + 1] in s.data;
    assert xs[k] != xs[k + 1] && xs[k] != v && xs[k + 1] != v;
    UpdatesKeepOthers(s.data, xs[k], s.data[xs[k]].(next := v), v, Links(xs[k], xs[k + 1]), xs[k + 1], s.data[xs[k + 1]].(prev := v), v);
    PlacedBetweenValid(s, xs, k + 1, v, r);
  }

  /** Inserting after an element other than the last links the new value
      to it and to its successor. */
  lemma InsertAfterShape(s: LongSet, anchor: int, after: int, v: int)
    requires anchor in s.data && anchor != s.last && s.data[anchor].next == after && after in s.data
    ensures InsertAfter(s, anchor, v)
            == Ok(LongSet(s.data[anchor := s.data[anchor].(next := v)]
                                [v := Links(anchor, after)]
                                [after := s.data[after].(prev := v)], s.first, s.last))
  {
  }

  /** Position `i` of `xs` without its element `k`. */
  lemma RemovedAt(xs: seq<int>, k: nat)
    requires WellFormedSeq(xs) && k < |xs|
    ensures var ys := xs[..k] + xs[k + 1..];
            |ys| == |xs| - 1
            && (forall i | 0 <= i < k :: ys[i] == xs[i])
            && (forall i | k <= i < |ys| :: ys[i] == xs[i + 1])
            && WellFormedSeq(ys)
            && Elems(ys) == Elems(xs) - {xs[k]}
  {
    var ys := xs[..k] + xs[k + 1..];
    assert forall i | k <= i < |ys| :: ys[i] == xs[i + 1];
    assert xs == xs[..k] + [xs[k]] + xs[k + 1..];
  }

  lemma RemoveValid(s: LongSet, xs: seq<int>, k: nat)
    requires Valid(s, xs) && k < |xs|
    ensures Remove(s, xs[k]).Ok?
    ensures Valid(Remove(s, xs[k]).value, xs[..k] + xs[k + 1..])
  {
    if |xs| == 1 {
      RemoveOnlyValid(s, xs);
      assert xs[..k] + xs[k + 1..] == [];
    } else if k == 0 {
      RemoveFirstValid(s, xs);
    } else if k == |xs| - 1 {
      RemoveLastValid(s, xs, k);
    } else {
      RemoveMiddleValid(s, xs, k);
    }
  }

  /** Two updates and a removal leave every other key as it was. */
  lemma RemovalKeepsOthers(m: map<int, Links>, a: int, la: Links, b: int, lb: Links, d: int)
    requires a in m && b in m && a != d && b != d
    ensures (m[a := la][b := lb] - {d}).Keys == m.Keys - {d}
    ensures forall x | x in m && x != a && x != b && x != d ::
              x in m[a := la][b := lb] - {d} && (m[a := la][b := lb] - {d})[x] == m[x]
  {
  }

  /** An update, a removal and a new (first, last) pair leave every other
      key as it was. */
  lemma EndRemovalKeepsOthers(m: map<int, Links>, a: int, la: Links, d: int, ends: Links)
    requires a in m && d in m && FirstLast in m && a != d && d != FirstLast && a != FirstLast
    ensures WithFirstLast(m[a := la] - {d}, ends.prev, ends.next).Keys == m.Keys - {d}
    ensures WithFirstLast(m[a := la] - {d}, ends.prev, ends.next)[a] == la
    ensures forall x | x in m && x != a && x != d && x != FirstLast ::
              x in WithFirstLast(m[a := la] - {d}, ends.prev, ends.next)
              && WithFirstLast(m[a := la] - {d}, ends.prev, ends.next)[x] == m[x]
  {
  }

  lemma RemoveOnlyValid(s: LongSet, xs: seq<int>)
    requires Valid(s, xs) && |xs| == 1
    ensures Remove(s, xs[0]).Ok?
    ensures Valid(Remove(s, xs[0]).value, [])
  {
  }

  lemma RemoveFirstValid(s: LongSet, xs: seq<int>)
    requires Valid(s, xs) && |xs| > 1
    ensures Remove(s, xs[0]).Ok?
    ensures Valid(Remove(s, xs[0]).value, xs[..0] + xs[1..])
  {
    assert xs[0] != xs[|xs| - 1] && s.data[xs[0]] == LinksAt(xs, 0);
    var data := s.data[xs[1] := s.data[xs[1]].(prev := Nil)] - {xs[0]};
    var r := LongSet(WithFirstLast(data, xs[1], s.last), xs[1], s.last);
    assert Remove(s, xs[0]) == Ok(r);
    assert xs[1] != FirstLast && xs[0] != FirstLast;
    EndRemovalKeepsOthers(s.data, xs[1], s.data[xs[1]].(prev := Nil), xs[0], Links(xs[1], s.last));
    forall i | 0 <= i < |xs| && i != 0 && i != 1 ensures xs[i] in r.data && r.data[xs[i]] == s.data[xs[i]] {
      assert xs[i] != xs[0] && xs[i] != xs[1] && xs[i] != FirstLast;
    }
    UnlinkedValid(s, xs, 0, r);
  }

  lemma RemoveLastValid(s: LongSet, xs: seq<int>, k: nat)
    requires Valid(s, xs) && |xs| > 1 && k == |xs| - 1
    ensures Remove(s, xs[k]).Ok?
    ensures Valid(Remove(s, xs[k]).value, xs[..k] + xs[k + 1..])
  {
    assert xs[k] != xs[0] && s.data[xs[k]] == LinksAt(xs, k);
    var data := s.data[xs[k - 1] := s.data[xs[k - 1]].(next := Nil)] - {xs[k]};
    var r := LongSet(WithFirstLast(data, s.first, xs[k - 1]), s.first, xs[k - 1]);
    assert Remove(s, xs[k]) == Ok(r);
    assert xs[k - 1] != FirstLast && xs[k] != FirstLast;
    EndRemovalKeepsOthers(s.data, xs[k - 1], s.data[xs[k - 1]].(next := Nil), xs[k], Links(s.first, xs[k - 1]));
    forall i | 0 <= i < |xs| && i != k - 1 && i != k ensures xs[i] in r.data && r.data[xs[i]] == s.data[xs[i]] {
      assert xs[i] != xs[k] && xs[i] != xs[k - 1] && xs[i] != FirstLast;
    }
    UnlinkedValid(s, xs, k, r);
  }

  lemma RemoveMiddleValid(s: LongSet, xs: seq<int>, k: nat)
    requires Valid(s, xs) && 0 < k < |xs| - 1
    ensures Remove(s, xs[k]).Ok?
    ensures Valid(Remove(s, xs[k]).value, xs[..k] + xs[k + 1..])
  {
    assert xs[k] in s.data && s.data[xs[k]] == LinksAt(xs, k);
    assert xs[k - 1] in s.data && xs[k + 1] in s.data;
    assert xs[0] != xs[k] && xs[k] != xs[|xs| - 1];
    RemoveInnerShape(s, xs[k]);
    InnerUnlinkedValid(s, xs, k, Remove(s, xs[k]).value);
  }

  /** Removing an element that is neither first nor last links its
      neighbours to each other. */
  lemma RemoveInnerShape(s: LongSet, v: int)
    requires v in s.data && v != s.first && v != s.last
    requires s.data[v].prev in s.data && s.data[v].next in s.data
    ensures var l := s.data[v];
            Remove(s, v)
            == Ok(LongSet(s.data[l.prev := s.data[l.prev].(next := l.next)]
                                [l.next := s.data[l.next].(prev := l.prev)] - {v},
                          s.first, s.last))
  {
  }

  /** The state `Remove` leaves behind after an inner element represents
      the sequence without it. */
  lemma InnerUnlinkedValid(s: LongSet, xs: seq<int>, k: nat, r: LongSet)
    requires Valid(s, xs) && 0 < k < |xs| - 1
    requires r == LongSet(s.data[xs[k - 1] := s.data[xs[k - 1]].(next := xs[k + 1])]
                                [xs[k + 1] := s.data[xs[k + 1]].(prev := xs[k - 1])] - {xs[k]},
                          s.first, s.last)
    ensures Valid(r, xs[..k] + xs[k + 1..])
  {
    RemovalKeepsOthers(s.data, xs[k - 1], s.data[xs[k - 1]].(next := xs[k + 1]),
                       xs[k + 1], s.data[xs[k + 1]].(prev := xs[k - 1]), xs[k]);
    forall i | 0 <= i < |xs| && i != k - 1 && i != k && i != k + 1 ensures xs[i] in r.data && r.data[xs[i]] == s.data[xs[i]] {
      assert xs[i] in s.data;
      assert xs[i] != xs[k] && xs[i] != xs[k - 1] && xs[i] != xs[k + 1];
    }
    assert FirstLast != xs[k - 1] && FirstLast != xs[k + 1] && FirstLast != xs[k];
    UnlinkedValid(s, xs, k, r);
  }

  /** A state that differs from `s` only by the element at `k` unlinked
      from its neighbours stores `xs` without it. */
  lemma UnlinkedValid(s: LongSet, xs: seq<int>, k: nat, r: LongSet)
    requires Valid(s, xs) && k < |xs| && |xs| > 1
    requires r.first == (if k == 0 then xs[1] else s.first)
    requires r.last == (if k == |xs| - 1 then xs[k - 1] else s.last)
    requires r.data.Keys == s.data.Keys - {xs[k]}
    requires FirstLast in r.data && r.data[FirstLast] == Links(r.first, r.last)
    requires k > 0 ==> xs[k - 1] in r.data && r.data[xs[k - 1]] == s.data[xs[k - 1]].(next := LinksAt(xs, k).next)
    requires k < |xs| - 1 ==> xs[k + 1] in r.data && r.data[xs[k + 1]] == s.data[xs[k + 1]].(prev := LinksAt(xs, k).prev)
    requires forall i | 0 <= i < |xs| && i != k - 1 && i != k && i != k + 1 :: xs[i] in r.data && r.data[xs[i]] == s.data[xs[i]]
    ensures Valid(r, xs[..k] + xs[k + 1..])
  {
    var ys := xs[..k] + xs[k + 1..];
    RemovedAt(xs, k);
    UnlinkedLinks(s.data, xs, k, r.data);
    assert ys[0] == (if k == 0 then xs[1] else xs[0]);
    assert ys[|ys| - 1] == (if k == |xs| - 1 then xs[k - 1] else xs[|xs| - 1]);
  }

  lemma UnlinkedLinks(before: map<int, Links>, xs: seq<int>, k: nat, data: map<int, Links>)
    requires WellFormedSeq(xs) && LinksMatch(before, xs) && k < |xs| && |xs| > 1
    requires k > 0 ==> xs[k - 1] in data && data[xs[k - 1]] == before[xs[k - 1]].(next := LinksAt(xs, k).next)
    requires k < |xs| - 1 ==> xs[k + 1] in data && data[xs[k + 1]] == before[xs[k + 1]].(prev := LinksAt(xs, k).prev)
    requires forall i | 0 <= i < |xs| && i != k - 1 && i != k && i != k + 1 :: xs[i] in data && data[xs[i]] == before[xs[i]]
    ensures LinksMatch(data, xs[..k] + xs[k + 1..])
  {
    var ys := xs[..k] + xs[k + 1..];
    RemovedAt(xs, k);
    forall i | 0 <= i < |ys| ensures ys[i] in data && data[ys[i]] == LinksAt(ys, i) {
      if i < k - 1 {
        assert ys[i] == xs[i] && LinksAt(ys, i) == LinksAt(xs, i);
      } else if i == k - 1 {
        assert ys[i] == xs[k - 1];
      } else if i == k {
        assert ys[i] == xs[k + 1];
      } else {
        assert ys[i] == xs[i + 1] && LinksAt(ys, i) == LinksAt(xs, i + 1);
      }
    }
  }

  /** Anchoring at, or removing, a value the set does not hold throws
      `NoSuchElementException` and changes nothing. */
  lemma MissingIsNoSuchElement(s: LongSet, xs: seq<int>, v: int, w: int)
    requires Valid(s, xs) && v != FirstLast && v !in xs
    ensures InsertBefore(s, v, w) == Err(NoSuchElement)
    ensures InsertAfter(s, v, w) == Err(NoSuchElement)
    ensures Remove(s, v) == Err(NoSuchElement)
  {
    assert v !in s.data;
  }

  /** -1 is the key of the stored (first, last) pair, so it is never
      missing and never throws.  On an empty set, anchoring at -1 makes the
      value the only element and removing -1 clears the set.  On a non-empty
      set the calls succeed and treat the pair as an element: inserting
      before it rewrites the stored first, and removing it drops the pair. */
  lemma FirstLastNeverMissing(s: LongSet, xs: seq<int>, w: int)
    requires Valid(s, xs)
    ensures InsertBefore(s, FirstLast, w).Ok?
    ensures InsertAfter(s, FirstLast, w).Ok?
    ensures Remove(s, FirstLast).Ok?
    ensures xs == [] ==>
              && InsertBefore(s, FirstLast, w) == Prepend(s, w)
              && InsertAfter(s, FirstLast, w) == Append(s, w)
              && Remove(s, FirstLast) == Ok(Clear(s))
    ensures xs != [] && w != FirstLast ==>
              && InsertBefore(s, FirstLast, w).value.data[FirstLast] == Links(w, s.last)
              && InsertBefore(s, FirstLast, w).value.first == s.first
    ensures xs != [] ==> FirstLast !in Remove(s, FirstLast).value.data
  {
    if xs != [] {
      assert xs[0] in s.data && xs[|xs| - 1] in s.data;
    }
  }

  // ---------------------------------------------------------------- iteration

  /** The iterator visits the elements in order, and one `next()` more
      throws `NoSuchElementException`. */
  lemma IterateValid(s: LongSet, xs: seq<int>)
    requires Valid(s, xs)
    ensures Take(s, Start(s), |xs|) == Ok(xs)
    ensures Take(s, Start(s), |xs| + 1) == Err(NoSuchElement)
  {
    if xs == [] {
      assert Take(s, Start(s), 1) == Err(NoSuchElement);
    } else {
      assert Start(s) == Cursor(xs[0], Some(LinksAt(xs, 0)));
      IterateFrom(s, xs, 0);
      assert xs[0..] == xs;
    }
  }

  /** One step of `Take`: the value `next()` returns, then the rest. */
  lemma TakeStep(s: LongSet, c: Cursor, n: nat, v: int, c': Cursor)
    requires Next(s, c) == Ok((v, c'))
    ensures Take(s, c, n + 1) == (if Take(s, c', n).Ok? then Ok([v] + Take(s, c', n).value) else Take(s, c', n))
  {
  }

  lemma {:induction false} IterateFrom(s: LongSet, xs: seq<int>, j: nat)
    requires WellFormedSeq(xs) && LinksMatch(s.data, xs) && j < |xs|
    ensures Take(s, Cursor(xs[j], Some(LinksAt(xs, j))), |xs| - j) == Ok(xs[j..])
    ensures Take(s, Cursor(xs[j], Some(LinksAt(xs, j))), |xs| - j + 1) == Err(NoSuchElement)
    decreases |xs| - j
  {
    var c := Cursor(xs[j], Some(LinksAt(xs, j)));
    if j == |xs| - 1 {
      var after := Cursor(Nil, Some(LinksAt(xs, j)));
      assert Next(s, c) == Ok((xs[j], after));
      TakeStep(s, c, 0, xs[j], after);
      assert Take(s, after, 0) == Ok([]);
      assert [xs[j]] + [] == [xs[j]];
      TakeStep(s, c, 1, xs[j], after);
      assert Next(s, after) == Err(NoSuchElement);
      assert xs[j..] == [xs[j]];
    } else {
      var after := Cursor(xs[j + 1], Some(LinksAt(xs, j + 1)));
      assert xs[j + 1] != Nil && LinksOf(s, xs[j + 1]) == Some(LinksAt(xs, j + 1));
      assert Next(s, c) == Ok((xs[j], after));
      IterateFrom(s, xs, j + 1);
      TakeStep(s, c, |xs| - j - 1, xs[j], after);
      TakeStep(s, c, |xs| - j, xs[j], after);
      assert xs[j..] == [xs[j]] + xs[j + 1..];
    }
  }
}

=== FILE: php_text.dfy ===
/** The handful of PHP string conversions the record store relies on:
    loose comparison with null, `intval`, `substr($s, 1)` and
    `sprintf('%04d', $n)`, plus the record codes built from them. */
module PhpText {
  import opened Wrappers
  import opened Digits

  /** `$v == null` for a string parameter: PHP's loose comparison also holds
      for the empty string. */
  predicate IsNull(v: Option<string>) {
    v.None? || v.value == ""
  }

  /** The characters `intval` and `floatval` skip before the number. */
  predicate IsPhpSpace(c: char) {
    c == ' ' || c == '\t' || c == '\n' || c == '\r' || c as int == 11 || c as int == 12
  }

  function SkipSpaces(s: string): string {
    if s != [] && IsPhpSpace(s[0]) then SkipSpaces(s[1..]) else s
  }

  /** The longest prefix of `s` made of digits. */
  function LeadingDigits(s: string): string {
    if s != [] && IsDigit(s[0]) then [s[0]] + LeadingDigits(s[1..]) else []
  }

  lemma {:induction false} LeadingDigitsShape(s: string)
    ensures |LeadingDigits(s)| <= |s| && LeadingDigits(s) == s[..|LeadingDigits(s)|]
    ensures AllDigits(LeadingDigits(s))
    ensures |LeadingDigits(s)| < |s| ==> !IsDigit(s[|LeadingDigits(s)|])
  {
    if s != [] && IsDigit(s[0]) {
      LeadingDigitsShape(s[1..]);
    }
  }

  /** PHP's `intval` of a string: optional leading white space, an optional
      sign, then as many digits as follow; a text without them is 0.
      (Saturation at PHP_INT_MAX and exponent forms are not modelled.) */
  function Intval(s: string): int {
    var t := SkipSpaces(s);
    if t != [] && (t[0] == '-' || t[0] == '+') then
      LeadingDigitsShape(t[1..]);
      var v := DigitsValue(LeadingDigits(t[1..]));
      if t[0] == '-' then 0 - v else v
    else
      LeadingDigitsShape(t);
      DigitsValue(LeadingDigits(t))
  }

  /** `sprintf('%04d', $n)`: at least four characters, zero padded after the
      sign, so -1 is "-001" and 12345 is "12345". */
  function Sprintf04d(n: int): string {
    if n >= 0 then ZeroPad(NatToDigits(n), 4) else "-" + ZeroPad(NatToDigits(-n), 3)
  }

  /** `substr($s, 1)`: everything after the first character, "" for a text
      of at most one character. */
  function Substr1(s: string): (r: string)
    ensures |s| >= 1 ==> s == s[..1] + r
    ensures |s| <= 1 ==> r == ""
  {
    if |s| <= 1 then "" else s[1..]
  }

  lemma {:induction false} LeadingDigitsOfDigits(s: string)
    requires AllDigits(s)
    ensures LeadingDigits(s) == s
  {
    if s != [] {
      LeadingDigitsOfDigits(s[1..]);
    }
  }

  lemma IntvalOfDigits(s: string)
    requires AllDigits(s) && s != []
    ensures Intval(s) == DigitsValue(s)
  {
    assert !IsPhpSpace(s[0]);
    assert SkipSpaces(s) == s;
    LeadingDigitsOfDigits(s);
  }

  lemma IntvalOfNegatedDigits(s: string)
    requires AllDigits(s)
    ensures Intval("-" + s) == 0 - DigitsValue(s)
  {
    var t := "-" + s;
    assert !IsPhpSpace(t[0]);
    assert SkipSpaces(t) == t;
    assert t[1..] == s;
    LeadingDigitsOfDigits(s);
  }

  lemma IntvalOfSprintf04d(n: int)
    ensures Intval(Sprintf04d(n)) == n
  {
    var m := if n >= 0 then n else -n;
    DigitsValueOfNatToDigits(m);
    ZeroPadKeepsValue(NatToDigits(m), if n >= 0 then 4 else 3);
    ZeroPadShape(NatToDigits(m), if n >= 0 then 4 else 3);
    if n >= 0 {
      IntvalOfDigits(ZeroPad(NatToDigits(n), 4));
    } else {
      IntvalOfNegatedDigits(ZeroPad(NatToDigits(-n), 3));
    }
  }

  lemma Sprintf04dInjective(a: int, b: int)
    ensures Sprintf04d(a) == Sprintf04d(b) ==> a == b
  {
    IntvalOfSprintf04d(a);
    IntvalOfSprintf04d(b);
  }

  /** A record code: the table's one-letter prefix followed by the number
      written with `%04d`, e.g. "F0007". */
  function Code(prefix: char, n: int): string {
    [prefix] + Sprintf04d(n)
  }

  /** The number a code carries, read back as `intval(substr($code, 1))`. */
  function CodeNumber(code: string): int {
    Intval(Substr1(code))
  }

  lemma CodeNumberOfCode(prefix: char, n: int)
    ensures CodeNumber(Code(prefix, n)) == n
  {
    assert Substr1(Code(prefix, n)) == Sprintf04d(n);
    IntvalOfSprintf04d(n);
  }

  lemma CodeInjective(prefix: char, a: int, b: int)
    ensures Code(prefix, a) == Code(prefix, b) <==> a == b
  {
    CodeNumberOfCode(prefix, a);
    CodeNumberOfCode(prefix, b);
  }
}

=== FILE: queue_coordinator.dfy ===
/** `DefaultQueueCoordinator`: the FIFO and LIFO coordinators.

    Entries are kept in a deque in registration order, and every entry has
    a stored position drawn from a counter.  A selector without a
    predecessor walks the deque from the head (FIFO) or from the tail
    (LIFO); with a predecessor, it sorts the predecessor's entries by their
    stored positions in a tree map, ascending (FIFO) or descending (LIFO),
    dropping entries this coordinator does not know.  After a restart the
    deque is rebuilt from the stored positions.

    Entries are compared by identity and stand here for an integer
    identity.  The tree map is a sequence of slots with strictly increasing
    positions.  The transactional side of the stored positions is not part
    of this model. */
module QueueCoordinator {
  import opened Wrappers
  import opened Lists
  import opened MzsConstants
  import opened NativeSelector

  type Entry = int

  datatype Order = Fifo | Lifo

  datatype Coordinator = Coordinator(order: Order, queue: seq<Entry>, positions: map<Entry, int>, counter: int)

  /** The constructor: an empty deque, no positions, the counter at 0. */
  function NewCoordinator(order: Order): Coordinator {
    Coordinator(order, [], map[], 0)
  }

  /** `registerEntry`: the entry goes to the tail of the deque, and the
      incremented counter is its position.  It always answers true. */
  function Register(c: Coordinator, e: Entry): Coordinator {
    var n := c.counter + 1;
    c.(queue := c.queue + [e], positions := c.positions[e := n], counter := n)
  }

  /** `unregisterEntry`: the first (FIFO) or last (LIFO) occurrence leaves
      the deque, the position is forgotten, and the answer says whether the
      deque held the entry. */
  function Unregister(c: Coordinator, e: Entry): (Coordinator, bool) {
    var q := if c.order == Fifo then RemoveFirst(c.queue, e) else RemoveLast(c.queue, e);
    (c.(queue := q, positions := c.positions - {e}), e in c.queue)
  }

  /** The deque in stored-position order: positions strictly increase from
      head to tail. */
  predicate Ascending(queue: seq<Entry>, positions: map<Entry, int>)
    requires forall k | 0 <= k < |queue| :: queue[k] in positions
  {
    forall i, j | 0 <= i < j < |queue| :: positions[queue[i]] < positions[queue[j]]
  }

  /** The invariant: the deque holds exactly the entries with a position,
      each numbered by the counter, in position order. */
  predicate Valid(c: Coordinator) {
    && c.counter >= 0
    && (forall k | 0 <= k < |c.queue| :: c.queue[k] in c.positions && 1 <= c.positions[c.queue[k]] <= c.counter)
    && (forall e | e in c.positions :: e in c.queue)
    && Ascending(c.queue, c.positions)
  }

  /** The order a selector without a predecessor walks the deque. */
  function Iteration(c: Coordinator): seq<Entry> {
    if c.order == Fifo then c.queue else Reverse(c.queue)
  }

  // ---------------------------------------------------------------- tree map

  datatype Slot = Slot(pos: int, entry: Entry)

  predicate Sorted(t: seq<Slot>) {
    forall i, j | 0 <= i < j < |t| :: t[i].pos < t[j].pos
  }

  /** Some slot has key `pos`. */
  predicate HasKey(t: seq<Slot>, pos: int) {
    exists i | 0 <= i < |t| :: t[i].pos == pos
  }

  /** `TreeMap.put`: a new key is placed in order; an existing key keeps
      its place and gets the new value. */
  function Put(t: seq<Slot>, pos: int, e: Entry): (r: seq<Slot>)
    requires Sorted(t)
    ensures Sorted(r)
    ensures Slot(pos, e) in r
    ensures forall s | s in r :: s == Slot(pos, e) || (s in t && s.pos != pos)
    ensures forall s | s in t && s.pos != pos :: s in r
  {
    if t == [] then [Slot(pos, e)]
    else if pos < t[0].pos then [Slot(pos, e)] + t
    else if pos == t[0].pos then
      assert t == [t[0]] + t[1..];
      [Slot(pos, e)] + t[1..]
    else
      assert t == [t[0]] + t[1..];
      var rest := Put(t[1..], pos, e);
      assert forall s | s in rest :: t[0].pos < s.pos by {
        forall s | s in rest ensures t[0].pos < s.pos {
          if s != Slot(pos, e) {
            var k :| 0 <= k < |t[1..]| && t[1..][k] == s;
            assert s == t[k + 1];
          }
        }
      }
      assert forall i | 0 < i < |[t[0]] + rest| :: ([t[0]] + rest)[i] in rest;
      [t[0]] + rest
  }

  /** A key above every key is placed last. */
  lemma {:induction false} PutLast(t: seq<Slot>, pos: int, e: Entry)
    requires Sorted(t)
    requires forall s | s in t :: s.pos < pos
    ensures Put(t, pos, e) == t + [Slot(pos, e)]
    decreases |t|
  {
    if t != [] {
      assert t[0] in t;
      PutLast(t[1..], pos, e);
      assert t == [t[0]] + t[1..];
    }
  }

  /** The values in key order. */
  function Values(t: seq<Slot>): (r: seq<Entry>)
    ensures |r| == |t|
    ensures forall k | 0 <= k < |t| :: r[k] == t[k].entry
  {
    if t == [] then [] else [t[0].entry] + Values(t[1..])
  }

  /** The tree map filled from `entries` in order, with the position of
      every entry that has one; a later entry with the same position
      replaces an earlier one. */
  function Build(entries: seq<Entry>, positions: map<Entry, int>): (r: seq<Slot>)
    ensures Sorted(r)
    decreases |entries|
  {
    if entries == [] then []
    else
      var init := entries[..|entries| - 1];
      var e := entries[|entries| - 1];
      var t := Build(init, positions);
      if e in positions then Put(t, positions[e], e) else t
  }

  /** Every slot of the built map is an entry of `entries` at its stored
      position, and every stored position of an entry is a key. */
  lemma {:induction false} BuildFacts(entries: seq<Entry>, positions: map<Entry, int>)
    ensures var r := Build(entries, positions);
            && (forall s | s in r :: s.entry in entries && s.entry in positions && positions[s.entry] == s.pos)
            && (forall e | e in entries && e in positions :: HasKey(r, positions[e]))
    decreases |entries|
  {
    if entries != [] {
      var init := entries[..|entries| - 1];
      var e := entries[|entries| - 1];
      assert entries == init + [e];
      BuildFacts(init, positions);
      var t := Build(init, positions);
      var r := Build(entries, positions);
      forall x | x in entries && x in positions ensures HasKey(r, positions[x]) {
        if x != e && e in positions && positions[x] != positions[e] {
          assert HasKey(t, positions[x]);
          var i :| 0 <= i < |t| && t[i].pos == positions[x];
          assert t[i] in r;
          var j :| 0 <= j < |r| && r[j] == t[i];
        } else if x == e || (e in positions && positions[x] == positions[e]) {
          var j :| 0 <= j < |r| && r[j] == Slot(positions[e], e);
        }
      }
    }
  }

  /** Built from a deque in position order, the tree map lists the deque
      itself. */
  lemma {:induction false} BuildAscending(queue: seq<Entry>, positions: map<Entry, int>)
    requires forall k | 0 <= k < |queue| :: queue[k] in positions
    requires Ascending(queue, positions)
    ensures Values(Build(queue, positions)) == queue
    decreases |queue|
  {
    if queue != [] {
      var init := queue[..|queue| - 1];
      var e := queue[|queue| - 1];
      assert queue == init + [e];
      assert Ascending(init, positions);
      BuildAscending(init, positions);
      var t := Build(init, positions);
      BelowLast(queue, positions);
      PutLast(t, positions[e], e);
      BuildStep(queue, positions);
      assert Values(t + [Slot(positions[e], e)]) == Values(t) + [e];
    }
  }

  /** One step of `Build`: the last entry is put into the map built from
      the others. */
  lemma BuildStep(entries: seq<Entry>, positions: map<Entry, int>)
    requires entries != [] && entries[|entries| - 1] in positions
    ensures var e := entries[|entries| - 1];
            Build(entries, positions) == Put(Build(entries[..|entries| - 1], positions), positions[e], e)
  {
  }

  /** In a deque in position order, the map built from all but the last
      entry has only keys below the last entry's position. */
  lemma BelowLast(queue: seq<Entry>, positions: map<Entry, int>)
    requires queue != []
    requires forall k | 0 <= k < |queue| :: queue[k] in positions
    requires Ascending(queue, positions)
    ensures forall s | s in Build(queue[..|queue| - 1], positions) :: s.pos < positions[queue[|queue| - 1]]
  {
    var init := queue[..|queue| - 1];
    BuildFacts(init, positions);
    forall s | s in Build(init, positions) ensures s.pos < positions[queue[|queue| - 1]] {
      var k :| 0 <= k < |init| && init[k] == s.entry;
      assert queue[k] == s.entry;
    }
  }

  /** The order a selector with a predecessor returns the predecessor's
      entries in. */
  function PredecessorOrder(pred: seq<Entry>, positions: map<Entry, int>, order: Order): seq<Entry> {
    var sorted := Values(Build(pred, positions));
    if order == Fifo then sorted else Reverse(sorted)
  }

  /** The tree map holds entries of the predecessor with their own
      positions, in the order of those positions. */
  lemma PredecessorSlots(pred: seq<Entry>, positions: map<Entry, int>)
    ensures var t := Build(pred, positions);
            var sorted := Values(t);
            && (forall k | 0 <= k < |sorted| :: sorted[k] in pred && sorted[k] in positions && positions[sorted[k]] == t[k].pos)
            && (forall e | e in pred && e in positions :: HasKey(t, positions[e]))
  {
    var t := Build(pred, positions);
    BuildFacts(pred, positions);
    var sorted := Values(t);
    forall k | 0 <= k < |sorted| ensures sorted[k] in pred && sorted[k] in positions && positions[sorted[k]] == t[k].pos {
      assert t[k] in t;
    }
  }

  /** The values of the tree map are entries of the predecessor, in
      strictly increasing order of their positions. */
  lemma ValuesOrdered(pred: seq<Entry>, positions: map<Entry, int>, sorted: seq<Entry>)
    requires sorted == Values(Build(pred, positions))
    ensures && (forall k | 0 <= k < |sorted| :: sorted[k] in pred && sorted[k] in positions)
            && (forall i, j | 0 <= i < j < |sorted| :: positions[sorted[i]] < positions[sorted[j]])
  {
    var t := Build(pred, positions);
    PredecessorSlots(pred, positions);
    forall i, j | 0 <= i < j < |sorted| ensures positions[sorted[i]] < positions[sorted[j]] {
      assert positions[sorted[i]] == t[i].pos && positions[sorted[j]] == t[j].pos;
    }
  }

  /** Reversing entries in increasing order of position gives them in
      decreasing order. */
  lemma ReversedOrder(s: seq<Entry>, pred: seq<Entry>, positions: map<Entry, int>)
    requires forall k | 0 <= k < |s| :: s[k] in pred && s[k] in positions
    requires forall i, j | 0 <= i < j < |s| :: positions[s[i]] < positions[s[j]]
    ensures var r := Reverse(s);
            && (forall k | 0 <= k < |r| :: r[k] in pred && r[k] in positions)
            && (forall i, j | 0 <= i < j < |r| :: positions[r[i]] > positions[r[j]])
  {
    var r := Reverse(s);
    var n := |s|;
    forall k | 0 <= k < n ensures r[k] in pred && r[k] in positions {
      assert r[k] == s[n - 1 - k];
    }
    forall i, j | 0 <= i < j < n ensures positions[r[i]] > positions[r[j]] {
      assert r[i] == s[n - 1 - i] && r[j] == s[n - 1 - j];
    }
  }

  /** With a predecessor, the entries come from the predecessor's result
      and have positions, which strictly increase (FIFO) or decrease
      (LIFO). */
  lemma PredecessorOrderFacts(pred: seq<Entry>, positions: map<Entry, int>, order: Order)
    ensures var r := PredecessorOrder(pred, positions, order);
            && (forall k | 0 <= k < |r| :: r[k] in pred && r[k] in positions)
            && (forall i, j | 0 <= i < j < |r| ::
                  if order == Fifo then positions[r[i]] < positions[r[j]] else positions[r[i]] > positions[r[j]])
  {
    var sorted := Values(Build(pred, positions));
    ValuesOrdered(pred, positions, sorted);
    if order == Lifo {
      ReversedOrder(sorted, pred, positions);
    }
  }

  /** Every registered entry of the predecessor is represented in the
      selection by its position. */
  lemma PredecessorOrderCovers(pred: seq<Entry>, positions: map<Entry, int>, order: Order)
    ensures var r := PredecessorOrder(pred, positions, order);
            forall e | e in pred && e in positions :: exists k | 0 <= k < |r| :: r[k] in positions && positions[r[k]] == positions[e]
  {
    var t := Build(pred, positions);
    var sorted := Values(t);
    PredecessorSlots(pred, positions);
    var r := PredecessorOrder(pred, positions, order);
    var n := |r|;
    forall e | e in pred && e in positions ensures exists k | 0 <= k < n :: r[k] in positions && positions[r[k]] == positions[e] {
      assert HasKey(t, positions[e]);
      var k :| 0 <= k < |t| && t[k].pos == positions[e];
      assert sorted[k] in positions && positions[sorted[k]] == t[k].pos;
      if order == Fifo {
        assert r[k] == sorted[k];
      } else {
        assert r[n - 1 - k] == sorted[k];
      }
    }
  }

  /** When no two registered entries of the predecessor share a position,
      every registered entry of the predecessor is selected. */
  lemma PredecessorKeepsRegistered(pred: seq<Entry>, positions: map<Entry, int>, order: Order, e: Entry)
    requires forall a, b | a in positions && b in positions && a != b :: positions[a] != positions[b]
    requires e in pred && e in positions
    ensures e in PredecessorOrder(pred, positions, order)
  {
    PredecessorOrderCovers(pred, positions, order);
    var r := PredecessorOrder(pred, positions, order);
    var k :| 0 <= k < |r| && r[k] in positions && positions[r[k]] == positions[e];
  }

  // ---------------------------------------------------------------- invariant

  /** The new coordinator is valid and empty. */
  lemma NewValid(order: Order)
    ensures Valid(NewCoordinator(order)) && Iteration(NewCoordinator(order)) == []
  {
  }

  /** Registering a new entry appends it with a position above every
      other one, and keeps the invariant. */
  lemma RegisterValid(c: Coordinator, e: Entry)
    requires Valid(c) && e !in c.positions
    ensures var c' := Register(c, e);
            && Valid(c')
            && c'.queue == c.queue + [e]
            && c'.counter == c.counter + 1 == c'.positions[e]
            && (forall x | x in c.positions :: c.positions[x] < c'.positions[e] && c'.positions[x] == c.positions[x])
  {
    var c' := Register(c, e);
    forall x | x in c.positions ensures c.positions[x] < c'.positions[e] {
      var k :| 0 <= k < |c.queue| && c.queue[k] == x;
    }
    assert e !in c.queue;
    forall k | 0 <= k < |c'.queue| ensures c'.queue[k] in c'.positions && 1 <= c'.positions[c'.queue[k]] <= c'.counter {
      if k < |c.queue| {
        assert c'.queue[k] == c.queue[k];
      }
    }
  }

  /** Unregistering answers whether the entry was queued; the entry then
      leaves the deque and the positions, the other entries keep their
      order whatever the queue order, and the invariant holds. */
  lemma UnregisterValid(c: Coordinator, e: Entry)
    requires Valid(c)
    ensures var (c', found) := Unregister(c, e);
            && Valid(c')
            && (found <==> e in c.queue)
            && e !in c'.queue && e !in c'.positions
            && (forall x | x != e :: x in c'.queue <==> x in c.queue)
            && c'.queue == Unregister(c.(order := if c.order == Fifo then Lifo else Fifo), e).0.queue
  {
    if e in c.queue {
      UnregisterPresent(c, e);
    } else {
      UnregisterAbsent(c, e);
    }
  }

  lemma UnregisterAbsent(c: Coordinator, e: Entry)
    requires Valid(c) && e !in c.queue
    ensures Unregister(c, e) == (c, false)
    ensures Unregister(c.(order := if c.order == Fifo then Lifo else Fifo), e).0.queue == c.queue
  {
    assert e !in c.positions;
    assert c.positions - {e} == c.positions;
  }

  lemma UnregisterPresent(c: Coordinator, e: Entry)
    requires Valid(c) && e in c.queue
    ensures var (c', found) := Unregister(c, e);
            && Valid(c')
            && e !in c'.queue && e !in c'.positions
            && (forall x | x != e :: x in c'.queue <==> x in c.queue)
            && c'.queue == Unregister(c.(order := if c.order == Fifo then Lifo else Fifo), e).0.queue
  {
    var (c', found) := Unregister(c, e);
    DistinctQueue(c);
    var k :| 0 <= k < |c.queue| && c.queue[k] == e;
    RemoveOnlyOccurrence(c.queue, k);
    RemoveAtValid(c, k);
    assert c' == c.(queue := Drop(c.queue, k), positions := c.positions - {e});
  }

  /** Taking the entry at index `k` out of the deque and the positions
      keeps the invariant and every other entry. */
  lemma RemoveAtValid(c: Coordinator, k: nat)
    requires Valid(c) && Distinct(c.queue) && k < |c.queue|
    ensures var c' := c.(queue := Drop(c.queue, k), positions := c.positions - {c.queue[k]});
            && Valid(c')
            && c.queue[k] !in c'.queue
            && forall x | x != c.queue[k] :: x in c'.queue <==> x in c.queue
  {
    var e := c.queue[k];
    var q := Drop(c.queue, k);
    var p := c.positions - {e};
    forall i | 0 <= i < |q| ensures q[i] != e && q[i] in p && 1 <= p[q[i]] <= c.counter {
      assert q[i] == c.queue[if i < k then i else i + 1];
    }
    forall x | x in p ensures x in q {
      var j :| 0 <= j < |c.queue| && c.queue[j] == x;
      assert q[if j < k then j else j - 1] == x;
    }
    DropIndexAscending(c.queue, c.positions, k, e);
  }

  /** The sequence without index `k`. */
  function Drop(s: seq<Entry>, k: nat): (r: seq<Entry>)
    requires k < |s|
    ensures |r| == |s| - 1
    ensures forall i | 0 <= i < |s| - 1 :: r[i] == s[if i < k then i else i + 1]
  {
    s[..k] + s[k + 1..]
  }

  /** Dropping an index keeps a deque in position order. */
  lemma DropIndexAscending(queue: seq<Entry>, positions: map<Entry, int>, k: nat, e: Entry)
    requires k < |queue| && Distinct(queue) && e == queue[k]
    requires forall i | 0 <= i < |queue| :: queue[i] in positions
    requires Ascending(queue, positions)
    ensures forall i | 0 <= i < |Drop(queue, k)| :: Drop(queue, k)[i] in positions - {e}
    ensures Ascending(Drop(queue, k), positions - {e})
  {
    var q := Drop(queue, k);
    forall i | 0 <= i < |q| ensures q[i] in positions - {e} {
      assert q[i] == queue[if i < k then i else i + 1];
    }
    forall i, j | 0 <= i < j < |q| ensures (positions - {e})[q[i]] < (positions - {e})[q[j]] {
      assert q[i] == queue[if i < k then i else i + 1];
      assert q[j] == queue[if j < k then j else j + 1];
    }
  }

  /** The positions make the deque free of duplicates. */
  lemma DistinctQueue(c: Coordinator)
    requires Valid(c)
    ensures Distinct(c.queue)
  {
    forall i, j | 0 <= i < j < |c.queue| ensures c.queue[i] != c.queue[j] {
      assert c.positions[c.queue[i]] < c.positions[c.queue[j]];
    }
  }

  /** FIFO walks the deque from the head and LIFO from the tail, and on a
      valid coordinator this is the order the predecessor path produces
      from the whole deque: both paths agree. */
  lemma IterationOrder(c: Coordinator)
    requires Valid(c)
    ensures c.order == Fifo ==> Iteration(c) == c.queue
    ensures c.order == Lifo ==> forall k | 0 <= k < |c.queue| :: Iteration(c)[k] == c.queue[|c.queue| - 1 - k]
    ensures Iteration(c) == PredecessorOrder(c.queue, c.positions, c.order)
  {
    BuildAscending(c.queue, c.positions);
  }

  // ---------------------------------------------------------------- selection

  /** The selection loop: entries are taken in order until the count is
      met.  A special count is never met, so every entry is taken; any
      other count at or below zero is met before the first entry. */
  function TakeCount(ordered: seq<Entry>, count: int): (r: seq<Entry>)
    ensures IsSpecialCount(count) ==> r == ordered
    ensures !IsSpecialCount(count) && count <= 0 ==> r == []
    ensures 0 <= count ==> r == ordered[..if count < |ordered| then count else |ordered|]
  {
    if IsSpecialCount(count) || |ordered| <= count then ordered
    else if count <= 0 then []
    else ordered[..count]
  }

  /** `getAll` when every entry is accessible: the count is checked
      against the deque, then against the predecessor's result and the
      sorted entries, and the first `count` entries in order are
      returned. */
  function GetAll(c: Coordinator, pred: Option<seq<Entry>>, count: int): Result<seq<Entry>, SelectError<()>> {
    var _ :- CheckCountMet(|c.queue|, count);
    var ordered :-
      if pred.None? then Ok(Iteration(c))
      else
        var _ :- CheckCountMet(|pred.value|, count);
        var sorted := PredecessorOrder(pred.value, c.positions, c.order);
        var _ :- CheckCountMet(|sorted|, count);
        Ok(sorted);
    var result := TakeCount(ordered, count);
    var _ :- CheckCountMet(|result|, count);
    Ok(result)
  }

  /** Selection fails with a count error exactly when there are too few
      entries; otherwise it returns the first `count` entries in queue
      order, or all of them for a special count. */
  lemma GetAllResult(c: Coordinator, count: int)
    ensures GetAll(c, None, count).Ok? <==> IsSpecialCount(count) || |c.queue| >= count
    ensures GetAll(c, None, count).Err? ==> GetAll(c, None, count).error == CountNotMet(count, |c.queue|)
    ensures GetAll(c, None, count).Ok? ==>
              GetAll(c, None, count).value
                == if IsSpecialCount(count) then Iteration(c)
                   else if count < 0 then []
                   else Iteration(c)[..count]
  {
  }

  // ---------------------------------------------------------------- restore

  /** The largest position among `keys`, 0 for none. */
  function MaxPosition(keys: seq<Entry>, positions: map<Entry, int>): (r: int)
    ensures r >= 0
    ensures forall e | e in keys && e in positions :: positions[e] <= r
  {
    if keys == [] then 0
    else
      var m := MaxPosition(keys[1..], positions);
      assert keys == [keys[0]] + keys[1..];
      if keys[0] in positions && positions[keys[0]] > m then positions[keys[0]] else m
  }

  /** `postRestoreContent` as written: the deque is rebuilt in ascending
      stored-position order, walking the stored entries in the order
      `keys` lists them; the counter of the new coordinator stays at 0. */
  function RestoreAsWritten(order: Order, positions: map<Entry, int>, keys: seq<Entry>): Coordinator {
    Coordinator(order, Values(Build(keys, positions)), positions, 0)
  }

  /** The restore as intended: the counter continues after the largest
      stored position. */
  function Restore(order: Order, positions: map<Entry, int>, keys: seq<Entry>): Coordinator {
    Coordinator(order, Values(Build(keys, positions)), positions, MaxPosition(keys, positions))
  }

  /** `keys` lists every stored entry once. */
  predicate Enumerates(keys: seq<Entry>, positions: map<Entry, int>) {
    Distinct(keys) && (forall e | e in keys :: e in positions) && (forall e | e in positions :: e in keys)
  }

  /** Restoring stored positions that are positive and distinct gives a
      valid coordinator whose deque holds every stored entry in ascending
      position order; registering after it continues the positions. */
  lemma RestoreValid(order: Order, positions: map<Entry, int>, keys: seq<Entry>, e: Entry)
    requires Enumerates(keys, positions)
    requires forall x | x in positions :: positions[x] >= 1
    requires forall a, b | a in positions && b in positions && a != b :: positions[a] != positions[b]
    ensures Valid(Restore(order, positions, keys))
    ensures forall x | x in positions :: x in Restore(order, positions, keys).queue
    ensures e !in positions ==> Valid(Register(Restore(order, positions, keys), e))
  {
    var c := Restore(order, positions, keys);
    var t := Build(keys, positions);
    BuildFacts(keys, positions);
    forall k | 0 <= k < |c.queue| ensures c.queue[k] in positions && 1 <= positions[c.queue[k]] <= c.counter {
      assert t[k] in t;
    }
    forall i, j | 0 <= i < j < |c.queue| ensures positions[c.queue[i]] < positions[c.queue[j]] {
      assert t[i] in t && t[j] in t;
    }
    forall x | x in positions ensures x in c.queue {
      PredecessorKeepsRegistered(keys, positions, Fifo, x);
    }
    if e !in positions {
      RegisterValid(c, e);
    }
  }

  /** The restore as written reuses positions: after one entry is
      registered, the coordinator restored and a second entry registered,
      both entries hold position 1, and a selection with a predecessor
      returning both drops the first one. */
  lemma RestoreReusesPositions()
    ensures var c := Register(RestoreAsWritten(Fifo, Register(NewCoordinator(Fifo), 10).positions, [10]), 20);
            && c.positions[10] == c.positions[20] == 1
            && PredecessorOrder([10, 20], c.positions, Fifo) == [20]
  {
    var p1 := Register(NewCoordinator(Fifo), 10).positions;
    assert p1 == map[10 := 1];
    var bad := map[10 := 1, 20 := 1];
    assert [10, 20][..1] == [10];
    assert Build([10], bad) == [Slot(1, 10)];
    assert Build([10, 20], bad) == Put([Slot(1, 10)], 1, 20);
  }

  /** The intended restore gives the second entry position 2 and keeps
      both. */
  lemma RestoreKeepsPositions()
    ensures var c := Register(Restore(Fifo, Register(NewCoordinator(Fifo), 10).positions, [10]), 20);
            && c.positions[10] == 1 && c.positions[20] == 2
            && PredecessorOrder([10, 20], c.positions, Fifo) == [10, 20]
  {
    var p1 := Register(NewCoordinator(Fifo), 10).positions;
    assert p1 == map[10 := 1];
    assert [10][..0] == [];
    assert MaxPosition([10], p1) == 1;
    var good := map[10 := 1, 20 := 2];
    assert [10, 20][..1] == [10];
    assert Build([10], good) == [Slot(1, 10)];
    assert Build([10, 20], good) == Put([Slot(1, 10)], 2, 20);
  }
}

=== FILE: record_query.dfy ===
/** The select operations (`selectFilme`, `selectSubscriber`,
    `selectFilmeSubscriber`): a query with every parameter null returns the
    whole table; otherwise the query is the conjunction of an equality on
    each non-null parameter and, for films, of a rating range when both
    bounds are given.  The query is evaluated on the records, in document
    order, instead of being printed as XPath text. */
module RecordQuery {
  import opened Wrappers
  import opened Decimals
  import opened Records

  /** The equality parameters by field name (absent or "" means null, as
      PHP's `== null` has it) and the two rating bounds, given as the numbers
      the bound texts stand for. */
  datatype Query = Query(equals: map<string, string>, minRating: Option<Dec>, maxRating: Option<Dec>)

  /** The query that asks for one field only. */
  function FieldQuery(name: string, value: string): (q: Query)
    ensures q.equals.Keys == {name}
  {
    Query(map[name := value], None, None)
  }

  /** The parameter `name` is given (not null). */
  predicate Given(q: Query, name: string) {
    name in q.equals && q.equals[name] != ""
  }

  /** Every parameter is null: the source returns the whole table. */
  predicate AllNull(q: Query) {
    (forall n | n in q.equals :: q.equals[n] == "") && q.minRating.None? && q.maxRating.None?
  }

  /** The query text gets at least one condition between its brackets. */
  predicate HasCondition(q: Query) {
    (exists n | n in q.equals :: q.equals[n] != "") || (q.minRating.Some? && q.maxRating.Some?)
  }

  /** `avaliacao>=min and avaliacao<=max`: XPath converts the child's text
      with `number()`; a text that is not a number never compares true. */
  predicate RatingInRange(text: string, lo: Dec, hi: Dec) {
    match XPathNumber(text)
    case None => false
    case Some(v) => Le(lo, v) && Le(v, hi)
  }

  /** A printed rating lies in a range exactly when its number does, both
      bounds included. */
  lemma RatingInRangeOfFormat(d: Dec, lo: Dec, hi: Dec)
    ensures RatingInRange(Format(d), lo, hi) <==> Le(lo, d) && Le(d, hi)
  {
    XPathNumberOfFormat(d);
  }

  /** The record satisfies every condition of the query. */
  predicate Matches(r: Record, ratingField: string, q: Query) {
    (forall n | n in q.equals && q.equals[n] != "" :: Field(r, n) == q.equals[n])
    && (q.minRating.Some? && q.maxRating.Some? ==>
          RatingInRange(Field(r, ratingField), q.minRating.value, q.maxRating.value))
  }

  /** The matching records, in document order: an empty table gives
      nothing, a one-record table gives its record exactly when it matches,
      and, by `FilterConcat`, a concatenation gives the concatenation of
      its parts' results. */
  function Filter(t: Table, ratingField: string, q: Query): (r: Table)
    ensures |r| <= |t|
    ensures forall x :: x in r <==> x in t && Matches(x, ratingField, q)
    ensures t == [] ==> r == []
    ensures |t| == 1 ==> r == if Matches(t[0], ratingField, q) then t else []
  {
    if t == [] then []
    else if Matches(t[0], ratingField, q) then [t[0]] + Filter(t[1..], ratingField, q)
    else Filter(t[1..], ratingField, q)
  }

  /** The query text is `filme[]` (one rating bound only, nothing else):
      XPath rejects it and the select yields no node list. */
  datatype QueryError = MalformedQuery

  /** A select on the table. */
  function Select(t: Table, ratingField: string, q: Query): (r: Result<Table, QueryError>)
    ensures r.Err? <==> !AllNull(q) && !HasCondition(q)
    ensures AllNull(q) ==> r == Ok(t)
    ensures r.Ok? && !AllNull(q) ==>
              && (forall x :: x in r.value <==> x in t && Matches(x, ratingField, q))
              && r.value == Filter(t, ratingField, q)
  {
    if AllNull(q) then Ok(t)
    else if !HasCondition(q) then Err(MalformedQuery)
    else Ok(Filter(t, ratingField, q))
  }

  /** The position of the first matching record. */
  function FirstMatch(t: Table, ratingField: string, q: Query): (i: Option<nat>)
    ensures i.Some? ==> i.value < |t| && Matches(t[i.value], ratingField, q)
                        && forall j | 0 <= j < i.value :: !Matches(t[j], ratingField, q)
    ensures i.None? ==> forall j | 0 <= j < |t| :: !Matches(t[j], ratingField, q)
  {
    if t == [] then None
    else if Matches(t[0], ratingField, q) then Some(0)
    else match FirstMatch(t[1..], ratingField, q)
      case None =>
        NoMatchShift(t, ratingField, q, |t|);
        None
      case Some(k) =>
        NoMatchShift(t, ratingField, q, k + 1);
        assert t[k + 1] == t[1..][k];
        Some(k + 1)
  }

  /** No match in the first `n - 1` records after the first one, nor in
      the first one, is no match in the first `n`. */
  lemma NoMatchShift(t: Table, ratingField: string, q: Query, n: nat)
    requires 0 < n <= |t| && !Matches(t[0], ratingField, q)
    requires forall j | 0 <= j < n - 1 :: !Matches(t[1..][j], ratingField, q)
    ensures forall j | 0 <= j < n :: !Matches(t[j], ratingField, q)
  {
    forall j | 0 <= j < n ensures !Matches(t[j], ratingField, q) {
      if j > 0 {
        assert t[j] == t[1..][j - 1];
      }
    }
  }

  /** Filtering distributes over concatenation: document order is kept. */
  lemma {:induction false} FilterConcat(a: Table, b: Table, ratingField: string, q: Query)
    ensures Filter(a + b, ratingField, q) == Filter(a, ratingField, q) + Filter(b, ratingField, q)
    decreases |a|
  {
    if a == [] {
      assert a + b == b;
    } else {
      assert (a + b)[0] == a[0] && (a + b)[1..] == a[1..] + b;
      FilterConcat(a[1..], b, ratingField, q);
    }
  }

  /** The first record a select returns is the first matching record of the
      table, so `$result[0]` designates the record at `FirstMatch`. */
  lemma {:induction false} FilterHeadIsFirstMatch(t: Table, ratingField: string, q: Query)
    ensures Filter(t, ratingField, q) == [] <==> FirstMatch(t, ratingField, q).None?
    ensures FirstMatch(t, ratingField, q).Some? ==>
              Filter(t, ratingField, q)[0] == t[FirstMatch(t, ratingField, q).value]
    decreases |t|
  {
    if t != [] && !Matches(t[0], ratingField, q) {
      FilterHeadIsFirstMatch(t[1..], ratingField, q);
    }
  }

  /** A conjunctive query filters like its parts applied one after the
      other. */
  lemma {:induction false} FilterConjunction(t: Table, ratingField: string, q1: Query, q2: Query,
                                             q: Query)
    requires forall x :: Matches(x, ratingField, q) <==>
                           Matches(x, ratingField, q1) && Matches(x, ratingField, q2)
    ensures Filter(t, ratingField, q) == Filter(Filter(t, ratingField, q1), ratingField, q2)
    decreases |t|
  {
    if t != [] {
      FilterConjunction(t[1..], ratingField, q1, q2, q);
      if Matches(t[0], ratingField, q1) {
        var rest := Filter(t[1..], ratingField, q1);
        assert ([t[0]] + rest)[1..] == rest;
      }
    }
  }

  /** The equality query on one field with one value matches exactly the
      records whose child holds that value. */
  lemma FieldQueryMatches(r: Record, ratingField: string, name: string, value: string)
    requires value != ""
    ensures Matches(r, ratingField, FieldQuery(name, value)) <==> Field(r, name) == value
  {
  }
}

=== FILE: record_store.dfy ===
/** The operations shared by the three XML tables (films, subscribers and the
    film/subscriber join): create, insert, update and delete.  A table is
    described by a `Schema`; the three schemas live in module `Entities`.
    Every operation returns the new table instead of saving it; an operation
    that fails returns before the save, so the stored table is unchanged. */
module RecordStore {
  import opened Wrappers
  import opened PhpText
  import opened Decimals
  import opened Records
  import opened RecordQuery
  import opened CodeAllocation

  /** How one field of a table is checked and filled in. */
  datatype FieldSpec = FieldSpec(
    name: string,
    /** a null value is refused ("Campo ... é obrigatório") */
    required: bool,
    /** the text stored when the value is null and not required */
    default: string,
    /** a value another record already holds is refused */
    unique: bool,
    /** the value must pass `validaFormatoAvaliacao` */
    rating: bool,
    /** on update, a new value must exist under the same field name in
        another table (the join's film title and subscriber email) */
    referenced: bool)

  /** A table: the letter its codes start with, its fields in document
      order (between `codigo` and `reg_date`), the field the rating range
      of a select applies to, and the record `createTable` writes. */
  datatype Schema = Schema(prefix: char, fields: seq<FieldSpec>, ratingField: string, template: Record)

  predicate DistinctNames(fields: seq<FieldSpec>) {
    forall i, j | 0 <= i < j < |fields| :: fields[i].name != fields[j].name
  }

  predicate HasField(fields: seq<FieldSpec>, name: string) {
    exists i | 0 <= i < |fields| :: fields[i].name == name
  }

  /** The schemas the store is used with: distinct field names besides the
      code and the date, and unique fields always required. */
  predicate WellFormed(s: Schema) {
    DistinctNames(s.fields)
    && !HasField(s.fields, CodeField) && !HasField(s.fields, DateField)
    && forall i | 0 <= i < |s.fields| :: s.fields[i].unique ==> s.fields[i].required
  }

  /** The string parameters of an insert or update call by field name; an
      absent name is a null argument. */
  type Params = map<string, string>

  /** PHP's `$param == null`: absent, or the empty string. */
  predicate IsNullParam(p: Params, name: string) {
    name !in p || p[name] == ""
  }

  /** The error messages of the store. */
  datatype StoreError =
    | Missing(field: string)           // "ERRO: Campo '...' é obrigatório."
    | Duplicate(field: string)         // "ERRO: Este ... já está cadastrado."
    | InvalidRating                    // "ERRO: Campo 'Avaliação' deve ser preenchido ..."
    | NotFound(code: string)           // "ERRO: Não há ... com o código X."
    | InvalidCode                      // "ERRO: código invalido."
    | UnknownReference(field: string)  // "ERRO: Não há ... cadastrado com este ..."

  /** `getXByField(value) != null`: a select on that one field finds a record. */
  predicate Taken(t: Table, name: string, value: string) {
    match Select(t, "", FieldQuery(name, value))
    case Ok(found) => found != []
    case Err(_) => false
  }

  lemma TakenIff(t: Table, name: string, value: string)
    requires value != ""
    ensures Taken(t, name, value) <==> ExistsWith(t, name, value)
  {
    var q := FieldQuery(name, value);
    assert name in q.equals && q.equals[name] != "";
    forall x ensures Matches(x, "", q) <==> Field(x, name) == value {
      FieldQueryMatches(x, "", name, value);
    }
    var found := Filter(t, "", q);
    if ExistsWith(t, name, value) {
      var i :| 0 <= i < |t| && Field(t[i], name) == value;
      assert t[i] in found;
    }
    if found != [] {
      assert found[0] in t && Field(found[0], name) == value;
    }
  }

  // ---------------------------------------------------------------- insert

  /** The value an insert stores for a field: the parameter, or the
      field's default for a null one. */
  function InsertValue(f: FieldSpec, p: Params): string {
    if IsNullParam(p, f.name) then f.default else p[f.name]
  }

  /** The check an insert makes on one field, in the source's order:
      required, then not already taken, then a valid rating. */
  function InsertFieldError(f: FieldSpec, t: Table, p: Params): Option<StoreError> {
    if f.required && IsNullParam(p, f.name) then Some(Missing(f.name))
    else if f.unique && Taken(t, f.name, InsertValue(f, p)) then Some(Duplicate(f.name))
    else if f.rating && RatingRejected(InsertValue(f, p)) then Some(InvalidRating)
    else None
  }

  /** The fields of the new record, or the error of the first field that
      fails its check. */
  function BuildFields(fields: seq<FieldSpec>, t: Table, p: Params): (r: Result<Record, StoreError>)
    ensures r.Ok? <==> forall i | 0 <= i < |fields| :: InsertFieldError(fields[i], t, p).None?
  {
    if fields == [] then Ok(map[])
    else
      match InsertFieldError(fields[0], t, p)
      case Some(e) => Err(e)
      case None =>
        var rest :- BuildFields(fields[1..], t, p);
        assert forall i | 1 <= i < |fields| :: fields[i] == fields[1..][i - 1];
        Ok(rest[fields[0].name := InsertValue(fields[0], p)])
  }

  /** A list of distinct names stays distinct without its head. */
  lemma DistinctTail(fields: seq<FieldSpec>)
    requires DistinctNames(fields) && fields != []
    ensures DistinctNames(fields[1..])
  {
    var tail := fields[1..];
    forall i, j | 0 <= i < j < |tail| ensures tail[i].name != tail[j].name {
      assert tail[i] == fields[i + 1] && tail[j] == fields[j + 1];
    }
  }

  /** The record built holds exactly the fields' names. */
  lemma {:induction false} BuildFieldsKeys(fields: seq<FieldSpec>, t: Table, p: Params)
    requires BuildFields(fields, t, p).Ok?
    ensures forall name :: name in BuildFields(fields, t, p).value <==> HasField(fields, name)
    decreases |fields|
  {
    if fields != [] {
      var tail := fields[1..];
      BuildFieldsKeys(tail, t, p);
      var r := BuildFields(fields, t, p).value;
      assert r == BuildFields(tail, t, p).value[fields[0].name := InsertValue(fields[0], p)];
      forall name ensures name in r <==> HasField(fields, name) {
        if HasField(tail, name) {
          var k :| 0 <= k < |tail| && tail[k].name == name;
          assert fields[k + 1].name == name;
        }
        if HasField(fields, name) && name != fields[0].name {
          var k :| 0 <= k < |fields| && fields[k].name == name;
          assert tail[k - 1].name == name;
        }
      }
    }
  }

  /** With distinct field names, every field of the record built holds its
      insert value. */
  lemma {:induction false} BuildFieldsValues(fields: seq<FieldSpec>, t: Table, p: Params)
    requires DistinctNames(fields) && BuildFields(fields, t, p).Ok?
    ensures forall i | 0 <= i < |fields| ::
              Field(BuildFields(fields, t, p).value, fields[i].name) == InsertValue(fields[i], p)
    decreases |fields|
  {
    if fields != [] {
      var tail := fields[1..];
      DistinctTail(fields);
      BuildFieldsValues(tail, t, p);
      BuildFieldsKeys(fields, t, p);
      assert forall i | 1 <= i < |fields| :: fields[i] == tail[i - 1];
    }
  }

  /** A failed build reports the first field whose check fails. */
  lemma {:induction false} BuildFieldsFirstError(fields: seq<FieldSpec>, t: Table, p: Params)
    requires BuildFields(fields, t, p).Err?
    ensures exists i | 0 <= i < |fields| :: InsertFieldError(fields[i], t, p) == Some(BuildFields(fields, t, p).error)
              && forall j | 0 <= j < i :: InsertFieldError(fields[j], t, p).None?
    decreases |fields|
  {
    var e := BuildFields(fields, t, p).error;
    if InsertFieldError(fields[0], t, p).None? {
      var tail := fields[1..];
      BuildFieldsFirstError(tail, t, p);
      assert BuildFields(tail, t, p) == Err(e);
      var k :| 0 <= k < |tail| && InsertFieldError(tail[k], t, p) == Some(e)
               && forall j | 0 <= j < k :: InsertFieldError(tail[j], t, p).None?;
      assert InsertFieldError(fields[k + 1], t, p) == Some(e);
      assert forall j | 1 <= j < k + 1 :: fields[j] == tail[j - 1];
    } else {
      assert InsertFieldError(fields[0], t, p) == Some(e);
    }
  }

  /** The record an insert adds: the allocated code, the fields, and the
      registration time `now` (the source reads the clock). */
  function NewRecord(code: string, fields: Record, now: string): Record {
    fields[CodeField := code][DateField := now]
  }

  /** `insert` / `insertSubscriberCompleto` / `insertFilmeSubscriberCompleto`. */
  function Insert(s: Schema, t: Table, p: Params, now: string): (r: Result<Table, StoreError>)
    ensures r.Ok? ==> |r.value| == |t| + 1
  {
    var a := Allocate(s.prefix, Codes(t));
    var fields :- BuildFields(s.fields, t, p);
    Ok(t[..a.at] + [NewRecord(a.code, fields, now)] + t[a.at..])
  }

  /** An insert succeeds exactly when every field passes its check, and
      then reports nothing; otherwise it reports the first field that
      fails. */
  lemma InsertOutcome(s: Schema, t: Table, p: Params, now: string)
    requires WellFormed(s)
    ensures var r := Insert(s, t, p, now);
            && (r.Ok? <==> forall i | 0 <= i < |s.fields| :: InsertFieldError(s.fields[i], t, p).None?)
            && (r.Err? ==> exists i | 0 <= i < |s.fields| :: InsertFieldError(s.fields[i], t, p) == Some(r.error)
                             && forall j | 0 <= j < i :: InsertFieldError(s.fields[j], t, p).None?)
  {
    if BuildFields(s.fields, t, p).Err? {
      BuildFieldsFirstError(s.fields, t, p);
    }
  }

  /** A successful insert places one new record at the allocated position,
      keeping the records before and after it in order; the new record
      carries the allocated code, the time, and each field's insert
      value. */
  lemma InsertPlacement(s: Schema, t: Table, p: Params, now: string)
    requires WellFormed(s) && Insert(s, t, p, now).Ok?
    ensures var r := Insert(s, t, p, now).value;
            var a := Allocate(s.prefix, Codes(t));
            && |r| == |t| + 1
            && r[..a.at] == t[..a.at] && r[a.at + 1..] == t[a.at..]
            && Field(r[a.at], CodeField) == a.code
            && Field(r[a.at], DateField) == now
            && forall i | 0 <= i < |s.fields| :: Field(r[a.at], s.fields[i].name) == InsertValue(s.fields[i], p)
  {
    var a := Allocate(s.prefix, Codes(t));
    var fields := BuildFields(s.fields, t, p).value;
    var rec := NewRecord(a.code, fields, now);
    assert Insert(s, t, p, now) == Ok(t[..a.at] + [rec] + t[a.at..]);
    PlacedAt(t, rec, a.at);
    NewRecordFields(s, t, p, a.code, now);
  }

  /** A value placed into a sequence sits between the two unchanged parts. */
  lemma PlacedAt<T>(t: seq<T>, x: T, at: nat)
    requires at <= |t|
    ensures var r := t[..at] + [x] + t[at..];
            |r| == |t| + 1 && r[..at] == t[..at] && r[at + 1..] == t[at..] && r[at] == x
  {
    var r := t[..at] + [x] + t[at..];
    assert r[..at] == t[..at];
    assert r[at + 1..] == t[at..];
  }

  /** The new record carries the code, the time, and each field's insert
      value. */
  lemma NewRecordFields(s: Schema, t: Table, p: Params, code: string, now: string)
    requires WellFormed(s) && BuildFields(s.fields, t, p).Ok?
    ensures var rec := NewRecord(code, BuildFields(s.fields, t, p).value, now);
            && Field(rec, CodeField) == code && Field(rec, DateField) == now
            && forall i | 0 <= i < |s.fields| :: Field(rec, s.fields[i].name) == InsertValue(s.fields[i], p)
  {
    BuildFieldsValues(s.fields, t, p);
    var rec := NewRecord(code, BuildFields(s.fields, t, p).value, now);
    forall i | 0 <= i < |s.fields| ensures Field(rec, s.fields[i].name) == InsertValue(s.fields[i], p) {
      assert s.fields[i].name != CodeField && s.fields[i].name != DateField;
    }
  }

  /** The value one field of the inserted record gets. */
  lemma InsertedValue(s: Schema, t: Table, p: Params, now: string, i: nat)
    requires WellFormed(s) && Insert(s, t, p, now).Ok? && i < |s.fields|
    ensures Field(Insert(s, t, p, now).value[Allocate(s.prefix, Codes(t)).at], s.fields[i].name)
            == if IsNullParam(p, s.fields[i].name) then s.fields[i].default else p[s.fields[i].name]
  {
    InsertPlacement(s, t, p, now);
  }

  /** Both halves of the insert contract. */
  lemma InsertFacts(s: Schema, t: Table, p: Params, now: string)
    requires WellFormed(s)
    ensures var r := Insert(s, t, p, now);
            && (r.Ok? <==> forall i | 0 <= i < |s.fields| :: InsertFieldError(s.fields[i], t, p).None?)
            && (r.Err? ==> exists i | 0 <= i < |s.fields| :: InsertFieldError(s.fields[i], t, p) == Some(r.error)
                             && forall j | 0 <= j < i :: InsertFieldError(s.fields[j], t, p).None?)
    ensures Insert(s, t, p, now).Ok? ==>
              var r := Insert(s, t, p, now).value;
              var a := Allocate(s.prefix, Codes(t));
              && r[..a.at] == t[..a.at] && r[a.at + 1..] == t[a.at..]
              && Field(r[a.at], CodeField) == a.code
              && Field(r[a.at], DateField) == now
              && forall i | 0 <= i < |s.fields| :: Field(r[a.at], s.fields[i].name) == InsertValue(s.fields[i], p)
  {
    InsertOutcome(s, t, p, now);
    if Insert(s, t, p, now).Ok? {
      InsertPlacement(s, t, p, now);
    }
  }

  // ---------------------------------------------------------------- update and delete

  /** The record an update or delete works on: the first record a select on
      the code returns, which for an empty code is the whole table's first. */
  function Locate(s: Schema, t: Table, code: string): (i: Option<nat>)
    ensures i.Some? ==> i.value < |t|
  {
    if code == "" then (if t == [] then None else Some(0))
    else FirstMatch(t, s.ratingField, FieldQuery(CodeField, code))
  }

  /** `Locate` picks `$result[0]` of the select on the code. */
  lemma LocateIsFirstSelected(s: Schema, t: Table, code: string)
    ensures Select(t, s.ratingField, FieldQuery(CodeField, code)).Ok?
    ensures Locate(s, t, code).None? <==> Select(t, s.ratingField, FieldQuery(CodeField, code)).value == []
    ensures Locate(s, t, code).Some? ==>
              Select(t, s.ratingField, FieldQuery(CodeField, code)).value[0] == t[Locate(s, t, code).value]
  {
    var q := FieldQuery(CodeField, code);
    if code != "" {
      assert !AllNull(q);
      assert CodeField in q.equals;
      FilterHeadIsFirstMatch(t, s.ratingField, q);
    }
  }

  /** The update parameter `name` is given and differs from the record's. */
  predicate Changes(f: FieldSpec, p: Params, cur: Record) {
    !IsNullParam(p, f.name) && p[f.name] != Field(cur, f.name)
  }

  /** The referenced table of a field (an absent one is empty). */
  function RefTable(refs: map<string, Table>, name: string): Table {
    if name in refs then refs[name] else []
  }

  /** The checks an update makes on a changed field, in the source's order. */
  function ChangeError(f: FieldSpec, t: Table, refs: map<string, Table>, v: string): Option<StoreError> {
    if f.unique && Taken(t, f.name, v) then Some(Duplicate(f.name))
    else if f.rating && RatingRejected(v) then Some(InvalidRating)
    else if f.referenced && !Taken(RefTable(refs, f.name), f.name, v) then Some(UnknownReference(f.name))
    else None
  }

  /** A changed field whose check fails. */
  predicate Refused(f: FieldSpec, t: Table, refs: map<string, Table>, p: Params, cur: Record) {
    Changes(f, p, cur) && ChangeError(f, t, refs, p[f.name]).Some?
  }

  /** The updated record and whether anything changed, or the error of the
      first changed field that fails its check. */
  function ApplyFields(fields: seq<FieldSpec>, t: Table, refs: map<string, Table>, p: Params, cur: Record)
    : (r: Result<(Record, bool), StoreError>)
    requires DistinctNames(fields)
    ensures r.Ok? <==> forall i | 0 <= i < |fields| :: !Refused(fields[i], t, refs, p, cur)
    ensures r.Ok? ==> (r.value.1 <==> exists i | 0 <= i < |fields| :: Changes(fields[i], p, cur))
  {
    if fields == [] then Ok((cur, false))
    else
      var f := fields[0];
      assert forall i | 1 <= i < |fields| :: fields[i] == fields[1..][i - 1];
      if Changes(f, p, cur) then
        match ChangeError(f, t, refs, p[f.name])
        case Some(e) => Err(e)
        case None =>
          var rest :- ApplyFields(fields[1..], t, refs, p, cur);
          Ok((rest.0[f.name := p[f.name]], true))
      else
        ApplyFields(fields[1..], t, refs, p, cur)
  }

  /** Field `i` is the first refused one, and `e` is its error. */
  predicate FirstRefusedAt(fields: seq<FieldSpec>, t: Table, refs: map<string, Table>, p: Params, cur: Record,
                           i: int, e: StoreError) {
    && 0 <= i < |fields|
    && Changes(fields[i], p, cur)
    && ChangeError(fields[i], t, refs, p[fields[i].name]) == Some(e)
    && forall j | 0 <= j < i :: !Refused(fields[j], t, refs, p, cur)
  }

  /** A refused update reports the first refused field's error. */
  lemma {:induction false} ApplyFieldsFirstError(fields: seq<FieldSpec>, t: Table, refs: map<string, Table>,
                                                 p: Params, cur: Record)
    requires DistinctNames(fields)
    requires ApplyFields(fields, t, refs, p, cur).Err?
    ensures exists i | 0 <= i < |fields| ::
              Changes(fields[i], p, cur)
              && ChangeError(fields[i], t, refs, p[fields[i].name]) == Some(ApplyFields(fields, t, refs, p, cur).error)
              && forall j | 0 <= j < i :: !Refused(fields[j], t, refs, p, cur)
    decreases |fields|
  {
    var e := ApplyFields(fields, t, refs, p, cur).error;
    var i := FirstErrorIndex(fields, t, refs, p, cur);
    assert FirstRefusedAt(fields, t, refs, p, cur, i, e);
  }

  /** The position of the field whose error a refused update reports. */
  lemma {:induction false} FirstErrorIndex(fields: seq<FieldSpec>, t: Table, refs: map<string, Table>,
                                           p: Params, cur: Record) returns (i: int)
    requires DistinctNames(fields)
    requires ApplyFields(fields, t, refs, p, cur).Err?
    ensures FirstRefusedAt(fields, t, refs, p, cur, i, ApplyFields(fields, t, refs, p, cur).error)
    decreases |fields|
  {
    var f := fields[0];
    var e := ApplyFields(fields, t, refs, p, cur).error;
    if Refused(f, t, refs, p, cur) {
      assert ChangeError(f, t, refs, p[f.name]) == Some(e);
      i := 0;
    } else {
      var rest := fields[1..];
      assert DistinctNames(rest) && ApplyFields(rest, t, refs, p, cur) == Err(e) by {
        assert forall k | 1 <= k < |fields| :: fields[k] == rest[k - 1];
      }
      var k := FirstErrorIndex(rest, t, refs, p, cur);
      assert fields[k + 1] == rest[k];
      forall j | 0 <= j < k + 1 ensures !Refused(fields[j], t, refs, p, cur) {
        if j > 0 {
          assert fields[j] == rest[j - 1];
        }
      }
      i := k + 1;
    }
  }

  /** The updated record holds the new value of every changed field, the
      old value of every other field, and nothing else changes. */
  lemma {:induction false} ApplyFieldsValues(fields: seq<FieldSpec>, t: Table, refs: map<string, Table>,
                                             p: Params, cur: Record)
    requires DistinctNames(fields)
    requires ApplyFields(fields, t, refs, p, cur).Ok?
    ensures var rec := ApplyFields(fields, t, refs, p, cur).value.0;
            (forall i | 0 <= i < |fields| ::
               Field(rec, fields[i].name)
               == if Changes(fields[i], p, cur) then p[fields[i].name] else Field(cur, fields[i].name))
            && (forall n | !HasField(fields, n) :: (n in rec <==> n in cur) && Field(rec, n) == Field(cur, n))
    decreases |fields|
  {
    if fields != [] {
      var f := fields[0];
      var rest := fields[1..];
      var rec := ApplyFields(fields, t, refs, p, cur).value.0;
      assert DistinctNames(rest) && ApplyFields(rest, t, refs, p, cur).Ok? by {
        assert forall i | 1 <= i < |fields| :: fields[i] == rest[i - 1];
      }
      var restRec := ApplyFields(rest, t, refs, p, cur).value.0;
      ApplyFieldsValues(rest, t, refs, p, cur);
      assert rec == if Changes(f, p, cur) then restRec[f.name := p[f.name]] else restRec;
      assert !HasField(rest, f.name) by {
        forall i | 0 <= i < |rest| ensures rest[i].name != f.name {
          assert rest[i] == fields[i + 1];
        }
      }
      forall i | 0 <= i < |fields|
        ensures Field(rec, fields[i].name)
                == if Changes(fields[i], p, cur) then p[fields[i].name] else Field(cur, fields[i].name)
      {
        if i > 0 {
          assert fields[i] == rest[i - 1] && fields[i].name != f.name;
        }
      }
      forall n | !HasField(fields, n) ensures (n in rec <==> n in cur) && Field(rec, n) == Field(cur, n) {
        assert n != f.name;
        assert !HasField(rest, n) by {
          forall i | 0 <= i < |rest| ensures rest[i].name != n {
            assert rest[i] == fields[i + 1];
          }
        }
      }
    }
  }

  /** What an update reports. */
  datatype UpdateOutcome =
    | Changed(table: Table)         // "Alteração efetuada com sucesso!"
    | Unchanged                     // "Não houve alteração."
    | Rejected(error: StoreError)

  /** `updateFilmeCompleto` / `updateSubscriberCompleto` /
      `updateFilmeSubscriberCompleto`; `refs` holds the tables the
      referenced fields are looked up in. */
  function Update(s: Schema, t: Table, code: string, p: Params, refs: map<string, Table>): (r: UpdateOutcome)
    requires WellFormed(s)
    ensures r.Changed? ==>
              |r.table| == |t| && Locate(s, t, code).Some?
              && forall j | 0 <= j < |t| && j != Locate(s, t, code).value :: r.table[j] == t[j]
  {
    match Locate(s, t, code)
    case None => Rejected(NotFound(code))
    case Some(i) =>
      if Field(t[i], CodeField) != code || code == "" then Rejected(InvalidCode)
      else
        match ApplyFields(s.fields, t, refs, p, t[i])
        case Err(e) => Rejected(e)
        case Ok(applied) => if !applied.1 then Unchanged else Changed(t[i := applied.0])
  }

  /** The outcome of an update that works on record `i`: refused exactly
      when a changed field fails its check, unchanged exactly when no field
      changes, and otherwise the table with record `i` replaced by one that
      holds the new value of every changed field and the old value of every
      other field. */
  predicate UpdatesRecord(s: Schema, t: Table, i: nat, p: Params, refs: map<string, Table>, r: UpdateOutcome)
    requires i < |t|
  {
    && (r.Rejected? <==> exists k | 0 <= k < |s.fields| :: Refused(s.fields[k], t, refs, p, t[i]))
    && (r == Unchanged <==>
          (forall k | 0 <= k < |s.fields| :: !Refused(s.fields[k], t, refs, p, t[i]))
          && forall k | 0 <= k < |s.fields| :: !Changes(s.fields[k], p, t[i]))
    && (r.Changed? ==>
          && |r.table| == |t| && r.table == t[i := r.table[i]]
          && forall k | 0 <= k < |s.fields| ::
               Field(r.table[i], s.fields[k].name)
               == if Changes(s.fields[k], p, t[i]) then p[s.fields[k].name] else Field(t[i], s.fields[k].name))
  }

  /** What an update reports.  An empty code is refused as invalid (as not
      found on an empty table); a code no record holds is not found;
      otherwise the update works on the first record holding the code. */
  lemma UpdateReports(s: Schema, t: Table, code: string, p: Params, refs: map<string, Table>)
    requires WellFormed(s)
    ensures code == "" ==>
              Update(s, t, code, p, refs) == Rejected(if t == [] then NotFound(code) else InvalidCode)
    ensures code != "" && !ExistsWith(t, CodeField, code) ==>
              Update(s, t, code, p, refs) == Rejected(NotFound(code))
    ensures code != "" && ExistsWith(t, CodeField, code) ==>
              exists i | 0 <= i < |t| ::
                && Field(t[i], CodeField) == code
                && (forall j | 0 <= j < i :: Field(t[j], CodeField) != code)
                && UpdatesRecord(s, t, i, p, refs, Update(s, t, code, p, refs))
  {
    if code != "" {
      var q := FieldQuery(CodeField, code);
      forall x ensures Matches(x, s.ratingField, q) <==> Field(x, CodeField) == code {
        FieldQueryMatches(x, s.ratingField, CodeField, code);
      }
      match Locate(s, t, code)
      case None =>
      case Some(i) =>
        UpdateAt(s, t, code, p, refs, i);
    }
  }

  /** An update whose code selects record `i` of the table. */
  lemma UpdateAt(s: Schema, t: Table, code: string, p: Params, refs: map<string, Table>, i: nat)
    requires WellFormed(s) && code != "" && Locate(s, t, code) == Some(i)
    requires Field(t[i], CodeField) == code
    ensures UpdatesRecord(s, t, i, p, refs, Update(s, t, code, p, refs))
  {
    var r := Update(s, t, code, p, refs);
    match ApplyFields(s.fields, t, refs, p, t[i])
    case Err(e) =>
      ApplyFieldsFirstError(s.fields, t, refs, p, t[i]);
    case Ok(applied) =>
      if applied.1 {
        ApplyFieldsValues(s.fields, t, refs, p, t[i]);
        assert r.table[i] == applied.0;
      }
  }

  /** `excluirFilme` / `excluirSubscriber` / `excluirFilmeSubscriber` as
      written: the first record of the select on the code is removed, and an
      empty code selects the whole table. */
  function DeleteAsWritten(s: Schema, t: Table, code: string): (r: Result<Table, StoreError>)
    ensures r.Ok? ==> |r.value| == |t| - 1
  {
    match Locate(s, t, code)
    case None => Err(NotFound(code))
    case Some(i) => Ok(t[..i] + t[i + 1..])
  }

  /** The delete the update operations' guard against an empty code
      implies: only a record carrying the code is removed. */
  function Delete(s: Schema, t: Table, code: string): (r: Result<Table, StoreError>)
    ensures r.Ok? <==> ExistsWith(t, CodeField, code) && code != ""
    ensures r.Ok? ==> exists i | 0 <= i < |t| ::
                        Field(t[i], CodeField) == code && r.value == t[..i] + t[i + 1..]
                        && forall j | 0 <= j < i :: Field(t[j], CodeField) != code
    ensures r.Err? ==> r.error == NotFound(code)
  {
    if code == "" then Err(NotFound(code))
    else
      var q := FieldQuery(CodeField, code);
      assert forall x :: Matches(x, s.ratingField, q) <==> Field(x, CodeField) == code;
      DeleteAsWritten(s, t, code)
  }

  /** `createTable...`: a table holding just the template record. */
  function CreateTable(s: Schema): (t: Table)
    ensures |t| == 1 && t[0] == s.template
  {
    [s.template]
  }
}

=== FILE: records.dfy ===
/** One table of the XML store: a `<root>` element holding one element per
    record, each record a list of named child elements with text.  A record
    is modelled as the map from child name to text, a table as the records
    in document order. */
module Records {

  type Record = map<string, string>
  type Table = seq<Record>

  /** The child every record starts with, holding its code ("F0003"). */
  const CodeField: string := "codigo"
  /** The child every record ends with, holding its registration time. */
  const DateField: string := "reg_date"

  /** `(string)$element->name`: the text of a child, "" when it is missing. */
  function Field(r: Record, name: string): string {
    if name in r then r[name] else ""
  }

  /** One child element `<name>text</name>`. */
  datatype Child = Child(name: string, text: string)

  /** The children written for a record, one per field name, in order. */
  function Encode(names: seq<string>, r: Record): (e: seq<Child>)
    ensures |e| == |names|
    ensures forall i | 0 <= i < |names| :: e[i] == Child(names[i], Field(r, names[i]))
  {
    if names == [] then [] else [Child(names[0], Field(r, names[0]))] + Encode(names[1..], r)
  }

  /** SimpleXML's `$element->name`: the text of the FIRST child so named. */
  function FirstText(e: seq<Child>, name: string): (t: string)
    ensures (forall i | 0 <= i < |e| :: e[i].name != name) ==> t == ""
    ensures forall i | 0 <= i < |e| && e[i].name == name ::
              (forall j | 0 <= j < i :: e[j].name != name) ==> t == e[i].text
  {
    if e == [] then ""
    else if e[0].name == name then e[0].text
    else FirstText(e[1..], name)
  }

  /** The `traduzSimpleXMLObjectTo...` conversions: read each field of the
      schema from the element, a missing child giving "". */
  function Decode(names: seq<string>, e: seq<Child>): (r: Record)
    ensures r.Keys == set n | n in names
  {
    map n | n in names :: FirstText(e, n)
  }

  predicate Distinct(names: seq<string>) {
    forall i, j | 0 <= i < j < |names| :: names[i] != names[j]
  }

  lemma {:induction false} FirstTextOfEncode(names: seq<string>, r: Record, n: string)
    requires n in names
    ensures FirstText(Encode(names, r), n) == Field(r, n)
    decreases |names|
  {
    if names[0] != n {
      assert n in names[1..];
      FirstTextOfEncode(names[1..], r, n);
    }
  }

  /** A record holding exactly the given fields decodes back from its
      encoding. */
  lemma DecodeEncode(names: seq<string>, r: Record)
    requires r.Keys == set n | n in names
    ensures Decode(names, Encode(names, r)) == r
  {
    forall n | n in names
      ensures Decode(names, Encode(names, r))[n] == r[n]
    {
      FirstTextOfEncode(names, r, n);
    }
  }

  /** An element whose children are exactly the fields, in order, encodes
      back from its decoding. */
  lemma EncodeDecode(names: seq<string>, e: seq<Child>)
    requires Distinct(names)
    requires |e| == |names| && forall i | 0 <= i < |e| :: e[i].name == names[i]
    ensures Encode(names, Decode(names, e)) == e
  {
    var r := Decode(names, e);
    forall i | 0 <= i < |e|
      ensures Encode(names, r)[i] == e[i]
    {
      assert names[i] in names;
      assert FirstText(e, names[i]) == e[i].text;
    }
  }

  /** The table has a record whose child `name` holds `value`. */
  predicate ExistsWith(t: Table, name: string, value: string) {
    exists i | 0 <= i < |t| :: Field(t[i], name) == value
  }

  /** The codes of the records, in document order. */
  function Codes(t: Table): (cs: seq<string>)
    ensures |cs| == |t|
    ensures forall i | 0 <= i < |t| :: cs[i] == Field(t[i], CodeField)
  {
    seq(|t|, i requires 0 <= i < |t| => Field(t[i], CodeField))
  }
}

=== FILE: store_properties.dfy ===
/** What the store operations keep true of a table: every code is the code
    of its number and the numbers increase along the document, and no two
    records share the value of a unique field.  Plus the round trips
    between the operations. */
module StoreProperties {
  import opened Wrappers
  import opened PhpText
  import opened Records
  import opened RecordQuery
  import opened CodeAllocation
  import opened RecordStore

  /** No two records share the value of a unique field. */
  predicate UniqueFields(s: Schema, t: Table) {
    forall k, i, j | 0 <= k < |s.fields| && s.fields[k].unique && 0 <= i < j < |t| ::
      Field(t[i], s.fields[k].name) != Field(t[j], s.fields[k].name)
  }

  /** The invariant of a stored table. */
  predicate Consistent(s: Schema, t: Table) {
    WellNumbered(Coder(s.prefix), CodeNumber, Codes(t)) && UniqueFields(s, t)
  }

  lemma CodesOfPlacement(t: Table, rec: Record, at: nat)
    requires at <= |t|
    ensures Codes(t[..at] + [rec] + t[at..]) == Place(Codes(t), Allocation(Field(rec, CodeField), at))
  {
    var u := t[..at] + [rec] + t[at..];
    var c := Place(Codes(t), Allocation(Field(rec, CodeField), at));
    forall j | 0 <= j < |u| ensures Codes(u)[j] == c[j] {
      if j < at {
        assert u[j] == t[j] && c[j] == Codes(t)[j];
      } else if j > at {
        assert u[j] == t[j - 1] && c[j] == Codes(t)[j - 1];
      }
    }
  }

  /** The record at position `x` of the table after an insert at `at` is
      the old record `x`, or `x - 1` past the insert. */
  lemma InsertedShift(t: Table, u: Table, at: nat)
    requires at <= |t| && |u| == |t| + 1
    requires u[..at] == t[..at] && u[at + 1..] == t[at..]
    ensures u == t[..at] + [u[at]] + t[at..]
    ensures forall x | 0 <= x < |u| && x != at :: u[x] == t[if x < at then x else x - 1]
  {
    forall x | 0 <= x < |u| && x != at ensures u[x] == t[if x < at then x else x - 1] {
      if x < at {
        assert u[x] == u[..at][x];
      } else {
        assert u[x] == u[at + 1..][x - at - 1];
      }
    }
  }

  /** The codes after an insert: the old ones with the allocated code
      placed at the allocated position; the allocated code is new. */
  lemma InsertKeepsNumbering(s: Schema, t: Table, p: Params, now: string)
    requires WellFormed(s) && WellNumbered(Coder(s.prefix), CodeNumber, Codes(t)) && Insert(s, t, p, now).Ok?
    ensures Allocate(s.prefix, Codes(t)).code !in Codes(t)
    ensures WellNumbered(Coder(s.prefix), CodeNumber, Codes(Insert(s, t, p, now).value))
  {
    var a := Allocate(s.prefix, Codes(t));
    var u := Insert(s, t, p, now).value;
    InsertPlacement(s, t, p, now);
    InsertedShift(t, u, a.at);
    CodesOfPlacement(t, u[a.at], a.at);
    StoreCodesInvert(s.prefix);
    AllocationKeepsNumbering(Coder(s.prefix), CodeNumber, Codes(t));
  }

  /** The new record's unique values were not taken, so they stay unique. */
  lemma InsertKeepsUnique(s: Schema, t: Table, p: Params, now: string)
    requires WellFormed(s) && UniqueFields(s, t) && Insert(s, t, p, now).Ok?
    ensures UniqueFields(s, Insert(s, t, p, now).value)
  {
    var at := Allocate(s.prefix, Codes(t)).at;
    var u := Insert(s, t, p, now).value;
    InsertOutcome(s, t, p, now);
    InsertPlacement(s, t, p, now);
    forall k | 0 <= k < |s.fields| && s.fields[k].unique
      ensures !ExistsWith(t, s.fields[k].name, Field(u[at], s.fields[k].name))
    {
      var f := s.fields[k];
      assert InsertFieldError(f, t, p).None?;
      TakenIff(t, f.name, InsertValue(f, p));
    }
    PlacementKeepsUnique(s, t, u, at);
  }

  /** Placing a record whose unique values no record holds keeps the unique
      fields unique. */
  lemma PlacementKeepsUnique(s: Schema, t: Table, u: Table, at: nat)
    requires UniqueFields(s, t)
    requires at <= |t| && |u| == |t| + 1 && u[..at] == t[..at] && u[at + 1..] == t[at..]
    requires forall k | 0 <= k < |s.fields| && s.fields[k].unique ::
               !ExistsWith(t, s.fields[k].name, Field(u[at], s.fields[k].name))
    ensures UniqueFields(s, u)
  {
    InsertedShift(t, u, at);
    forall k, i, j | 0 <= k < |s.fields| && s.fields[k].unique && 0 <= i < j < |u|
      ensures Field(u[i], s.fields[k].name) != Field(u[j], s.fields[k].name)
    {
      var name := s.fields[k].name;
      if i == at || j == at {
        var other := if i == at then j else i;
        var o := if other < at then other else other - 1;
        assert u[other] == t[o];
        assert Field(t[o], name) != Field(u[at], name);
      } else {
        assert u[i] == t[if i < at then i else i - 1];
        assert u[j] == t[if j < at then j else j - 1];
      }
    }
  }

  /** An insert keeps the table consistent, and its code is new. */
  lemma InsertKeepsConsistent(s: Schema, t: Table, p: Params, now: string)
    requires WellFormed(s) && Consistent(s, t) && Insert(s, t, p, now).Ok?
    ensures Allocate(s.prefix, Codes(t)).code !in Codes(t)
    ensures Consistent(s, Insert(s, t, p, now).value)
  {
    InsertKeepsNumbering(s, t, p, now);
    InsertKeepsUnique(s, t, p, now);
  }

  /** Removing any one record keeps the table consistent. */
  lemma RemoveKeepsConsistent(s: Schema, t: Table, i: nat)
    requires Consistent(s, t) && i < |t|
    ensures Consistent(s, t[..i] + t[i + 1..])
  {
    var u := t[..i] + t[i + 1..];
    RemoveKeepsNumbering(Coder(s.prefix), CodeNumber, Codes(t), i);
    CodesOfRemoval(t, i);
    RemoveKeepsUnique(s, t, i);
  }

  lemma CodesOfRemoval(t: Table, i: nat)
    requires i < |t|
    ensures Codes(t[..i] + t[i + 1..]) == Codes(t)[..i] + Codes(t)[i + 1..]
  {
    var u := t[..i] + t[i + 1..];
    assert forall x | 0 <= x < |u| :: u[x] == t[if x < i then x else x + 1];
  }

  lemma RemoveKeepsUnique(s: Schema, t: Table, i: nat)
    requires UniqueFields(s, t) && i < |t|
    ensures UniqueFields(s, t[..i] + t[i + 1..])
  {
    var u := t[..i] + t[i + 1..];
    assert forall x | 0 <= x < |u| :: u[x] == t[if x < i then x else x + 1];
  }

  lemma DeleteKeepsConsistent(s: Schema, t: Table, code: string)
    requires Consistent(s, t) && Delete(s, t, code).Ok?
    ensures Consistent(s, Delete(s, t, code).value)
  {
    var i :| 0 <= i < |t| && Delete(s, t, code).value == t[..i] + t[i + 1..];
    RemoveKeepsConsistent(s, t, i);
  }

  /** An update leaves every code where it was and keeps the table
      consistent. */
  lemma UpdateKeepsConsistent(s: Schema, t: Table, code: string, p: Params, refs: map<string, Table>)
    requires WellFormed(s) && Consistent(s, t) && Update(s, t, code, p, refs).Changed?
    ensures Codes(Update(s, t, code, p, refs).table) == Codes(t)
    ensures Consistent(s, Update(s, t, code, p, refs).table)
  {
    var at := Locate(s, t, code).value;
    var cur := t[at];
    var rec := ApplyFields(s.fields, t, refs, p, cur).value.0;
    var u := t[at := rec];
    assert Update(s, t, code, p, refs).table == u;
    ApplyFieldsValues(s.fields, t, refs, p, cur);
    assert Field(rec, CodeField) == Field(cur, CodeField);
    assert forall x | 0 <= x < |u| :: Codes(u)[x] == Codes(t)[x];
    forall k | 0 <= k < |s.fields| && s.fields[k].unique
      ensures Field(rec, s.fields[k].name) == Field(cur, s.fields[k].name)
              || !ExistsWith(t, s.fields[k].name, Field(rec, s.fields[k].name))
    {
      var f := s.fields[k];
      if Changes(f, p, cur) {
        assert !Refused(f, t, refs, p, cur);
        TakenIff(t, f.name, p[f.name]);
      }
    }
    ReplaceKeepsUnique(s, t, at, rec);
  }

  /** Replacing a record by one whose unique values are its own or held by
      no record keeps the unique fields unique. */
  lemma ReplaceKeepsUnique(s: Schema, t: Table, at: nat, rec: Record)
    requires UniqueFields(s, t) && at < |t|
    requires forall k | 0 <= k < |s.fields| && s.fields[k].unique ::
               Field(rec, s.fields[k].name) == Field(t[at], s.fields[k].name)
               || !ExistsWith(t, s.fields[k].name, Field(rec, s.fields[k].name))
    ensures UniqueFields(s, t[at := rec])
  {
    var u := t[at := rec];
    forall k, i, j | 0 <= k < |s.fields| && s.fields[k].unique && 0 <= i < j < |u|
      ensures Field(u[i], s.fields[k].name) != Field(u[j], s.fields[k].name)
    {
      var name := s.fields[k].name;
      if i == at || j == at {
        var other := if i == at then j else i;
        assert Field(t[other], name) != Field(t[at], name);
        assert Field(t[other], name) != Field(rec, name);
      }
    }
  }

  /** Delete removes the one record carrying the code. */
  lemma DeleteOnly(s: Schema, u: Table, c: string, at: nat)
    requires at < |u| && c != "" && Field(u[at], CodeField) == c
    requires forall x | 0 <= x < |u| && x != at :: Field(u[x], CodeField) != c
    ensures Delete(s, u, c) == Ok(u[..at] + u[at + 1..])
  {
  }

  lemma AllocatedCodeNotEmpty(prefix: char, codes: seq<string>)
    ensures Allocate(prefix, codes).code != ""
  {
    var code := Coder(prefix);
    match FindGap(code, codes)
    case None =>
      var last := if codes == [] then 0 else CodeNumber(codes[|codes| - 1]);
      assert Allocate(prefix, codes).code == Code(prefix, last + 1);
    case Some(k) =>
      assert Allocate(prefix, codes).code == Code(prefix, CodeNumber(codes[k]) - 1);
  }

  /** Deleting the code an insert allocated gives back the table before the
      insert. */
  lemma DeleteUndoesInsert(s: Schema, t: Table, p: Params, now: string)
    requires WellFormed(s) && Consistent(s, t) && Insert(s, t, p, now).Ok?
    ensures Delete(s, Insert(s, t, p, now).value, Allocate(s.prefix, Codes(t)).code) == Ok(t)
  {
    var a := Allocate(s.prefix, Codes(t));
    InsertPlacement(s, t, p, now);
    InsertedCodeIsOnlyAt(s, t, p, now);
    DeleteUndoesPlacement(s, t, Insert(s, t, p, now).value, a.code, a.at);
  }

  lemma DeleteUndoesPlacement(s: Schema, t: Table, u: Table, c: string, at: nat)
    requires at <= |t| && |u| == |t| + 1 && u[..at] == t[..at] && u[at + 1..] == t[at..]
    requires c != "" && Field(u[at], CodeField) == c
    requires forall x | 0 <= x < |u| && x != at :: Field(u[x], CodeField) != c
    ensures Delete(s, u, c) == Ok(t)
  {
    DeleteOnly(s, u, c, at);
    assert t[..at] + t[at..] == t;
  }

  /** The inserted record is the only one carrying its code. */
  lemma InsertedCodeIsOnlyAt(s: Schema, t: Table, p: Params, now: string)
    requires WellFormed(s) && Consistent(s, t) && Insert(s, t, p, now).Ok?
    ensures var a := Allocate(s.prefix, Codes(t));
            var u := Insert(s, t, p, now).value;
            a.code != "" && Field(u[a.at], CodeField) == a.code
            && forall x | 0 <= x < |u| && x != a.at :: Field(u[x], CodeField) != a.code
  {
    var a := Allocate(s.prefix, Codes(t));
    var u := Insert(s, t, p, now).value;
    InsertKeepsNumbering(s, t, p, now);
    InsertPlacement(s, t, p, now);
    InsertedShift(t, u, a.at);
    AllocatedCodeNotEmpty(s.prefix, Codes(t));
    forall x | 0 <= x < |u| && x != a.at ensures Field(u[x], CodeField) != a.code {
      assert Field(u[x], CodeField) == Codes(t)[if x < a.at then x else x - 1];
    }
  }

  lemma FirstMatchSame(t: Table, u: Table, ratingField: string, q: Query)
    requires |t| == |u|
    requires forall j | 0 <= j < |t| :: Matches(t[j], ratingField, q) <==> Matches(u[j], ratingField, q)
    ensures FirstMatch(t, ratingField, q) == FirstMatch(u, ratingField, q)
  {
    var a := FirstMatch(t, ratingField, q);
    var b := FirstMatch(u, ratingField, q);
    if a.Some? && b.Some? {
      assert !(a.value < b.value) && !(b.value < a.value);
    }
  }

  /** Repeating an update that changed the table changes nothing more:
      the source answers "Não houve alteração". */
  lemma UpdateIsIdempotent(s: Schema, t: Table, code: string, p: Params, refs: map<string, Table>)
    requires WellFormed(s) && Update(s, t, code, p, refs).Changed?
    ensures Update(s, Update(s, t, code, p, refs).table, code, p, refs) == Unchanged
  {
    var at := Locate(s, t, code).value;
    var cur := t[at];
    var rec := ApplyFields(s.fields, t, refs, p, cur).value.0;
    var u := t[at := rec];
    assert Update(s, t, code, p, refs).table == u;
    ApplyFieldsValues(s.fields, t, refs, p, cur);
    var q := FieldQuery(CodeField, code);
    forall j | 0 <= j < |t| ensures Matches(t[j], s.ratingField, q) <==> Matches(u[j], s.ratingField, q) {
      FieldQueryMatches(t[j], s.ratingField, CodeField, code);
      FieldQueryMatches(u[j], s.ratingField, CodeField, code);
    }
    FirstMatchSame(t, u, s.ratingField, q);
    assert Locate(s, u, code) == Some(at);
    assert forall i | 0 <= i < |s.fields| :: !Changes(s.fields[i], p, rec);
    assert ApplyFields(s.fields, u, refs, p, rec).Ok?;
  }

  /** On a table numbered 0, 1, 2, ... without gaps an insert appends the
      next code. */
  lemma InsertIntoDenseAppends(s: Schema, t: Table)
    requires Dense(Coder(s.prefix), Codes(t)) && t != []
    ensures Allocate(s.prefix, Codes(t)) == Allocation(Code(s.prefix, |t|), |t|)
  {
    StoreCodesInvert(s.prefix);
    DenseAllocatesNext(Coder(s.prefix), CodeNumber, Codes(t));
  }

  /** An insert into a table without gaps appends the next code and
      leaves the table without gaps. */
  lemma InsertKeepsDense(s: Schema, t: Table, p: Params, now: string)
    requires WellFormed(s) && Dense(Coder(s.prefix), Codes(t)) && t != [] && Insert(s, t, p, now).Ok?
    ensures Insert(s, t, p, now).value[..|t|] == t
    ensures Dense(Coder(s.prefix), Codes(Insert(s, t, p, now).value))
  {
    var a := Allocate(s.prefix, Codes(t));
    var u := Insert(s, t, p, now).value;
    InsertPlacement(s, t, p, now);
    StoreCodesInvert(s.prefix);
    DenseAllocatesNext(Coder(s.prefix), CodeNumber, Codes(t));
    InsertedShift(t, u, a.at);
    CodesOfPlacement(t, u[a.at], a.at);
  }

  /** After a delete in a table without gaps, the next insert reuses the
      deleted code at the deleted position. */
  lemma DeletedCodeIsReused(s: Schema, t: Table, k: nat)
    requires Dense(Coder(s.prefix), Codes(t)) && k < |t| && |t| >= 2
    ensures Delete(s, t, Codes(t)[k]) == Ok(t[..k] + t[k + 1..])
    ensures Allocate(s.prefix, Codes(t[..k] + t[k + 1..])) == Allocation(Codes(t)[k], k)
  {
    DenseCodeIsOnlyAt(s, t, k);
    DeleteOnly(s, t, Codes(t)[k], k);
    RemovedCodeIsAllocated(s, t, k);
  }

  /** In a table without gaps, each code is carried by one record only. */
  lemma DenseCodeIsOnlyAt(s: Schema, t: Table, k: nat)
    requires Dense(Coder(s.prefix), Codes(t)) && k < |t|
    ensures Codes(t)[k] != ""
    ensures forall x | 0 <= x < |t| && x != k :: Field(t[x], CodeField) != Codes(t)[k]
  {
    var c := Codes(t)[k];
    assert c == Code(s.prefix, k);
    forall x | 0 <= x < |t| && x != k ensures Field(t[x], CodeField) != c {
      assert Field(t[x], CodeField) == Code(s.prefix, x);
      CodeInjective(s.prefix, x, k);
    }
  }

  lemma RemovedCodeIsAllocated(s: Schema, t: Table, k: nat)
    requires Dense(Coder(s.prefix), Codes(t)) && k < |t| && |t| >= 2
    ensures Allocate(s.prefix, Codes(t[..k] + t[k + 1..])) == Allocation(Codes(t)[k], k)
  {
    var u := t[..k] + t[k + 1..];
    assert Codes(u) == Codes(t)[..k] + Codes(t)[k + 1..] by {
      assert forall x | 0 <= x < |u| :: u[x] == t[if x < k then x else x + 1];
    }
    StoreCodesInvert(s.prefix);
    GapIsReused(Coder(s.prefix), CodeNumber, Codes(t), k);
  }

  /** A run of inserts, as the test drivers of the store issue them. */
  function InsertAll(s: Schema, t: Table, ps: seq<Params>, now: string): (r: Result<Table, StoreError>)
    decreases |ps|
  {
    if ps == [] then Ok(t)
    else
      var t' :- Insert(s, t, ps[0], now);
      InsertAll(s, t', ps[1..], now)
  }

  /** Every required field of the schema is given. */
  predicate GivesRequired(s: Schema, p: Params) {
    forall k | 0 <= k < |s.fields| :: s.fields[k].required ==> !IsNullParam(p, s.fields[k].name)
  }

  /** Into a table without gaps, inserts that give every required field of a
      schema without unique or rating fields all succeed and append the
      next codes. */
  lemma {:induction false} InsertAllAppends(s: Schema, t: Table, ps: seq<Params>, now: string)
    requires WellFormed(s) && Dense(Coder(s.prefix), Codes(t)) && t != []
    requires forall k | 0 <= k < |s.fields| :: !s.fields[k].unique && !s.fields[k].rating
    requires forall i | 0 <= i < |ps| :: GivesRequired(s, ps[i])
    ensures InsertAll(s, t, ps, now).Ok?
    ensures |InsertAll(s, t, ps, now).value| == |t| + |ps|
    ensures InsertAll(s, t, ps, now).value[..|t|] == t
    ensures Dense(Coder(s.prefix), Codes(InsertAll(s, t, ps, now).value))
    decreases |ps|
  {
    if ps != [] {
      PlainFieldsAccepted(s, t, ps[0]);
      InsertOutcome(s, t, ps[0], now);
      var t' := Insert(s, t, ps[0], now).value;
      InsertKeepsDense(s, t, ps[0], now);
      assert forall i | 0 <= i < |ps[1..]| :: GivesRequired(s, ps[1..][i]);
      InsertAllAppends(s, t', ps[1..], now);
      assert InsertAll(s, t, ps, now) == InsertAll(s, t', ps[1..], now);
      var r := InsertAll(s, t', ps[1..], now).value;
      assert r[..|t|] == r[..|t'|][..|t|];
    }
  }

  /** Fields that are neither unique nor ratings only check that required
      values are given. */
  lemma PlainFieldsAccepted(s: Schema, t: Table, p: Params)
    requires forall k | 0 <= k < |s.fields| :: !s.fields[k].unique && !s.fields[k].rating
    requires GivesRequired(s, p)
    ensures forall k | 0 <= k < |s.fields| :: InsertFieldError(s.fields[k], t, p).None?
  {
  }

  /** Inserts into a new table of such a schema number the records 0, 1,
      2, ... after the template. */
  lemma InsertAllFromTemplate(s: Schema, ps: seq<Params>, now: string)
    requires WellFormed(s) && Dense(Coder(s.prefix), Codes(CreateTable(s)))
    requires forall k | 0 <= k < |s.fields| :: !s.fields[k].unique && !s.fields[k].rating
    requires forall i | 0 <= i < |ps| :: GivesRequired(s, ps[i])
    ensures var r := InsertAll(s, CreateTable(s), ps, now);
            && r.Ok? && |r.value| == |ps| + 1 && r.value[0] == s.template
            && forall i | 0 <= i < |r.value| :: Field(r.value[i], CodeField) == Code(s.prefix, i)
  {
    InsertAllAppends(s, CreateTable(s), ps, now);
    var r := InsertAll(s, CreateTable(s), ps, now).value;
    assert r[0] == r[..1][0];
    forall i | 0 <= i < |r| ensures Field(r[i], CodeField) == Code(s.prefix, i) {
      assert Codes(r)[i] == Coder(s.prefix)(i);
    }
  }
}

=== FILE: sub_transaction.dfy ===
/** `DefaultSubTransaction`: a sub-transaction of a native transaction.

    It collects the log items of the operations done under it in five
    logs, and ends exactly once, by commit or by rollback, replaying every
    log item in a fixed order and then telling its parent.

    The log item classes and `TransactionStatus` are not part of this
    model: a log item is its kind plus, for a `DefaultLogItem`, the
    container it touched, and the replay of an item is recorded as an
    event instead of being run. */
module SubTransaction {
  import opened Wrappers
  import opened Digits

  /** The statuses a sub-transaction passes through.  COMMITING and
      ABORTING are only visible while the logs are replayed. */
  datatype Status = Running | Commiting | Commited | Aborting | Aborted

  /** The classes `addLog` tells apart; `OtherItem` is any other class. */
  datatype LogKind = WriteItem | ContainerCreateItem | ReadItem | TakeItem | ContainerDestroyItem
                   | ContainerLockItem | OtherItem

  /** A log item; `container` is present for a `DefaultLogItem`. */
  datatype LogItem = LogItem(kind: LogKind, container: Option<string>)

  /** The five logs. */
  datatype LogName = InsertLog | ReadLog | DeleteLog | LockLog | OtherLog

  datatype Logs = Logs(insert: seq<LogItem>, read: seq<LogItem>, delete: seq<LogItem>,
                       lock: seq<LogItem>, other: seq<LogItem>)

  datatype SubTx = SubTx(id: string, parent: string, active: bool, status: Status, logs: Logs,
                         containers: seq<string>)

  datatype TxError =
    | NullTransaction              // NullPointerException: a null parent
    | NullLogItem                  // NullPointerException: a null log item
    | NegativeId(stxId: int)       // IllegalArgumentException
    | InvalidTransaction(id: string)

  /** What ending a sub-transaction does, in order: each log item is
      committed or rolled back, and finally the parent is told. */
  datatype Event = CommitItem(item: LogItem) | RollbackItem(item: LogItem) | ParentNotified

  const NoLogs := Logs([], [], [], [], [])

  /** The constructor: a null parent and a negative id are refused; the id
      is the parent's id followed by the number's decimal text. */
  function NewSubTx(parent: Option<string>, stxId: int): Result<SubTx, TxError> {
    if parent.None? then Err(NullTransaction)
    else if stxId < 0 then Err(NegativeId(stxId))
    else Ok(SubTx(parent.value + IntToString(stxId), parent.value, true, Running, NoLogs, []))
  }

  /** `isValid`. */
  predicate IsValid(t: SubTx) {
    t.status != Commited && t.status != Aborted
  }

  /** The states a sub-transaction reaches: active and running, or ended
      for good. */
  predicate Consistent(t: SubTx) {
    t.active <==> t.status == Running
  }

  function Commits(items: seq<LogItem>): (r: seq<Event>)
    ensures |r| == |items|
    ensures forall k | 0 <= k < |items| :: r[k] == CommitItem(items[k])
  {
    if items == [] then [] else [CommitItem(items[0])] + Commits(items[1..])
  }

  function Rollbacks(items: seq<LogItem>): (r: seq<Event>)
    ensures |r| == |items|
    ensures forall k | 0 <= k < |items| :: r[k] == RollbackItem(items[k])
  {
    if items == [] then [] else [RollbackItem(items[0])] + Rollbacks(items[1..])
  }

  /** Every item in the logs, in the order commit replays them: insert,
      read, delete, lock, other. */
  function Items(l: Logs): seq<LogItem> {
    l.insert + l.read + l.delete + l.lock + l.other
  }

  /** The order rollback replays them: delete, read, insert, lock,
      other. */
  function RollbackOrder(l: Logs): seq<LogItem> {
    l.delete + l.read + l.insert + l.lock + l.other
  }

  /** `commit`: only an active sub-transaction commits. */
  function Commit(t: SubTx): Result<(SubTx, seq<Event>), TxError> {
    if !t.active then Err(InvalidTransaction(t.id))
    else Ok((t.(active := false, status := Commited), Commits(Items(t.logs)) + [ParentNotified]))
  }

  /** `rollback`: only an active sub-transaction rolls back. */
  function Rollback(t: SubTx): Result<(SubTx, seq<Event>), TxError> {
    if !t.active then Err(InvalidTransaction(t.id))
    else Ok((t.(active := false, status := Aborted), Rollbacks(RollbackOrder(t.logs)) + [ParentNotified]))
  }

  /** The routing of `addLog`: which log takes an item of each kind.  The
      creation of a container goes to the other log, so that a rollback
      removes the entries written into it before it is destroyed. */
  function LogOf(kind: LogKind): LogName {
    match kind
    case WriteItem => InsertLog
    case ContainerCreateItem => OtherLog
    case ReadItem => ReadLog
    case TakeItem => DeleteLog
    case ContainerDestroyItem => DeleteLog
    case ContainerLockItem => LockLog
    case OtherItem => OtherLog
  }

  function Get(l: Logs, name: LogName): seq<LogItem> {
    match name
    case InsertLog => l.insert
    case ReadLog => l.read
    case DeleteLog => l.delete
    case LockLog => l.lock
    case OtherLog => l.other
  }

  function Append(l: Logs, name: LogName, i: LogItem): Logs {
    match name
    case InsertLog => l.(insert := l.insert + [i])
    case ReadLog => l.(read := l.read + [i])
    case DeleteLog => l.(delete := l.delete + [i])
    case LockLog => l.(lock := l.lock + [i])
    case OtherLog => l.(other := l.other + [i])
  }

  /** `addLog`: a null item is refused; the container of a `DefaultLogItem`
      is remembered, and the item goes to the log of its kind. */
  function AddLog(t: SubTx, item: Option<LogItem>): Result<SubTx, TxError> {
    if item.None? then Err(NullLogItem)
    else
      var i := item.value;
      Ok(t.(logs := Append(t.logs, LogOf(i.kind), i),
            containers := t.containers + if i.container.Some? then [i.container.value] else []))
  }

  /** Every log holds only items routed to it. */
  predicate Routed(l: Logs) {
    forall name: LogName, x | x in Get(l, name) :: LogOf(x.kind) == name
  }

  /** A new sub-transaction exists exactly for a present parent and a
      non-negative id; it is active, running, valid and has empty logs, and
      its id starts with the parent's id. */
  lemma NewIsRunning(parent: Option<string>, stxId: int)
    ensures NewSubTx(parent, stxId).Ok? <==> parent.Some? && stxId >= 0
    ensures parent.None? ==> NewSubTx(parent, stxId) == Err(NullTransaction)
    ensures NewSubTx(parent, stxId).Ok? ==>
              var t := NewSubTx(parent, stxId).value;
              && t.active && t.status == Running && IsValid(t) && Consistent(t) && Routed(t.logs)
              && Items(t.logs) == [] && t.containers == []
              && t.parent == parent.value
              && t.id[..|parent.value|] == parent.value
              && ParseInt(t.id[|parent.value|..]) == Some(stxId)
  {
    if parent.Some? && stxId >= 0 {
      var t := NewSubTx(parent, stxId).value;
      assert t.id[|parent.value|..] == IntToString(stxId);
      ParseIntToString(stxId);
    }
  }

  /** Commit and rollback succeed exactly on an active sub-transaction, end
      it in COMMITED or ABORTED, leave it invalid, and tell the parent once,
      last.  Whichever came first, a second commit or rollback is
      refused. */
  lemma EndsOnce(t: SubTx)
    requires Consistent(t)
    ensures Commit(t).Ok? <==> t.active
    ensures Rollback(t).Ok? <==> t.active
    ensures Commit(t).Ok? ==>
              var (t', events) := Commit(t).value;
              && t'.status == Commited && !IsValid(t') && Consistent(t')
              && Commit(t') == Err(InvalidTransaction(t.id)) && Rollback(t') == Err(InvalidTransaction(t.id))
              && events[|events| - 1] == ParentNotified
              && (forall k | 0 <= k < |events| - 1 :: events[k] != ParentNotified)
    ensures Rollback(t).Ok? ==>
              var (t', events) := Rollback(t).value;
              && t'.status == Aborted && !IsValid(t') && Consistent(t')
              && Commit(t') == Err(InvalidTransaction(t.id)) && Rollback(t') == Err(InvalidTransaction(t.id))
              && events[|events| - 1] == ParentNotified
              && (forall k | 0 <= k < |events| - 1 :: events[k] != ParentNotified)
    ensures IsValid(t) <==> t.status != Commited && t.status != Aborted
  {
  }

  /** Commit replays every item of the logs once, in log order. */
  lemma CommitReplaysAll(t: SubTx)
    requires t.active
    ensures var events := Commit(t).value.1;
            && |events| == |Items(t.logs)| + 1
            && forall k | 0 <= k < |Items(t.logs)| :: events[k] == CommitItem(Items(t.logs)[k])
  {
  }

  /** Rollback replays exactly the items commit would, each once, in the
      order delete, read, insert, lock, other. */
  lemma RollbackReplaysAll(t: SubTx)
    requires t.active
    ensures var events := Rollback(t).value.1;
            var order := t.logs.delete + t.logs.read + t.logs.insert + t.logs.lock + t.logs.other;
            && |events| == |order| + 1
            && (forall k | 0 <= k < |order| :: events[k] == RollbackItem(order[k]))
            && multiset(order) == multiset(Items(t.logs))
  {
  }

  /** The items of all logs, counted log by log. */
  lemma ItemsMultiset(l: Logs)
    ensures multiset(Items(l)) == multiset(l.insert) + multiset(l.read) + multiset(l.delete)
                                  + multiset(l.lock) + multiset(l.other)
  {
  }

  /** Appending to one log adds the item to that log only. */
  lemma AppendFacts(l: Logs, name: LogName, i: LogItem)
    ensures Get(Append(l, name, i), name) == Get(l, name) + [i]
    ensures forall other: LogName | other != name :: Get(Append(l, name, i), other) == Get(l, other)
    ensures multiset(Items(Append(l, name, i))) == multiset(Items(l)) + multiset{i}
  {
    AppendCounts(l, name, i);
  }

  lemma AppendCounts(l: Logs, name: LogName, i: LogItem)
    ensures multiset(Items(Append(l, name, i))) == multiset(Items(l)) + multiset{i}
  {
    var l' := Append(l, name, i);
    ItemsMultiset(l);
    ItemsMultiset(l');
    match name {
      case InsertLog => assert multiset(l'.insert) == multiset(l.insert) + multiset{i};
      case ReadLog => assert multiset(l'.read) == multiset(l.read) + multiset{i};
      case DeleteLog => assert multiset(l'.delete) == multiset(l.delete) + multiset{i};
      case LockLog => assert multiset(l'.lock) == multiset(l.lock) + multiset{i};
      case OtherLog => assert multiset(l'.other) == multiset(l.other) + multiset{i};
    }
  }

  /** `addLog` refuses a null item; otherwise the item is appended to the
      log of its kind and to no other, the containers grow by the item's
      container exactly for a `DefaultLogItem`, and every log still holds
      only items routed to it. */
  lemma AddLogRoutes(t: SubTx, item: LogItem)
    requires Routed(t.logs)
    ensures AddLog(t, None) == Err(NullLogItem)
    ensures AddLog(t, Some(item)).Ok?
    ensures var t' := AddLog(t, Some(item)).value;
            && Get(t'.logs, LogOf(item.kind)) == Get(t.logs, LogOf(item.kind)) + [item]
            && (forall name: LogName | name != LogOf(item.kind) :: Get(t'.logs, name) == Get(t.logs, name))
            && multiset(Items(t'.logs)) == multiset(Items(t.logs)) + multiset{item}
            && t'.containers == t.containers + (if item.container.Some? then [item.container.value] else [])
            && t'.id == t.id && t'.active == t.active && t'.status == t.status
            && Routed(t'.logs)
  {
    AppendFacts(t.logs, LogOf(item.kind), item);
  }

  /** On rollback, an entry written in a sub-transaction is removed before
      a container created in it is destroyed, and every take or destroy is
      undone before every write. */
  lemma RollbackUndoesWritesBeforeCreate(t: SubTx, i: nat, j: nat)
    requires t.active && Routed(t.logs)
    requires var events := Rollback(t).value.1;
             && i < |events| - 1 && j < |events| - 1
             && events[i].RollbackItem? && events[j].RollbackItem?
    ensures var events := Rollback(t).value.1;
            events[i].item.kind == WriteItem && events[j].item.kind == ContainerCreateItem ==> i < j
    ensures var events := Rollback(t).value.1;
            LogOf(events[i].item.kind) == DeleteLog && events[j].item.kind == WriteItem ==> i < j
  {
    var order := RollbackOrder(t.logs);
    RollbackReplaysAll(t);
    PositionOfKind(t.logs, i);
    PositionOfKind(t.logs, j);
  }

  /** Where an item sits in the rollback order follows from its log. */
  lemma PositionOfKind(l: Logs, i: nat)
    requires Routed(l)
    requires i < |RollbackOrder(l)|
    ensures var a := |l.delete|;
            var b := a + |l.read|;
            var c := b + |l.insert|;
            var d := c + |l.lock|;
            var name := LogOf(RollbackOrder(l)[i].kind);
            && (name == DeleteLog ==> i < a)
            && (name == InsertLog ==> b <= i < c)
            && (name == OtherLog ==> d <= i)
  {
    var order := RollbackOrder(l);
    var a := |l.delete|;
    var b := a + |l.read|;
    var c := b + |l.insert|;
    var d := c + |l.lock|;
    if i < a {
      assert order[i] == l.delete[i] && order[i] in Get(l, DeleteLog);
    } else if i < b {
      assert order[i] == l.read[i - a] && order[i] in Get(l, ReadLog);
    } else if i < c {
      assert order[i] == l.insert[i - b] && order[i] in Get(l, InsertLog);
    } else if i < d {
      assert order[i] == l.lock[i - c] && order[i] in Get(l, LockLog);
    } else {
      assert order[i] == l.other[i - d] && order[i] in Get(l, OtherLog);
    }
  }
}

=== FILE: wrappers.dfy ===
/** Failure-compatible wrappers shared by every module of the model:
    `Option` stands for a Java or PHP value that may be null, and `Result`
    for an operation that either produces a value or raises an error. */
module Wrappers {

  datatype Option<+T> = None | Some(value: T) {
    predicate IsFailure() { None? }

    function PropagateFailure<U>(): Option<U>
      requires None?
    {
      None
    }

    function Extract(): T
      requires Some?
    {
      value
    }
  }

  datatype Result<+T, +E> = Ok(value: T) | Err(error: E) {
    predicate IsFailure() { Err? }

    function PropagateFailure<U>(): Result<U, E>
      requires Err?
    {
      Err(error)
    }

    function Extract(): T
      requires Ok?
    {
      value
    }
  }
}
